=== FILE: README.md ===
# Brochure pipeline — a Dafny model

This project models the deterministic core of a three-stage pipeline that
turns uploaded product documents into a PDF brochure:

1. **Ingestion** (`ingest.py`). The PDF and DOCX files of an input folder are
   loaded. Every document is tagged with its file name. The documents are split
   into chunks, and the chunks are written one JSON record per line to
   `chunks.jsonl` in a fresh job folder. The folder is named after the clock
   and a random UUID. Embeddings may optionally be created.
2. **Summarization** (`summarizer.py`). The chunk file is read back and the
   usable chunk texts are framed and cut to a character budget. The result is
   sent to a hosted language model. The JSON reply is stamped with
   `_metadata` and saved as `brochure.json`.
3. **Layout** (`bro_pdf.py`). `brochure.json` is read and its descriptions
   padded, its lists capped and its advantage cards laid out three to a row.
   Images are picked from a folder, and the whole is turned into the story of
   blocks that ReportLab draws. The PDF is named after the job.

Files, the clock, the UUID, document loaders, the text splitter, the language
model and the embedding service are all parameters:
- the file system is a `map<string, string>` from path to contents, plus a
  set of existing folders;
- the loaders and services are functions whose `None` or `false` result
  stands for an exception.

Side effects are returned as traces, so their order can be stated. JSON is
modelled concretely. `JsonCodec.Encode` writes the text `json.dump` writes with
default separators and `ensure_ascii=False`, as `save_brochure` calls it. `JsonCodec.Decode` parses it back, and the round trip is
proved, not assumed.

Modules, one per file:
- `Base`: Option, Result and the pipeline's exceptions.
- `Seqs`: sequence lemmas.
- `Text`: Python string operations.
- `FileNames`: `Path.suffix`.
- `Ordering`: string order and sorting.
- `Json` and `JsonCodec`: JSON values and the codec.
- `ChunkStore`: the chunk file.
- `PromptContext`: `prepare_context`.
- `Summarizer`.
- `JobIds`: job names and the job listing.
- `Ingest`.
- `Layout`: the story built by `build_pdf_from_brochure`.
- `Builder`: the builder's `main` and how it reads the brochure.

Where the documented behaviour and the code differ, the model follows the
code:
- `run_ingest` checks for the API key only after `chunks.jsonl` has been
  written.
- A loader that raises aborts the whole ingestion; the failure is not caught
  file by file.
- Chunks with blank text are written to the chunk file. Only
  `prepare_context` skips them.
- An empty chunk list raises `ValueError` (`Base.NoChunks`).

## Model

| member | source | states |
|---|---|---|
| Text.RStripChar | bro_pdf.py:442 | `s.rstrip(c)`: the result is a prefix of `s`, everything dropped is `c`, and the result does not end in `c` |
| Text.Lower | ingest.py:23 | `str.lower()` maps every character on its own and keeps the length |
| Text.Split | bro_pdf.py:439 | `s.split(c)` yields at least one piece and no piece contains the separator |
| Text.SplitAround | bro_pdf.py:439 | splitting at a separator splits the two sides independently |
| Text.PyPrefix | summarizer.py:65 | a slice `s[:k]` is a prefix of `s` of length `k` clamped to `len(s)`; a negative `k` counts from the end |
| Text.NatTextSpec | ingest.py:86 | the decimal text of a number is all digits, reads back as the number, and has no leading zero |
| Text.FixedValue | ingest.py:86 | a zero-padded field of width `w` is all digits and reads back as the number |
| Text.JoinPathAssoc | summarizer.py:164-166 | joining is associative, `(a / b) / c == a / (b / c)`, so a file path built from the job folder is the path built from the joined tail |
| Text.JoinPathEnds | ingest.py:87 | `a / b` ends with `b` |
| FileNames.SuffixShape | ingest.py:23 | `Path.suffix` is empty or starts with the last dot, which is neither the first nor the last character |
| FileNames.SuffixOf | ingest.py:23 | a name `stem.ext` with a non-empty stem and a dot-free extension has suffix `.ext` |
| FileNames.NoSuffix | ingest.py:23 | a name without a usable dot has an empty suffix |
| Json.Set | summarizer.py:135 | `d[k] = v` makes `k` hold `v`, leaves every other key's value alone, keeps a present key's position and appends a new one |
| JsonCodec.RoundTrip | summarizer.py:157 | decoding the encoding of any well-formed value gives the value back |
| JsonCodec.LineRoundTrip | ingest.py:59-63 | an encoded record has no line break, and the stripped line, with or without its `\n`, decodes to the record |
| JsonCodec.Decode | summarizer.py:133 | anything decoded is well formed: no object repeats a key |
| JsonCodec.SurrogatePairDecodes | summarizer.py:133 | `json.loads` reads the escaped surrogate pair `\ud83d\ude00` as the one character U+1F600 |
| ChunkStore.Records | ingest.py:59-62 | one `{"text", "metadata"}` record per document, in document order |
| ChunkStore.RecordKeys | ingest.py:59-62 | every record has exactly the keys `text` and `metadata` |
| ChunkStore.SaveChunksLines | ingest.py:56-63 | the chunk file holds exactly one `\n`-terminated line per document, in order, and each stripped line decodes to that document's record |
| ChunkStore.LoadChunks | summarizer.py:37-52 | a missing file is `FileNotFoundError` with its path; otherwise no more values than lines come back |
| ChunkStore.DecodeLinesAppend | summarizer.py:44-49 | lines are decoded independently: a file's values are its first part's values followed by the rest's |
| ChunkStore.DecodeLinesSkip | summarizer.py:46-49 | a malformed line contributes nothing and leaves the lines around it unaffected |
| ChunkStore.DecodeLinesAll | summarizer.py:44-47 | when every line decodes, the values are the lines' values in file order |
| ChunkStore.DecodeRecordLines | summarizer.py:44-47 | the lines written for documents decode to their records |
| ChunkStore.ChunkFileRoundTrip | ingest.py:56-63 | `load_chunks` on the file `save_chunks` wrote returns the documents' records in order |
| ChunkStore.MalformedLineSkipped | summarizer.py:46-49 | a malformed line between saved chunks is dropped and every saved record survives in order |
| ChunkStore.Newlines | summarizer.py:44 | universal-newline reading leaves no carriage return |
| PromptContext.Included | summarizer.py:59-63 | a chunk contributes at most one part |
| PromptContext.TextFramed | summarizer.py:59-63 | a chunk with non-blank text contributes exactly its frame `--- Chunk i+1 ---\n` + text + `\n` |
| PromptContext.BlankChunkSkipped | summarizer.py:59-61 | a chunk whose text is blank contributes nothing and does not shift the frames of the others |
| PromptContext.ChunkFramed | summarizer.py:58-63 | the frame of a usable chunk is numbered by its index in the full list, blank chunks included |
| PromptContext.FramesSplit | summarizer.py:58-63 | the frames of a range are the frames of its two halves |
| PromptContext.FramesPrefix | summarizer.py:58-63 | the frames of the first chunks do not depend on the chunks after them |
| PromptContext.TypedEnd | summarizer.py:58-59 | finds the first chunk whose `text` cannot be read; all before it can |
| PromptContext.CutFits | summarizer.py:64-69 | parts that fit are kept whole, and the rest is cut against the budget they leave |
| PromptContext.CutOverflow | summarizer.py:64-66 | once a part overflows, no later part is looked at |
| PromptContext.CutShape | summarizer.py:64-69 | every kept part but the last is the input part, and the last is a prefix of its input part |
| PromptContext.CutIsPrefix | summarizer.py:64-69 | the kept text is exactly the first `max_chars` characters of all the parts |
| PromptContext.CutBudget | summarizer.py:64-69 | the kept parts hold `min(total, max_chars)` characters |
| PromptContext.BreakCut | summarizer.py:64-66 | the first overflowing part is cut to `max_chars - total_chars` characters and ends the list |
| PromptContext.ErrorResult | summarizer.py:58-60 | a chunk whose `text` cannot be read, reached before the budget is used up, makes the call fail |
| PromptContext.EndResult | summarizer.py:58-72 | when everything fits, the context is all frames joined by `\n` |
| PromptContext.BreakResult | summarizer.py:63-72 | when a chunk overflows, the context is the earlier frames plus its cut prefix, joined by `\n` |
| PromptContext.PrepareContext | summarizer.py:54-72 | the loop of `prepare_context` computes the loop-free definition: frames of usable chunks, cut to the budget, joined |
| PromptContext.ScanChunk | summarizer.py:58-69 | one pass of the loop either hands on the state for the next chunk (the frames so far, their total, still within the budget) or ends with exactly the result of the whole call |
| PromptContext.ErrorStep | summarizer.py:58-59 | a chunk without a readable `text` ends the scan with the call's error |
| PromptContext.SkipStep | summarizer.py:59-61 | a blank chunk moves the scan on with the parts and total unchanged |
| PromptContext.BreakStep | summarizer.py:63-66 | a chunk whose frame overflows ends the scan with the earlier frames plus the frame's cut prefix |
| PromptContext.TakeStep | summarizer.py:63-69 | a chunk whose frame fits is added whole, its length added to the total, and the budget still holds |
| PromptContext.ContextBudget | summarizer.py:54-72 | with `max_chars >= 0` the parts total at most `max_chars`, match the framed texts' prefix, keep earlier parts whole, and the context is at most `max_chars + #parts - 1` long |
| Text.JoinLength | summarizer.py:72 | `"\n".join(parts)` is as long as the parts together plus one separator between each two |
| PromptContext.LaterChunksIgnored | summarizer.py:64-66 | chunks after the overflowing one never influence the context |
| Summarizer.NewSummarizer | summarizer.py:27-34 | construction fails with the missing-key error exactly when the key is unset or empty, and keeps model and token limit otherwise |
| Summarizer.Answer | summarizer.py:132-149 | the reply becomes a brochure exactly when it is present, parses, and is an object |
| Summarizer.AnswerErrors | summarizer.py:132-149 | a failed call, unparseable JSON and a non-object reply give the service, decode and type errors respectively |
| Summarizer.StampedReply | summarizer.py:133-139 | the brochure is the reply with `_metadata` set and nothing else changed; the key is appended unless present |
| Summarizer.MetadataWellFormed | summarizer.py:135-139 | the `_metadata` object is well formed |
| Summarizer.CountsAllChunks | summarizer.py:135-139 | `chunks_processed` counts every loaded chunk, also blank or cut-off ones |
| Summarizer.Generate | summarizer.py:74-142 | an empty chunk list fails before any request; otherwise at most one request is sent, carrying the prepared context |
| Summarizer.OnlyTheReplyMatters | summarizer.py:115-133 | the outcome depends on the model only through its reply to the request sent |
| Summarizer.SaveBrochure | summarizer.py:151-157 | saving writes the brochure file and changes no other file |
| Summarizer.BrochureFileRoundTrip | summarizer.py:151-157 | the saved file reads back as the brochure |
| Summarizer.RunAt | summarizer.py:164-182 | a failed run writes nothing, except that a brochure the closing report cannot count is saved before the run fails with a type error; a successful run writes exactly the brochure file, and its three lists can be counted; no request is sent unless the chunk file exists |
| Summarizer.RunSummarizer | summarizer.py:162-182 | the same, for the paths `jobs_root/job_id/chunks.jsonl` and `brochure.json` |
| Summarizer.KeyCheckedFirst | summarizer.py:172-173 | without a key nothing is read, sent or written |
| Summarizer.MissingChunkFile | summarizer.py:40-42 | a missing chunk file is reported with its path, before any request |
| Summarizer.BadReplyWritesNothing | summarizer.py:173-175 | an unparseable reply is a decode error and no brochure file is written |
| Summarizer.SavedBrochureReadsBack | summarizer.py:174-175 | after a successful run, `brochure.json` decodes to the returned brochure |
| Summarizer.ReportAfterSave | summarizer.py:173-182 | a generated brochure is always saved; the run then succeeds exactly when `len()` applies to its features, advantages and steps, and fails with a type error otherwise |
| Summarizer.StampKeepsReportable | summarizer.py:135-139 | setting `_metadata` keeps the three counted lists countable |
| Summarizer.ObjectReplyGenerated | summarizer.py:132-139 | a reply decoding to an object becomes that object with `_metadata` set |
| Summarizer.ObjectReplyRun | summarizer.py:171-182 | with a key, loadable chunks and a reply decoding to a countable object, the run succeeds with that object stamped |
| Summarizer.NullFeaturesAnswer | summarizer.py:132-139 | the reply `{"key_features": null}` is an object, so it is stamped and accepted |
| Summarizer.NullFeaturesUnreportable | summarizer.py:179 | `len(None)` fails, so that brochure's features cannot be counted |
| Summarizer.NullFeaturesFailAfterSave | summarizer.py:173-182 | with that reply the run raises a type error, yet `brochure.json` is written and decodes to the stamped brochure |
| Summarizer.RecordText | summarizer.py:59 | a saved record's `text` is its document's content |
| Summarizer.RecordsContext | summarizer.py:58-72 | records written by ingestion always have readable text, so their context is their frames cut and joined |
| Summarizer.IngestedChunksReachModel | summarizer.py:164-174 | on a chunk file written for documents, the one request carries those documents' context |
| Summarizer.SavedChunksReachModel | summarizer.py:164-174 | the same for any chunk-file path |
| Summarizer.LoadedChunksReachModel | summarizer.py:172-174 | with a key and loadable chunks, exactly one request is sent, with their context |
| JobIds.JobIdWidth | ingest.py:86 | for four-digit years the stamp is 16 characters and the job id 24 |
| JobIds.FixedLess | ingest.py:86 | zero-padded numbers of one width compare like the numbers |
| JobIds.StampFieldsLess | ingest.py:86 | an earlier clock reading gives a smaller stamp |
| JobIds.JobIdOrder | ingest.py:86 | a job started in an earlier second has the smaller id, whatever the UUIDs |
| JobIds.ListJobs | app.py:249-253 | the listing has as many entries as there are folders |
| JobIds.ListJobsOrder | app.py:249-253 | the listing is a permutation of the folder names, highest first |
| JobIds.NewestFirst | app.py:249-253 | of two jobs, the later one is listed first |
| Ingest.KindOfExtension | ingest.py:23-31 | the loader is chosen by the lower-cased final suffix: `.pdf`, `.docx`, or none |
| Ingest.Plan | ingest.py:21-31 | no more loads are planned than names are listed |
| Ingest.PlanSound | ingest.py:21-31 | every planned load is a listed, supported name, with the loader for its suffix and the joined path |
| Ingest.PlanComplete | ingest.py:21-31 | every listed, supported name is planned |
| Ingest.PlanAppend | ingest.py:21 | the plan of a listing is the plans of its parts, in listing order |
| Ingest.UnsupportedSkipped | ingest.py:29-31 | an unsupported file is skipped without a call and without changing the outcome |
| Ingest.Calls | ingest.py:33 | the calls of a plan are its steps' calls, in order |
| Ingest.LoadPlan | ingest.py:33 | loading can only fail with a loader failure |
| Ingest.LoadPlanTrace | ingest.py:21-36 | loaders are called in plan order until the first failure, which is the last call; success means every planned call was made and succeeded |
| Ingest.LoadPlanCalls | ingest.py:21-36 | the calls made are a prefix of the planned calls, all of them when loading succeeds |
| Ingest.LoadPlanOutcomes | ingest.py:33-36 | every call before the last succeeded; the last one failed exactly when the load failed |
| Ingest.LoadPlanOk | ingest.py:33 | loading succeeds exactly when every planned load succeeds |
| Ingest.LoadPlanAppend | ingest.py:33-36 | documents are the concatenation, in order, of each file's loader output |
| Ingest.LoadOne | ingest.py:22-36 | one supported file gives its loader's documents tagged with its name, or that file's loader failure |
| Ingest.LoadFilesAppend | ingest.py:21-36 | loading a listing is loading its first part, then the rest |
| Ingest.LoadDocuments | ingest.py:15-39 | a missing input folder fails before any loader call |
| Ingest.TaggedSpec | ingest.py:34-35 | tagging keeps each document's content and sets `source_file` in its metadata |
| Ingest.TaggedMetadata | ingest.py:34-35 | after tagging `source_file` is the bare file name, overwriting any loader value, and every other key is unchanged |
| Ingest.TaggedValid | ingest.py:34-35 | tagging keeps documents valid |
| Ingest.LoadEffects | ingest.py:33 | one load effect per loader call, in order |
| Ingest.RunIngest | ingest.py:68-125 | both folders are made first, a successful run returns the job's paths, and the chunk file is the only entry of the file map it can write; the vector store under `chroma_db` is written only through the `Embed` effect |
| Ingest.JobPathsShape | ingest.py:119-125 | `job_dir = output_root/job_id`, `chunks_path = job_dir/chunks.jsonl`, `chroma_dir = job_dir/chroma_db`, `embeddings_created` is the flag |
| Ingest.IngestWritesChunks | ingest.py:91-97 | once loading succeeds, the split chunks are written to the job's chunk file |
| Ingest.ChunksSurviveMissingKey | ingest.py:97-105 | with embeddings asked for and no key the run fails, but only after the chunk file is written, and nothing is embedded |
| Ingest.LoadFailureWritesNothing | ingest.py:83-97 | a loader failure ends the run before any file is written or embedding made |
| Ingest.EmbeddingsSkipped | ingest.py:102-116 | without embeddings, the key and the embedding service play no part |
| Ingest.SameChunkFile | summarizer.py:164-165 | the job folder and chunk file ingestion returns are the ones the summarizer reads for the same root and id |
| Ingest.SummarizerReadsIngestedChunks | ingest.py:91-97 | summarizing a freshly ingested job sends the model the context of exactly the chunks ingestion wrote |
| Layout.ElaborateSentences | bro_pdf.py:435-444 | an empty description becomes the placeholder; two sentences stay; a shorter one keeps its text up to the trailing dots and gains exactly one sentence |
| Layout.ElaborateSettles | bro_pdf.py:435-444 | applied to its own output the description rule changes nothing |
| Layout.NotesFit | bro_pdf.py:440-444 | the appended feature and advantage sentences contain no dot and are not blank, so each counts as one sentence |
| Layout.RStripSentences | bro_pdf.py:439-442 | stripping trailing dots does not change the sentence count |
| Layout.NoteSentences | bro_pdf.py:442 | appending `". " + note + "."` adds exactly one sentence |
| Layout.InsightsSettle | bro_pdf.py:503-507 | padded insights are at least 120 characters once stripped, so padding again changes nothing |
| Layout.StripKeepsTail | bro_pdf.py:505-506 | stripping keeps a tail that starts and ends with visible characters |
| Layout.FeatureBlocksSpec | bro_pdf.py:435-446 | each feature gives its bold name then its padded description, in order |
| Layout.Cards | bro_pdf.py:286-302 | one card per advantage |
| Layout.CardsSpec | bro_pdf.py:283-294 | each of the first six cards shows its advantage's name and padded explanation |
| Layout.Pads | bro_pdf.py:314-315 | `k` spacer cells |
| Layout.RowsSpec | bro_pdf.py:305-316 | `ceil(n/3)` rows of exactly three cells, which read in order give the cards then the spacers completing the last row |
| Layout.GridSpec | bro_pdf.py:280-316 | no grid exactly when there are no advantages; otherwise one or two full rows holding the first six cards in order, then spacers |
| Layout.ShownStepsSpec | bro_pdf.py:475-489 | without steps the three numbered, titled fallback steps are shown; otherwise the first five steps |
| Layout.StepHeadingShape | bro_pdf.py:490-493 | the heading is `<b>Step n</b>`, followed by `: title` exactly when the title is non-empty |
| Layout.StepBlocksSpec | bro_pdf.py:489-498 | each step gives its heading then its description, in order |
| Layout.StepBodiesFilled | bro_pdf.py:494-498 | no step body is empty: a missing description shows the placeholder sentence |
| Layout.HowPartShown | bro_pdf.py:475-498 | the part holds three fallback steps when the brochure has none and otherwise its first five, each brochure step's heading and body in its place, and every body in it has text |
| Layout.ImageNamesSpec | bro_pdf.py:404 | the filter keeps exactly the `.jpg`/`.jpeg`/`.png` names, in order |
| Layout.CandidatesSpec | bro_pdf.py:401-404 | the candidates are the folder's image files, sorted by name, under the images folder |
| Layout.ExistingSpec | bro_pdf.py:236-239 | the row keeps exactly the offered paths that are non-empty and exist, in order |
| Layout.RowCandidatesSpec | bro_pdf.py:451 | the row is offered the second to the fourth candidates |
| Layout.ImageSelection | bro_pdf.py:421-454 | the intro image is the first candidate when it exists; the row shows at most three existing offered images, or a spacer exactly when none exists |
| Layout.FeaturePartSections | bro_pdf.py:430-448 | the features part has the key-features header exactly when there are features |
| Layout.AdvantagePartSections | bro_pdf.py:458-472 | the advantages part has a page break and its header exactly when there are advantages |
| Layout.HowPartSections | bro_pdf.py:475-500 | the how-it-works part is always there |
| Layout.InsightPartSections | bro_pdf.py:503-512 | the insights part has its header exactly when there are insights |
| Layout.StorySections | bro_pdf.py:407-518 | the sections run key features (if any), competitive advantages (if any), how it works (always), additional insights (if any); one page break exactly when there are advantages |
| Layout.StoryFrame | bro_pdf.py:407-427 | the story opens with the title block (company name by default), then the intro exactly when present, then a rule, and ends with the two footer lines |
| Layout.StoryImages | bro_pdf.py:451-454 | the image row always appears, right after the features |
| Layout.SafeId | bro_pdf.py:584 | the safe id has the name's length |
| Layout.SafeIdSpec | bro_pdf.py:584-585 | the safe id has no `:` or `/`, keeps every other character, and is idempotent |
| Layout.OutputPathSpec | bro_pdf.py:583-585 | the default file name is `brochure_` + safe id + `.pdf` |
| Builder.ReadBrochure | bro_pdf.py:396-512 | a brochure is read only from an object, and at most six features, six advantages and five steps are kept |
| Builder.ReadBack | summarizer.py:92-107 | a brochure in the shape the prompt asks for, written as JSON with integer step numbers as numbers, reads back as itself |
| Builder.ReadsOnlyItsKeys | bro_pdf.py:407-507 | two objects that agree on the seven brochure keys read alike: no other key is looked at |
| Builder.StampedReadBack | summarizer.py:135-139 | a brochure's JSON with `_metadata` set, as the summarizer saves it, reads back as the brochure |
| Builder.EmptyObjectDefaults | bro_pdf.py:407-504 | an object without the keys gives the defaults: company-name title, empty texts and lists |
| Builder.NotAnObject | bro_pdf.py:409 | a brochure that is not a JSON object fails with a type error |
| Builder.TextOf | bro_pdf.py:503 | a non-empty text comes only from a string value |
| Builder.ReadFeatures | bro_pdf.py:435-446 | the items read exactly when each item reads as a feature, and then the i-th feature is the i-th item's |
| Builder.ReadAdvantages | bro_pdf.py:283-294 | the items read exactly when each item reads as an advantage, and then the i-th advantage is the i-th item's |
| Builder.ReadSteps | bro_pdf.py:486-496 | the items read exactly when each item reads as a step, and then the i-th step is the i-th item's |
| Builder.BaseName | bro_pdf.py:584 | `Path.name` is no longer than the path |
| Builder.BaseNameOfJoin | bro_pdf.py:584 | the name of `root/id` is `id` when the id has no slash |
| Builder.Locate | bro_pdf.py:566-578 | a located job's folder exists and its `brochure.json` decodes to the brochure returned |
| Builder.LocateErrors | bro_pdf.py:566-578 | no job gives the root's not-found error, then a missing folder, then a missing `brochure.json`; every failure is not-found or a decode error |
| Builder.DefaultOutput | bro_pdf.py:580-586 | without `--out_name`, the PDF is `brochure_<safe id>.pdf` in the job folder |
| Builder.Build | bro_pdf.py:557-588 | the PDF goes to the located job's output path |
| Builder.ReadsSavedBrochure | bro_pdf.py:574-578 | after a successful summarizer run, the builder locates the same job and reads exactly the brochure the run produced |
| Builder.BuildsSavedBrochure | bro_pdf.py:574-588 | a `brochure.json` agreeing with a brochure's JSON on the keys the builder reads, whatever else it holds, is laid out as that brochure's story |
| Builder.BrochureReportable | summarizer.py:179-181 | the summarizer's closing report can count the lists of a brochure's JSON |
| Builder.BuildsSummarizedBrochure | bro_pdf.py:574-588 | when the model replies with a brochure's JSON, the summarizer run succeeds and the builder lays out exactly that brochure, `_metadata` ignored |
| Builder.DefaultsRead | bro_pdf.py:407-504 | an object whose title is missing and whose other keys are missing or `null` reads as the defaults |
| Builder.NullFeaturesRead | bro_pdf.py:430-435 | a brochure whose features are `null` has no features, and its `_metadata` is ignored |
| Builder.BuildsUnreportedBrochure | bro_pdf.py:574-588 | after the summarizer saves `{"key_features": null}` and raises, the builder still lays out that job as an empty brochure |

## Left out

- Drawing: ReportLab styles, fonts, colours, sizes, page templates, the background and the per-page footer are not modelled. Blocks record what is shown, not how; these rules are a foreign library plus floating point.
- Image files that exist but cannot be decoded are not modelled: existence is a parameter.
- `find_latest_job` and `get_latest_job_dir` pick a folder by modification time. The choice is a parameter of `Builder.Locate`.
- The LangChain text splitter, the PDF and DOCX loaders, the OpenAI chat and embedding services and Chroma are parameters. No property of the splitter is stated.
- The prompt's wording is not modelled: a request records the model, the token limit and the context.
- `os.listdir` order is a parameter: the listing is given as a sequence.
- JSON numbers are integers only. `indent=2` in `save_brochure` only changes white space, which `Decode` skips; the encoder writes the default one-line layout. Non-ASCII characters are written as they are, as `save_brochure` asks with `ensure_ascii=False`.
- ChunkStore.SaveChunks: `save_chunks` calls `json.dump` with the default `ensure_ascii=True`, so Python writes each non-ASCII character of a chunk as a `\u` escape (a surrogate pair above U+FFFF); the model writes them as they are. The chunk file's text therefore differs for non-ASCII chunks. What `load_chunks` reads back from it does not, since `Decode` reads `\u` escapes and pairs.
- Summarizer.Answer: a reply whose `message.content` is `None` is modelled as the failed call (`ServiceFailed`); Python raises `TypeError` from `json.loads(None)`. Both re-raise before anything is saved.
- JsonCodec.Decode: a `\u` escape of a lone surrogate, which Python's `json.loads` accepts, is refused, because a Dafny `char` cannot hold a surrogate code point. Surrogate pairs are decoded.
- `str.lower()` is modelled for ASCII letters only.
- Paths are joined as strings, an absolute right-hand part replacing the left as `pathlib` does. Other `pathlib` normalisation, such as `./jobs/x` against `jobs/x` or a trailing slash, is not modelled.
- Builder.TextOf: a true value that is not a string is refused with a type error. For three fields this is exactly what Python does, since it raises `AttributeError` on a string method before ReportLab sees the value: feature descriptions (`desc.split`, bro_pdf.py:439), advantage explanations (`expl.split`, bro_pdf.py:290) and the insights (`additional.strip()`, bro_pdf.py:506). Step titles go through an f-string and are covered by the Builder.ReadBrochure line below. For the other three fields the refusal is where the model departs from Python, which passes the value on to ReportLab unchanged: the subtitle (drawn by `TitleBlock.draw`, bro_pdf.py:389-391), the intro (a `Paragraph`, bro_pdf.py:211 and bro_pdf.py:226) and step descriptions (a `Paragraph`, bro_pdf.py:498).
- Builder.ReadBrochure: feature and advantage names and step titles of other JSON types are refused, and so are step numbers that are lists or objects, because the f-strings that would format them depend on Python's `str()` of arbitrary values. Boolean step numbers are shown as `True` and `False`.
- RunIngest: the Chroma vector store persisted under `chroma_db` is not in the file map; the model records it only as the `Embed` effect, with the store's folder and the number of chunks.
- app.py is not part of this model beyond its job listing. Its wiring does not match the other files, so no end-to-end run through it is claimed:
  - the three default roots are `./jobs`, `./data/jobs` and `./jobss`;
  - it calls `run_ingest` without an input folder;
  - it reads counters that are never written.
- embd_agent.py and test_ingest.py are not part of this model: they are embedding and vector-search I/O.
- Logging and `print` output are not modelled.

=== FILE: base.dfy ===
/** Failure-carrying wrappers and the exceptions of the brochure pipeline.

    The Python code signals failure by raising; the model returns a `Result`
    whose `Err` case names the exception that would have escaped. */
module Base {

  datatype Option<+T> = None | Some(value: T)

  datatype Result<+T, +E> = Ok(value: T) | Err(error: E)

  /** The exceptions that can leave the modelled operations. */
  datatype Error =
    | FileNotFound(path: string)      // FileNotFoundError: a chunk file, job folder or brochure file is missing
    | DecodeError                     // json.JSONDecodeError: the model reply is not JSON
    | TypeError                       // AttributeError / TypeError: a value of the wrong JSON type
    | NoChunks                        // ValueError: summarization of an empty chunk list
    | MissingApiKey                   // ValueError / EnvironmentError: OPENAI_API_KEY unset or empty
    | LoaderFailed(file: string)      // a document loader raised on this file
    | ServiceFailed                   // the hosted model or embedding service raised
}

=== FILE: builder.dfy ===
/** The brochure builder's entry point: which job folder it reads, how the
    saved brochure becomes the record the layout works on, and where the
    PDF goes.

    The job folder chosen by modification time and the set of existing
    folders are parameters; the brochure file comes from the same
    file-system map the summarizer writes into. */
module Builder {
  import opened Base
  import opened Text
  import opened Json
  import opened JsonCodec
  import opened FileNames
  import opened Layout
  import Summarizer
  import ChunkStore
  import PromptContext
  import Seqs

  /** Python truthiness of a JSON value: `None`, `False`, `0`, `""`, `[]`
      and `{}` are false. */
  predicate Falsy(v: Value) {
    v == Null || v == Bool(false) || v == Int(0) || v == Str([]) || v == Arr([]) || v == Obj([])
  }

  /** `d.get(k, "") or ""` where a string is expected: a false value gives
      the empty text; a true value that is not a string is refused. */
  function TextOf(v: Option<Value>): (r: Result<string, Error>)
    ensures r.Ok? && r.value != [] ==> v == Some(Str(r.value))
  {
    match v
    case None => Ok([])
    case Some(x) =>
      if Falsy(x) then Ok([])
      else if x.Str? then Ok(x.s)
      else Err(TypeError)
  }

  /** `d.get(k, "")` used inside an f-string: missing gives the empty text,
      a string gives itself; other values are refused. */
  function NameOf(v: Option<Value>): Result<string, Error> {
    match v
    case None => Ok([])
    case Some(Str(s)) => Ok(s)
    case Some(_) => Err(TypeError)
  }

  /** `d.get(k, []) or []` where a list is expected. */
  function ListOf(v: Option<Value>): Result<seq<Value>, Error> {
    match v
    case None => Ok([])
    case Some(x) =>
      if Falsy(x) then Ok([])
      else if x.Arr? then Ok(x.items)
      else Err(TypeError)
  }

  function ReadFeature(v: Value): Result<Feature, Error> {
    if !v.Obj? then Err(TypeError)
    else
      var name := NameOf(Get(v.fields, "feature"));
      var desc := TextOf(Get(v.fields, "description"));
      if name.Err? then Err(name.error)
      else if desc.Err? then Err(desc.error)
      else Ok(Feature(name.value, desc.value))
  }

  function ReadAdvantage(v: Value): Result<Advantage, Error> {
    if !v.Obj? then Err(TypeError)
    else
      var name := NameOf(Get(v.fields, "advantage"));
      var expl := TextOf(Get(v.fields, "explanation"));
      if name.Err? then Err(name.error)
      else if expl.Err? then Err(expl.error)
      else Ok(Advantage(name.value, expl.value))
  }

  /** `step.get("step")`: unnumbered when missing or null, an integer as
      itself, a boolean or a string through the text `str()` gives. */
  function StepNumber(v: Option<Value>): Result<StepNo, Error> {
    match v
    case None => Ok(Unnumbered)
    case Some(Null) => Ok(Unnumbered)
    case Some(Bool(b)) => Ok(Label(if b then "True" else "False"))
    case Some(Int(i)) => Ok(Number(i))
    case Some(Str(s)) => Ok(Label(s))
    case Some(_) => Err(TypeError)
  }

  function ReadStep(v: Value): Result<HowStep, Error> {
    if !v.Obj? then Err(TypeError)
    else
      var number := StepNumber(Get(v.fields, "step"));
      var title := TextOf(Get(v.fields, "title"));
      var desc := TextOf(Get(v.fields, "description"));
      if number.Err? then Err(number.error)
      else if title.Err? then Err(title.error)
      else if desc.Err? then Err(desc.error)
      else Ok(HowStep(number.value, title.value, desc.value))
  }

  function ReadFeatures(items: seq<Value>): (r: Result<seq<Feature>, Error>)
    ensures r.Ok? <==> forall i :: 0 <= i < |items| ==> ReadFeature(items[i]).Ok?
    ensures r.Ok? ==> |r.value| == |items| && forall i :: 0 <= i < |items| ==> ReadFeature(items[i]) == Ok(r.value[i])
  {
    if |items| == 0 then Ok([])
    else
      var first := ReadFeature(items[0]);
      var rest := ReadFeatures(items[1..]);
      if first.Err? then Err(first.error)
      else if rest.Err? then Err(rest.error)
      else Ok([first.value] + rest.value)
  }

  function ReadAdvantages(items: seq<Value>): (r: Result<seq<Advantage>, Error>)
    ensures r.Ok? <==> forall i :: 0 <= i < |items| ==> ReadAdvantage(items[i]).Ok?
    ensures r.Ok? ==> |r.value| == |items| && forall i :: 0 <= i < |items| ==> ReadAdvantage(items[i]) == Ok(r.value[i])
  {
    if |items| == 0 then Ok([])
    else
      var first := ReadAdvantage(items[0]);
      var rest := ReadAdvantages(items[1..]);
      if first.Err? then Err(first.error)
      else if rest.Err? then Err(rest.error)
      else Ok([first.value] + rest.value)
  }

  function ReadSteps(items: seq<Value>): (r: Result<seq<HowStep>, Error>)
    ensures r.Ok? <==> forall i :: 0 <= i < |items| ==> ReadStep(items[i]).Ok?
    ensures r.Ok? ==> |r.value| == |items| && forall i :: 0 <= i < |items| ==> ReadStep(items[i]) == Ok(r.value[i])
  {
    if |items| == 0 then Ok([])
    else
      var first := ReadStep(items[0]);
      var rest := ReadSteps(items[1..]);
      if first.Err? then Err(first.error)
      else if rest.Err? then Err(rest.error)
      else Ok([first.value] + rest.value)
  }

  /** `brochure.get("title", company_name)`: missing means the company
      name; a value that is not a string cannot be drawn. */
  function TitleField(v: Option<Value>): Result<Option<string>, Error> {
    match v
    case None => Ok(None)
    case Some(Str(s)) => Ok(Some(s))
    case Some(_) => Err(TypeError)
  }

  /** The brochure as `build_pdf_from_brochure` reads it. Only the items
      the builder visits are read: six features, six advantages, five
      steps; later items are never touched. */
  function ReadBrochure(v: Value): (r: Result<Brochure, Error>)
    ensures r.Ok? ==> v.Obj? && |r.value.features| <= MaxFeatures
                      && |r.value.advantages| <= MaxCards && |r.value.steps| <= MaxSteps
  {
    if !v.Obj? then Err(TypeError)
    else
      var fs := v.fields;
      var title := TitleField(Get(fs, "title"));
      var subtitle := TextOf(Get(fs, "subtitle"));
      var intro := TextOf(Get(fs, "intro_summary"));
      var features := ListOf(Get(fs, "key_features"));
      var advantages := ListOf(Get(fs, "competitive_advantages"));
      var steps := ListOf(Get(fs, "how_it_works"));
      var insights := TextOf(Get(fs, "additional_insights"));
      if title.Err? then Err(title.error)
      else if subtitle.Err? then Err(subtitle.error)
      else if intro.Err? then Err(intro.error)
      else if features.Err? then Err(features.error)
      else if advantages.Err? then Err(advantages.error)
      else if steps.Err? then Err(steps.error)
      else if insights.Err? then Err(insights.error)
      else
        var fl := ReadFeatures(Take(features.value, MaxFeatures));
        var al := ReadAdvantages(Take(advantages.value, MaxCards));
        var sl := ReadSteps(Take(steps.value, MaxSteps));
        if fl.Err? then Err(fl.error)
        else if al.Err? then Err(al.error)
        else if sl.Err? then Err(sl.error)
        else Ok(Brochure(title.value, subtitle.value, intro.value, fl.value, al.value, sl.value, insights.value))
  }

  // ---------------------------------------------------------------------
  // Writing a brochure record back as JSON

  function FeatureJson(f: Feature): Value {
    Obj([Field("feature", Str(f.name)), Field("description", Str(f.description))])
  }

  function AdvantageJson(a: Advantage): Value {
    Obj([Field("advantage", Str(a.name)), Field("explanation", Str(a.explanation))])
  }

  /** A step number as the prompt writes it: an integer as a JSON number. */
  function StepNoJson(no: StepNo): Value {
    match no
    case Unnumbered => Null
    case Number(n) => Int(n)
    case Label(t) => Str(t)
  }

  function StepJson(st: HowStep): Value {
    Obj([Field("step", StepNoJson(st.number)),
         Field("title", Str(st.title)), Field("description", Str(st.description))])
  }

  function FeatureItems(fs: seq<Feature>): seq<Value> {
    seq(|fs|, i requires 0 <= i < |fs| => FeatureJson(fs[i]))
  }

  function AdvantageItems(advs: seq<Advantage>): seq<Value> {
    seq(|advs|, i requires 0 <= i < |advs| => AdvantageJson(advs[i]))
  }

  function StepItems(steps: seq<HowStep>): seq<Value> {
    seq(|steps|, i requires 0 <= i < |steps| => StepJson(steps[i]))
  }

  /** The JSON a summarizer reply of this brochure's shape carries. */
  function BrochureJson(b: Brochure): Value {
    Obj(TitleMember(b) + BodyFields(b))
  }

  /** The `title` member, present only when the brochure has a title. */
  function TitleMember(b: Brochure): seq<Field> {
    if b.title.Some? then [Field("title", Str(b.title.value))] else []
  }

  /** The members every brochure has, in the order the prompt lists them. */
  function BodyFields(b: Brochure): seq<Field> {
    [Field("subtitle", Str(b.subtitle)),
     Field("intro_summary", Str(b.intro)),
     Field("key_features", Arr(FeatureItems(b.features))),
     Field("competitive_advantages", Arr(AdvantageItems(b.advantages))),
     Field("how_it_works", Arr(StepItems(b.steps))),
     Field("additional_insights", Str(b.insights))]
  }

  /** A brochure within the builder's caps. */
  predicate WithinCaps(b: Brochure) {
    |b.features| <= MaxFeatures && |b.advantages| <= MaxCards && |b.steps| <= MaxSteps
  }

  /** The value under a key that first occurs at index `i`. */
  lemma {:induction false} GetAt(fs: seq<Field>, i: nat, k: string)
    requires i < |fs| && fs[i].key == k
    requires forall j :: 0 <= j < i ==> fs[j].key != k
    ensures Get(fs, k) == Some(fs[i].val)
  {
    if i > 0 {
      GetAt(fs[1..], i - 1, k);
    }
  }

  /** A key no member carries has no value. */
  lemma {:induction false} GetAbsent(fs: seq<Field>, k: string)
    requires forall j :: 0 <= j < |fs| ==> fs[j].key != k
    ensures Get(fs, k) == None
  {
    if |fs| > 0 {
      GetAbsent(fs[1..], k);
    }
  }

  lemma TextOfStr(s: string)
    ensures TextOf(Some(Str(s))) == Ok(s)
  {
  }

  lemma FeatureReadBack(f: Feature)
    ensures ReadFeature(FeatureJson(f)) == Ok(f)
  {
    var fs := FeatureJson(f).fields;
    GetAt(fs, 0, "feature");
    GetAt(fs, 1, "description");
    TextOfStr(f.description);
  }

  lemma AdvantageReadBack(a: Advantage)
    ensures ReadAdvantage(AdvantageJson(a)) == Ok(a)
  {
    var fs := AdvantageJson(a).fields;
    GetAt(fs, 0, "advantage");
    GetAt(fs, 1, "explanation");
    TextOfStr(a.explanation);
  }

  lemma StepReadBack(st: HowStep)
    ensures ReadStep(StepJson(st)) == Ok(st)
  {
    var fs := StepJson(st).fields;
    GetAt(fs, 0, "step");
    GetAt(fs, 1, "title");
    GetAt(fs, 2, "description");
    TextOfStr(st.title);
    TextOfStr(st.description);
  }

  lemma {:induction false} FeaturesRoundTrip(fs: seq<Feature>)
    ensures ReadFeatures(FeatureItems(fs)) == Ok(fs)
  {
    var items := FeatureItems(fs);
    if |fs| > 0 {
      FeaturesRoundTrip(fs[1..]);
      assert items[1..] == FeatureItems(fs[1..]);
      FeatureReadBack(fs[0]);
      assert fs == [fs[0]] + fs[1..];
    }
  }

  lemma {:induction false} AdvantagesRoundTrip(advs: seq<Advantage>)
    ensures ReadAdvantages(AdvantageItems(advs)) == Ok(advs)
  {
    var items := AdvantageItems(advs);
    if |advs| > 0 {
      AdvantagesRoundTrip(advs[1..]);
      assert items[1..] == AdvantageItems(advs[1..]);
      AdvantageReadBack(advs[0]);
      assert advs == [advs[0]] + advs[1..];
    }
  }

  lemma {:induction false} StepsRoundTrip(steps: seq<HowStep>)
    ensures ReadSteps(StepItems(steps)) == Ok(steps)
  {
    var items := StepItems(steps);
    if |steps| > 0 {
      StepsRoundTrip(steps[1..]);
      assert items[1..] == StepItems(steps[1..]);
      StepReadBack(steps[0]);
      assert steps == [steps[0]] + steps[1..];
    }
  }

  /** Members before the first one with key `k` do not change its value. */
  lemma {:induction false} GetAfter(a: seq<Field>, rest: seq<Field>, k: string)
    requires forall j :: 0 <= j < |a| ==> a[j].key != k
    ensures Get(a + rest, k) == Get(rest, k)
  {
    if |a| > 0 {
      assert (a + rest)[1..] == a[1..] + rest;
      GetAfter(a[1..], rest, k);
    } else {
      assert a + rest == rest;
    }
  }

  /** The value under each body key, whatever the title member. */
  lemma BodyFieldAt(b: Brochure, i: nat)
    requires i < |BodyFields(b)|
    ensures Get(TitleMember(b) + BodyFields(b), BodyFields(b)[i].key) == Some(BodyFields(b)[i].val)
  {
    var a, rest := TitleMember(b), BodyFields(b);
    GetAfter(a, rest, rest[i].key);
    GetAt(rest, i, rest[i].key);
  }

  /** The title key holds the title when there is one and is absent otherwise. */
  lemma BrochureTitle(b: Brochure)
    ensures Get(BrochureJson(b).fields, "title")
            == (if b.title.Some? then Some(Str(b.title.value)) else None)
  {
    if b.title.None? {
      var rest := BodyFields(b);
      assert TitleMember(b) + rest == rest;
      GetAbsent(rest, "title");
    }
  }

  /** Each body key holds the part of the brochure it is written from. */
  lemma BrochureFields(b: Brochure)
    ensures var fs := BrochureJson(b).fields;
            && Get(fs, "subtitle") == Some(Str(b.subtitle))
            && Get(fs, "intro_summary") == Some(Str(b.intro))
            && Get(fs, "key_features") == Some(Arr(FeatureItems(b.features)))
            && Get(fs, "competitive_advantages") == Some(Arr(AdvantageItems(b.advantages)))
            && Get(fs, "how_it_works") == Some(Arr(StepItems(b.steps)))
            && Get(fs, "additional_insights") == Some(Str(b.insights))
  {
    BodyFieldAt(b, 0);
    BodyFieldAt(b, 1);
    BodyFieldAt(b, 2);
    BodyFieldAt(b, 3);
    BodyFieldAt(b, 4);
    BodyFieldAt(b, 5);
  }

  lemma ListOfItems(items: seq<Value>)
    ensures ListOf(Some(Arr(items))) == Ok(items)
  {
  }

  /** A brochure within the caps, written as JSON, reads back as itself. */
  lemma ReadBack(b: Brochure)
    requires WithinCaps(b)
    ensures ReadBrochure(BrochureJson(b)) == Ok(b)
  {
    BrochureTitle(b);
    BrochureFields(b);
    ListOfItems(FeatureItems(b.features));
    ListOfItems(AdvantageItems(b.advantages));
    ListOfItems(StepItems(b.steps));
    assert Take(FeatureItems(b.features), MaxFeatures) == FeatureItems(b.features);
    assert Take(AdvantageItems(b.advantages), MaxCards) == AdvantageItems(b.advantages);
    assert Take(StepItems(b.steps), MaxSteps) == StepItems(b.steps);
    FeaturesRoundTrip(b.features);
    AdvantagesRoundTrip(b.advantages);
    StepsRoundTrip(b.steps);
    TextOfStr(b.subtitle);
    TextOfStr(b.intro);
    TextOfStr(b.insights);
  }

  /** The keys `build_pdf_from_brochure` reads. */
  const BrochureKeys: set<string> :=
    {"title", "subtitle", "intro_summary", "key_features", "competitive_advantages", "how_it_works", "additional_insights"}

  /** Keys the builder does not read make no difference to what it reads. */
  lemma ReadsOnlyItsKeys(fs: seq<Field>, gs: seq<Field>)
    requires forall k :: k in BrochureKeys ==> Get(fs, k) == Get(gs, k)
    ensures ReadBrochure(Obj(fs)) == ReadBrochure(Obj(gs))
  {
    assert Get(fs, "title") == Get(gs, "title");
    assert Get(fs, "subtitle") == Get(gs, "subtitle");
    assert Get(fs, "intro_summary") == Get(gs, "intro_summary");
    assert Get(fs, "key_features") == Get(gs, "key_features");
    assert Get(fs, "competitive_advantages") == Get(gs, "competitive_advantages");
    assert Get(fs, "how_it_works") == Get(gs, "how_it_works");
    assert Get(fs, "additional_insights") == Get(gs, "additional_insights");
  }

  /** A brochure as the summarizer saves it, its JSON with `_metadata` set,
      reads back as the brochure: the builder never reads `_metadata`. */
  lemma StampedReadBack(b: Brochure, m: Value)
    requires WithinCaps(b)
    ensures ReadBrochure(Obj(Set(BrochureJson(b).fields, "_metadata", m))) == Ok(b)
  {
    var fs := BrochureJson(b).fields;
    forall k | k in BrochureKeys
      ensures Get(Set(fs, "_metadata", m), k) == Get(fs, k)
    {
      assert |k| != |"_metadata"|;
    }
    ReadsOnlyItsKeys(Set(fs, "_metadata", m), fs);
    ReadBack(b);
  }

  /** An object without any of the keys gives the defaults: no title (the
      company name is shown), empty texts and lists. */
  lemma EmptyObjectDefaults()
    ensures ReadBrochure(Obj([])) == Ok(Brochure(None, [], [], [], [], [], []))
  {
  }

  /** Only an object is a brochure. */
  lemma NotAnObject(v: Value)
    requires !v.Obj?
    ensures ReadBrochure(v) == Err(TypeError)
  {
  }

  // ---------------------------------------------------------------------
  // The job folder and the output file

  /** `Path.name`: the part after the last slash. */
  function BaseName(path: string): (r: string)
    ensures |r| <= |path|
  {
    match LastIndex(path, '/')
    case None => path
    case Some(i) => path[i + 1..]
  }

  /** A job found: its folder, the brochure JSON read from it, and the
      path of the PDF to write. */
  datatype Job = Job(dir: string, brochure: Value, output: string)

  /** `main` up to the call of `build_pdf_from_brochure`. An empty job id
      counts as none; `latest` is `find_latest_job`'s answer, `None` when
      the jobs root is missing or holds no folder. */
  function Locate(jobsRoot: string, jobId: Option<string>, latest: Option<string>, dirs: set<string>,
                  files: map<string, string>, outName: Option<string>): (r: Result<Job, Error>)
    ensures r.Ok? ==> r.value.dir in dirs
                      && JoinPath(r.value.dir, "brochure.json") in files
                      && Decode(files[JoinPath(r.value.dir, "brochure.json")]) == Some(r.value.brochure)
  {
    if (jobId.None? || jobId.value == []) && latest.None? then Err(FileNotFound(jobsRoot))
    else
      var dir := if jobId.Some? && jobId.value != [] then JoinPath(jobsRoot, jobId.value) else latest.value;
      var path := JoinPath(dir, "brochure.json");
      if dir !in dirs then Err(FileNotFound(dir))
      else if path !in files then Err(FileNotFound(path))
      else match Decode(files[path])
        case None => Err(DecodeError)
        case Some(v) => Ok(Job(dir, v, OutputPath(dir, BaseName(dir), outName)))
  }

  /** The PDF the builder produces: where it goes and what it shows. */
  datatype Pdf = Pdf(path: string, story: seq<Block>)

  /** `main`: locate the job, read the brochure, lay it out. */
  function Build(jobsRoot: string, jobId: Option<string>, latest: Option<string>, dirs: set<string>,
                 files: map<string, string>, outName: Option<string>,
                 listing: seq<string>, present: string -> bool): (r: Result<Pdf, Error>)
    ensures r.Ok? ==> Locate(jobsRoot, jobId, latest, dirs, files, outName).Ok?
                      && r.value.path == Locate(jobsRoot, jobId, latest, dirs, files, outName).value.output
  {
    match Locate(jobsRoot, jobId, latest, dirs, files, outName)
    case Err(e) => Err(e)
    case Ok(job) =>
      match ReadBrochure(job.brochure)
      case Err(e) => Err(e)
      case Ok(b) => Ok(Pdf(job.output, Story(b, listing, present)))
  }

  // ---------------------------------------------------------------------
  // Properties of the entry point

  /** The folder name of `root/id` is the id when the id has no slash. */
  lemma BaseNameOfJoin(root: string, id: string)
    requires id != [] && '/' !in id
    ensures BaseName(JoinPath(root, id)) == id
  {
    if root == [] {
      assert JoinPath(root, id) == id;
      LastIndexNone(id, '/');
    } else {
      var head := if root[|root| - 1] == '/' then root else root + "/";
      assert JoinPath(root, id) == head + id;
      LastIndexAfter(head, id, '/');
      Seqs.AppendPrefix(head, id);
    }
  }

  /** Missing inputs are reported in the order `main` checks them. */
  lemma LocateErrors(jobsRoot: string, jobId: Option<string>, latest: Option<string>, dirs: set<string>,
                     files: map<string, string>, outName: Option<string>)
    ensures (jobId.None? || jobId.value == []) && latest.None? ==>
              Locate(jobsRoot, jobId, latest, dirs, files, outName) == Err(FileNotFound(jobsRoot))
    ensures jobId.Some? && jobId.value != [] && JoinPath(jobsRoot, jobId.value) !in dirs ==>
              Locate(jobsRoot, jobId, latest, dirs, files, outName) == Err(FileNotFound(JoinPath(jobsRoot, jobId.value)))
    ensures jobId.Some? && jobId.value != [] && JoinPath(jobsRoot, jobId.value) in dirs
            && Summarizer.BrochurePath(jobsRoot, jobId.value) !in files ==>
              Locate(jobsRoot, jobId, latest, dirs, files, outName) == Err(FileNotFound(Summarizer.BrochurePath(jobsRoot, jobId.value)))
    ensures Locate(jobsRoot, jobId, latest, dirs, files, outName).Err? ==>
              Locate(jobsRoot, jobId, latest, dirs, files, outName).error.FileNotFound?
              || Locate(jobsRoot, jobId, latest, dirs, files, outName).error == DecodeError
  {
  }

  /** Given a job id without a slash and no output name, the PDF is
      `brochure_<id>.pdf` with colons made underscores, inside the job
      folder. */
  lemma DefaultOutput(jobsRoot: string, id: string, latest: Option<string>, dirs: set<string>,
                      files: map<string, string>)
    requires id != [] && '/' !in id
    requires Locate(jobsRoot, Some(id), latest, dirs, files, None).Ok?
    ensures var job := Locate(jobsRoot, Some(id), latest, dirs, files, None).value;
            && job.dir == JoinPath(jobsRoot, id)
            && job.output == JoinPath(job.dir, "brochure_" + SafeId(id) + ".pdf")
  {
    BaseNameOfJoin(jobsRoot, id);
  }

  /** The builder reads the brochure the summarizer saved: after a
      successful summarizer run for a job, locating the same job under the
      same root finds exactly the brochure the run produced. */
  lemma ReadsSavedBrochure(jobsRoot: string, id: string, apiKey: Option<string>,
                           files: map<string, string>, now: string,
                           reply: Summarizer.Request -> Option<string>,
                           latest: Option<string>, dirs: set<string>, outName: Option<string>)
    requires id != []
    requires Summarizer.RunSummarizer(jobsRoot, id, apiKey, files, now, reply).result.Ok?
    requires Summarizer.JobDir(jobsRoot, id) in dirs
    ensures var run := Summarizer.RunSummarizer(jobsRoot, id, apiKey, files, now, reply);
            && Locate(jobsRoot, Some(id), latest, dirs, run.files, outName).Ok?
            && Locate(jobsRoot, Some(id), latest, dirs, run.files, outName).value.brochure == run.result.value
  {
    var run := Summarizer.RunSummarizer(jobsRoot, id, apiKey, files, now, reply);
    var path := Summarizer.BrochurePath(jobsRoot, id);
    assert path in run.files && Decode(run.files[path]) == Some(run.result.value) by {
      Summarizer.SavedBrochureReadsBack(jobsRoot, id, apiKey, files, now, reply);
    }
    LocateJob(jobsRoot, id, latest, dirs, run.files, outName, run.result.value);
  }

  /** A job folder that exists and holds a decodable `brochure.json` is
      located, with that brochure. */
  lemma LocateJob(jobsRoot: string, id: string, latest: Option<string>, dirs: set<string>,
                  files: map<string, string>, outName: Option<string>, v: Value)
    requires id != [] && JoinPath(jobsRoot, id) in dirs
    requires Summarizer.BrochurePath(jobsRoot, id) in files
    requires Decode(files[Summarizer.BrochurePath(jobsRoot, id)]) == Some(v)
    ensures Locate(jobsRoot, Some(id), latest, dirs, files, outName).Ok?
    ensures Locate(jobsRoot, Some(id), latest, dirs, files, outName).value.brochure == v
  {
  }

  /** A `brochure.json` that agrees with the JSON of `b` on every key the
      builder reads, whatever else it holds (such as `_metadata`), gives a
      PDF whose story is the layout of `b`. */
  lemma BuildsSavedBrochure(jobsRoot: string, id: string, dirs: set<string>, files: map<string, string>,
                            b: Brochure, fs: seq<Field>, listing: seq<string>, present: string -> bool)
    requires id != [] && WithinCaps(b)
    requires JoinPath(jobsRoot, id) in dirs
    requires Summarizer.BrochurePath(jobsRoot, id) in files
    requires Decode(files[Summarizer.BrochurePath(jobsRoot, id)]) == Some(Obj(fs))
    requires forall k :: k in BrochureKeys ==> Get(fs, k) == Get(BrochureJson(b).fields, k)
    ensures Build(jobsRoot, Some(id), None, dirs, files, None, listing, present).Ok?
    ensures Build(jobsRoot, Some(id), None, dirs, files, None, listing, present).value.story == Story(b, listing, present)
  {
    LocateJob(jobsRoot, id, None, dirs, files, None, Obj(fs));
    ReadsOnlyItsKeys(fs, BrochureJson(b).fields);
    ReadBack(b);
  }

  /** The lists of a brochure's JSON can be counted by the summarizer's
      closing report. */
  lemma BrochureReportable(b: Brochure)
    ensures Summarizer.Reportable(BrochureJson(b))
  {
    BrochureFields(b);
  }

  /** From reply to PDF: when the model answers with the JSON of a brochure
      within the caps, the summarizer run succeeds, and building the same
      job lays out exactly that brochure, the saved `_metadata` ignored. */
  lemma BuildsSummarizedBrochure(jobsRoot: string, id: string, apiKey: string, files: map<string, string>,
                                 chunks: seq<Value>, now: string, reply: Summarizer.Request -> Option<string>,
                                 dirs: set<string>, b: Brochure, listing: seq<string>, present: string -> bool)
    requires id != [] && WithinCaps(b) && JoinPath(jobsRoot, id) in dirs
    requires |apiKey| > 0 && |chunks| > 0
    requires ChunkStore.LoadChunks(files, Summarizer.ChunksPath(jobsRoot, id)) == Ok(chunks)
    requires PromptContext.Context(chunks, PromptContext.DefaultMaxChars).Ok?
    requires forall q :: reply(q).Some? && Decode(reply(q).value) == Some(BrochureJson(b))
    ensures var run := Summarizer.RunSummarizer(jobsRoot, id, Some(apiKey), files, now, reply);
            && run.result.Ok?
            && Build(jobsRoot, Some(id), None, dirs, run.files, None, listing, present).Ok?
            && Build(jobsRoot, Some(id), None, dirs, run.files, None, listing, present).value.story
               == Story(b, listing, present)
  {
    var run := Summarizer.RunSummarizer(jobsRoot, id, Some(apiKey), files, now, reply);
    var m := Summarizer.Metadata(now, Summarizer.DefaultModel, |chunks|);
    assert run.result == Ok(Obj(Set(BrochureJson(b).fields, "_metadata", m))) by {
      BrochureReportable(b);
      Summarizer.ObjectReplyRun(Summarizer.ChunksPath(jobsRoot, id), Summarizer.BrochurePath(jobsRoot, id),
                                apiKey, files, chunks, now, reply, BrochureJson(b));
    }
    Summarizer.SavedBrochureReadsBack(jobsRoot, id, Some(apiKey), files, now, reply);
    LocateJob(jobsRoot, id, None, dirs, run.files, None, run.result.value);
    StampedReadBack(b, m);
  }

  /** An object whose title is missing and whose other keys are missing
      or `null` reads as the defaults. */
  lemma DefaultsRead(v: Value)
    requires v.Obj? && Get(v.fields, "title") == None
    requires Get(v.fields, "subtitle") in {None, Some(Null)}
    requires Get(v.fields, "intro_summary") in {None, Some(Null)}
    requires Get(v.fields, "key_features") in {None, Some(Null)}
    requires Get(v.fields, "competitive_advantages") in {None, Some(Null)}
    requires Get(v.fields, "how_it_works") in {None, Some(Null)}
    requires Get(v.fields, "additional_insights") in {None, Some(Null)}
    ensures ReadBrochure(v) == Ok(Brochure(None, [], [], [], [], [], []))
  {
  }

  /** A key that neither of two fields has is missing from the pair. */
  lemma GetFromPair(a: Field, b: Field, k: string)
    requires a.key != k && b.key != k
    ensures Get([a, b], k) == None
  {
    assert [a, b][1..] == [b];
    assert [b][1..] == [];
    assert Get([b], k) == Get([], k) == None;
  }

  /** A brochure whose features are `null` reads as the defaults: a false
      list is an empty one and `_metadata` is not looked at. */
  lemma NullFeaturesRead(now: string, count: nat)
    ensures ReadBrochure(Summarizer.NullFeaturesBrochure(now, count)) == Ok(Brochure(None, [], [], [], [], [], []))
  {
    var v := Summarizer.NullFeaturesBrochure(now, count);
    var a, b := v.fields[0], v.fields[1];
    assert v.fields == [a, b];
    assert Get(v.fields, "key_features") == Some(Null);
    GetFromPair(a, b, "title");
    GetFromPair(a, b, "subtitle");
    GetFromPair(a, b, "intro_summary");
    GetFromPair(a, b, "competitive_advantages");
    assert "how_it_works"[0] != "key_features"[0];
    GetFromPair(a, b, "how_it_works");
    GetFromPair(a, b, "additional_insights");
    DefaultsRead(v);
  }

  /** The run that fails its closing report still leaves a brochure the
      builder lays out: after the summarizer saves a reply
      `{"key_features": null}` and raises, building the same job gives the
      layout of an empty brochure. */
  lemma BuildsUnreportedBrochure(jobsRoot: string, id: string, apiKey: string, files: map<string, string>,
                                 chunks: seq<Value>, now: string, dirs: set<string>,
                                 listing: seq<string>, present: string -> bool)
    requires id != [] && |apiKey| > 0 && |chunks| > 0
    requires ChunkStore.LoadChunks(files, Summarizer.ChunksPath(jobsRoot, id)) == Ok(chunks)
    requires PromptContext.Context(chunks, PromptContext.DefaultMaxChars).Ok?
    requires JoinPath(jobsRoot, id) in dirs
    ensures var run := Summarizer.RunSummarizer(jobsRoot, id, Some(apiKey), files, now,
                                                Summarizer.NullFeaturesReply);
            && run.result == Err(TypeError)
            && Build(jobsRoot, Some(id), None, dirs, run.files, None, listing, present).Ok?
            && Build(jobsRoot, Some(id), None, dirs, run.files, None, listing, present).value.story
               == Story(Brochure(None, [], [], [], [], [], []), listing, present)
  {
    var reply := Summarizer.NullFeaturesReply;
    var run := Summarizer.RunSummarizer(jobsRoot, id, Some(apiKey), files, now, reply);
    var v := Summarizer.NullFeaturesBrochure(now, |chunks|);
    Summarizer.NullFeaturesFailAfterSave(Summarizer.ChunksPath(jobsRoot, id), Summarizer.BrochurePath(jobsRoot, id),
                                         apiKey, files, chunks, now);
    LocateJob(jobsRoot, id, None, dirs, run.files, None, v);
    NullFeaturesRead(now, |chunks|);
  }
}

=== FILE: chunk_store.dfy ===
/** The chunk file `chunks.jsonl`: `save_chunks` writes one JSON record per
    document and a line break after each; `load_chunks` reads the file line
    by line, decodes each stripped line and skips the lines that do not
    decode.

    Reading follows Python's text mode: `'\r\n'` and a lone `'\r'` become
    `'\n'` (universal newlines), and iterating the file yields each line
    with its terminator, the last one without a terminator when the file
    does not end in a line break. */
module ChunkStore {
  import opened Base
  import opened Text
  import opened Json
  import opened JsonCodec

  /** A LangChain `Document`: its `page_content` and its `metadata` dict. */
  datatype Doc = Doc(content: string, metadata: seq<Field>)

  /** A document whose metadata is a dict a Python program can hold. */
  predicate ValidDoc(d: Doc) {
    WellFormed(Obj(d.metadata))
  }

  /** The record written for one document: `{"text": ..., "metadata": ...}`. */
  function Record(d: Doc): Value {
    Obj([Field("text", Str(d.content)), Field("metadata", Obj(d.metadata))])
  }

  function Records(docs: seq<Doc>): (r: seq<Value>)
    ensures |r| == |docs|
    ensures forall i :: 0 <= i < |docs| ==> r[i] == Record(docs[i])
  {
    if |docs| == 0 then [] else [Record(docs[0])] + Records(docs[1..])
  }

  // ---------------------------------------------------------------------
  // Writing

  /** The encoded record of each document, one per document. */
  function RecordLines(docs: seq<Doc>): (r: seq<string>)
    ensures |r| == |docs|
    ensures forall i :: 0 <= i < |docs| ==> r[i] == Encode(Record(docs[i]))
  {
    if |docs| == 0 then [] else [Encode(Record(docs[0]))] + RecordLines(docs[1..])
  }

  /** Each line followed by a line break, all concatenated. */
  function Unlines(lines: seq<string>): string {
    if |lines| == 0 then [] else lines[0] + "\n" + Unlines(lines[1..])
  }

  /** The contents `save_chunks` gives the chunk file. */
  function SaveChunks(docs: seq<Doc>): string {
    Unlines(RecordLines(docs))
  }

  // ---------------------------------------------------------------------
  // Reading

  /** Universal-newline translation of the file contents. */
  function Newlines(s: string): (r: string)
    ensures forall i :: 0 <= i < |r| ==> r[i] != '\r'
  {
    if |s| == 0 then []
    else if s[0] == '\r' then ['\n'] + Newlines(if |s| > 1 && s[1] == '\n' then s[2..] else s[1..])
    else [s[0]] + Newlines(s[1..])
  }

  /** The pieces between line breaks, each but the last given back its
      terminator; an empty last piece is no line at all. */
  function Terminate(pieces: seq<string>): seq<string>
    requires |pieces| > 0
  {
    if |pieces| == 1 then (if pieces[0] == [] then [] else [pieces[0]])
    else [pieces[0] + "\n"] + Terminate(pieces[1..])
  }

  /** `for line in f`: the lines of the file, each with its terminator. */
  function FileLines(contents: string): seq<string> {
    Terminate(Split(Newlines(contents), '\n'))
  }

  /** `json.loads(line.strip())` for each line: the value, or `None` when
      it raises `JSONDecodeError`. */
  function LineValues(lines: seq<string>): (r: seq<Option<Value>>)
    ensures |r| == |lines|
  {
    seq(|lines|, i requires 0 <= i < |lines| => Decode(Strip(lines[i])))
  }

  /** The values that are present, in order. */
  function Keep<T>(xs: seq<Option<T>>): (r: seq<T>)
    ensures |r| <= |xs|
  {
    if |xs| == 0 then []
    else if xs[0].Some? then [xs[0].value] + Keep(xs[1..])
    else Keep(xs[1..])
  }

  /** The decodable lines' values, in file order; the rest are skipped. */
  function DecodeLines(lines: seq<string>): (r: seq<Value>)
    ensures |r| <= |lines|
  {
    Keep(LineValues(lines))
  }

  /** `load_chunks(path)` against the files present: a missing file raises
      `FileNotFoundError`; otherwise the decodable lines, in order. */
  function LoadChunks(files: map<string, string>, path: string): (r: Result<seq<Value>, Error>)
    ensures r.Err? <==> path !in files
    ensures r.Err? ==> r.error == FileNotFound(path)
    ensures r.Ok? ==> |r.value| <= |FileLines(files[path])|
  {
    if path !in files then Err(FileNotFound(path))
    else Ok(DecodeLines(FileLines(files[path])))
  }

  // ---------------------------------------------------------------------
  // Decoding line by line

  lemma {:induction false} KeepAppend<T>(a: seq<Option<T>>, b: seq<Option<T>>)
    ensures Keep(a + b) == Keep(a) + Keep(b)
  {
    if |a| == 0 {
      assert a + b == b;
    } else {
      assert (a + b)[1..] == a[1..] + b;
      KeepAppend(a[1..], b);
    }
  }

  /** When every value is present, all are kept, each in its place. */
  lemma {:induction false} KeepAll<T>(xs: seq<Option<T>>)
    requires forall i :: 0 <= i < |xs| ==> xs[i].Some?
    ensures |Keep(xs)| == |xs|
    ensures forall i :: 0 <= i < |xs| ==> Keep(xs)[i] == xs[i].value
  {
    if |xs| > 0 {
      KeepAll(xs[1..]);
    }
  }

  /** Values all present are kept exactly. */
  lemma {:induction false} KeepSome<T>(xs: seq<Option<T>>, ys: seq<T>)
    requires |xs| == |ys| && forall i :: 0 <= i < |xs| ==> xs[i] == Some(ys[i])
    ensures Keep(xs) == ys
  {
    if |xs| > 0 {
      KeepSome(xs[1..], ys[1..]);
      assert ys == [ys[0]] + ys[1..];
    }
  }

  lemma LineValuesAppend(a: seq<string>, b: seq<string>)
    ensures LineValues(a + b) == LineValues(a) + LineValues(b)
  {
    var l := LineValues(a + b);
    var r := LineValues(a) + LineValues(b);
    forall i | 0 <= i < |l|
      ensures l[i] == r[i]
    {
      if i < |a| {
        assert (a + b)[i] == a[i];
      } else {
        assert (a + b)[i] == b[i - |a|];
      }
    }
  }

  /** Lines are decoded independently: a file's values are those of its
      parts, in order. */
  lemma DecodeLinesAppend(a: seq<string>, b: seq<string>)
    ensures DecodeLines(a + b) == DecodeLines(a) + DecodeLines(b)
  {
    LineValuesAppend(a, b);
    KeepAppend(LineValues(a), LineValues(b));
  }

  /** A malformed line contributes nothing and does not disturb the lines
      around it. */
  lemma DecodeLinesSkip(a: seq<string>, bad: string, b: seq<string>)
    requires Decode(Strip(bad)) == None
    ensures DecodeLines(a + [bad] + b) == DecodeLines(a) + DecodeLines(b)
  {
    DecodeLinesAppend(a + [bad], b);
    DecodeLinesAppend(a, [bad]);
    assert LineValues([bad]) == [None];
    assert Keep(LineValues([bad])) == [];
  }

  /** When every line decodes, each value comes from the line at the same
      position. */
  lemma DecodeLinesAll(lines: seq<string>)
    requires forall i :: 0 <= i < |lines| ==> Decode(Strip(lines[i])).Some?
    ensures |DecodeLines(lines)| == |lines|
    ensures forall i :: 0 <= i < |lines| ==> DecodeLines(lines)[i] == Decode(Strip(lines[i])).value
  {
    KeepAll(LineValues(lines));
  }

  // ---------------------------------------------------------------------
  // Framing

  /** Each line followed by its line break, one by one. */
  function Terminated(lines: seq<string>): (r: seq<string>)
    ensures |r| == |lines|
    ensures forall i :: 0 <= i < |lines| ==> r[i] == lines[i] + "\n"
  {
    if |lines| == 0 then [] else [lines[0] + "\n"] + Terminated(lines[1..])
  }

  predicate AllOneLine(lines: seq<string>) {
    forall i :: 0 <= i < |lines| ==> OneLine(lines[i])
  }

  lemma {:induction false} NewlinesKeep(s: string)
    requires forall i :: 0 <= i < |s| ==> s[i] != '\r'
    ensures Newlines(s) == s
  {
    if |s| > 0 {
      NewlinesKeep(s[1..]);
      assert [s[0]] + s[1..] == s;
    }
  }

  lemma {:induction false} UnlinesNoReturn(lines: seq<string>)
    requires AllOneLine(lines)
    ensures forall i :: 0 <= i < |Unlines(lines)| ==> Unlines(lines)[i] != '\r'
  {
    if |lines| > 0 {
      UnlinesNoReturn(lines[1..]);
      var s := Unlines(lines);
      var rest := Unlines(lines[1..]);
      assert s == lines[0] + "\n" + rest;
      forall i | 0 <= i < |s|
        ensures s[i] != '\r'
      {
        if i < |lines[0]| {
          assert s[i] == lines[0][i];
        } else if i > |lines[0]| {
          assert s[i] == rest[i - |lines[0]| - 1];
        }
      }
    }
  }

  lemma {:induction false} SplitUnlines(lines: seq<string>)
    requires AllOneLine(lines)
    ensures Split(Unlines(lines), '\n') == lines + [[]]
  {
    if |lines| > 0 {
      SplitUnlines(lines[1..]);
      assert Unlines(lines) == lines[0] + ['\n'] + Unlines(lines[1..]);
      SplitAround(lines[0], Unlines(lines[1..]), '\n');
      SplitNoSeparator(lines[0], '\n');
      assert [lines[0]] + (lines[1..] + [[]]) == lines + [[]];
    }
  }

  lemma {:induction false} TerminateLast(lines: seq<string>)
    ensures Terminate(lines + [[]]) == Terminated(lines)
  {
    if |lines| > 0 {
      assert (lines + [[]])[1..] == lines[1..] + [[]];
      TerminateLast(lines[1..]);
    }
  }

  /** Lines written with `f.write("\n")` after each are read back one for
      one, each with its terminator. */
  lemma FileLinesUnlines(lines: seq<string>)
    requires AllOneLine(lines)
    ensures FileLines(Unlines(lines)) == Terminated(lines)
  {
    UnlinesNoReturn(lines);
    NewlinesKeep(Unlines(lines));
    SplitUnlines(lines);
    TerminateLast(lines);
  }

  lemma {:induction false} UnlinesAppend(a: seq<string>, b: seq<string>)
    ensures Unlines(a + b) == Unlines(a) + Unlines(b)
  {
    if |a| == 0 {
      assert a + b == b;
    } else {
      assert (a + b)[1..] == a[1..] + b;
      UnlinesAppend(a[1..], b);
    }
  }

  lemma {:induction false} RecordLinesOneLine(docs: seq<Doc>)
    ensures AllOneLine(RecordLines(docs))
  {
    forall i | 0 <= i < |docs|
      ensures OneLine(RecordLines(docs)[i])
    {
      EncodeOneLine(Record(docs[i]));
    }
  }

  lemma RecordWellFormed(d: Doc)
    requires ValidDoc(d)
    ensures WellFormed(Record(d))
  {
    var fs := [Field("text", Str(d.content)), Field("metadata", Obj(d.metadata))];
    assert KeySet(fs[1..]) == {"metadata"};
    assert Distinct(fs);
  }

  /** One record, written as a line and read back, decodes to itself. */
  lemma RecordLineDecodes(d: Doc)
    requires ValidDoc(d)
    ensures Decode(Strip(Encode(Record(d)) + "\n")) == Some(Record(d))
  {
    RecordWellFormed(d);
    LineRoundTrip(Record(d), "\n");
  }

  /** A record has exactly the keys `text` and `metadata`. */
  lemma RecordKeys(d: Doc)
    ensures KeySet(Record(d).fields) == {"text", "metadata"}
  {
    var fs := Record(d).fields;
    assert KeySet(fs[1..]) == {"metadata"};
  }

  /** Every encoded record, read back as a line, decodes to the record. */
  lemma DecodeRecordLines(docs: seq<Doc>)
    requires forall i :: 0 <= i < |docs| ==> ValidDoc(docs[i])
    ensures DecodeLines(Terminated(RecordLines(docs))) == Records(docs)
  {
    var lines := Terminated(RecordLines(docs));
    var vals := LineValues(lines);
    var recs := Records(docs);
    forall i | 0 <= i < |vals|
      ensures vals[i] == Some(recs[i])
    {
      assert lines[i] == Encode(Record(docs[i])) + "\n";
      RecordLineDecodes(docs[i]);
    }
    KeepSome(vals, recs);
  }

  /** `save_chunks` writes one terminated line per document, in order, and
      each line holds an object with exactly the keys `text` and
      `metadata`. */
  lemma SaveChunksLines(docs: seq<Doc>)
    requires forall i :: 0 <= i < |docs| ==> ValidDoc(docs[i])
    ensures |FileLines(SaveChunks(docs))| == |docs|
    ensures forall i :: 0 <= i < |docs| ==>
      FileLines(SaveChunks(docs))[i] == Encode(Record(docs[i])) + "\n"
    ensures forall i :: 0 <= i < |docs| ==>
      Decode(Strip(FileLines(SaveChunks(docs))[i])) == Some(Record(docs[i]))
    ensures forall i :: 0 <= i < |docs| ==> KeySet(Record(docs[i]).fields) == {"text", "metadata"}
  {
    RecordLinesOneLine(docs);
    FileLinesUnlines(RecordLines(docs));
    forall i | 0 <= i < |docs|
      ensures Decode(Strip(Encode(Record(docs[i])) + "\n")) == Some(Record(docs[i]))
      ensures KeySet(Record(docs[i]).fields) == {"text", "metadata"}
    {
      RecordLineDecodes(docs[i]);
      RecordKeys(docs[i]);
    }
  }

  /** `load_chunks` on the file `save_chunks(docs)` wrote returns the
      `{text, metadata}` records of the documents, in the same order. */
  lemma ChunkFileRoundTrip(docs: seq<Doc>, files: map<string, string>, path: string)
    requires forall i :: 0 <= i < |docs| ==> ValidDoc(docs[i])
    ensures LoadChunks(files[path := SaveChunks(docs)], path) == Ok(Records(docs))
  {
    RecordLinesOneLine(docs);
    FileLinesUnlines(RecordLines(docs));
    DecodeRecordLines(docs);
  }

  lemma {:induction false} TerminatedAppend(a: seq<string>, b: seq<string>)
    ensures Terminated(a + b) == Terminated(a) + Terminated(b)
  {
    if |a| == 0 {
      assert a + b == b;
    } else {
      assert (a + b)[1..] == a[1..] + b;
      TerminatedAppend(a[1..], b);
    }
  }

  /** The lines of a file holding two runs of records with one more line
      between them. */
  lemma LinesAroundLine(a: seq<Doc>, bad: string, b: seq<Doc>)
    requires OneLine(bad)
    ensures FileLines(SaveChunks(a) + bad + "\n" + SaveChunks(b))
         == Terminated(RecordLines(a)) + [bad + "\n"] + Terminated(RecordLines(b))
  {
    var la := RecordLines(a);
    var lb := RecordLines(b);
    RecordLinesOneLine(a);
    RecordLinesOneLine(b);
    OneLineAround(la, bad, lb);
    UnlinesAround(la, bad, lb);
    FileLinesUnlines(la + [bad] + lb);
    TerminatedAround(la, bad, lb);
  }

  lemma OneLineAround(a: seq<string>, line: string, b: seq<string>)
    requires AllOneLine(a) && OneLine(line) && AllOneLine(b)
    ensures AllOneLine(a + [line] + b)
  {
  }

  lemma UnlinesAround(a: seq<string>, line: string, b: seq<string>)
    ensures Unlines(a + [line] + b) == Unlines(a) + line + "\n" + Unlines(b)
  {
    UnlinesAppend(a + [line], b);
    UnlinesAppend(a, [line]);
    assert Unlines([line]) == line + "\n";
  }

  lemma TerminatedAround(a: seq<string>, line: string, b: seq<string>)
    ensures Terminated(a + [line] + b) == Terminated(a) + [line + "\n"] + Terminated(b)
  {
    TerminatedAppend(a + [line], b);
    TerminatedAppend(a, [line]);
  }

  /** A malformed line between two runs of records is skipped; the records
      around it are all kept, in order. */
  lemma MalformedLineSkipped(a: seq<Doc>, bad: string, b: seq<Doc>, files: map<string, string>, path: string)
    requires forall i :: 0 <= i < |a| ==> ValidDoc(a[i])
    requires forall i :: 0 <= i < |b| ==> ValidDoc(b[i])
    requires OneLine(bad) && Decode(Strip(bad + "\n")) == None
    ensures LoadChunks(files[path := SaveChunks(a) + bad + "\n" + SaveChunks(b)], path)
         == Ok(Records(a) + Records(b))
  {
    LinesAroundLine(a, bad, b);
    DecodeLinesSkip(Terminated(RecordLines(a)), bad + "\n", Terminated(RecordLines(b)));
    DecodeRecordLines(a);
    DecodeRecordLines(b);
  }
}

=== FILE: context.dfy ===
/** `prepare_context`: the loaded chunks become one prompt context.

    Every chunk with non-blank text is framed with a numbered header, the
    number counting every chunk of the list (blank ones included). Frames
    are taken while they fit the character budget; the first one that does
    not fit is cut to the room left and ends the scan. The parts are
    joined with line breaks.

    `Context` states the result declaratively: frame the chunks up to the
    first one whose `text` is not a string, cut the frames to the budget,
    and fail with a type error only if the scan reaches that chunk.
    `PrepareContext` is the loop, proved to compute it. */
module PromptContext {
  import opened Base
  import opened Text
  import opened Json
  import opened Seqs

  /** The budget `generate_brochure` uses. */
  const DefaultMaxChars: int := 50000

  /** `chunk.get("text", "")` where `.strip()` can follow: the text of an
      object chunk, `""` when it has none, and nothing for anything else
      (a non-object chunk has no `get`, a non-string text no `strip`). */
  function ChunkText(c: Value): Option<string> {
    if !c.Obj? then None
    else match Get(c.fields, "text")
      case None => Some("")
      case Some(Str(s)) => Some(s)
      case Some(_) => None
  }

  predicate Typed(c: Value) {
    ChunkText(c).Some?
  }

  /** The chunks at indices `lo` up to `hi` have a usable text. */
  predicate TypedIn(chunks: seq<Value>, lo: nat, hi: nat)
    requires lo <= hi <= |chunks|
  {
    forall i :: lo <= i < hi ==> Typed(chunks[i])
  }

  /** The frame of the chunk at index `i` of the list. */
  function Frame(i: nat, text: string): string {
    "--- Chunk " + NatText(i + 1) + " ---\n" + text + "\n"
  }

  /** What the chunk at index `i` contributes: its frame, unless its text is
      blank or unusable. */
  function Included(c: Value, i: nat): (r: seq<string>)
    ensures |r| <= 1
  {
    match ChunkText(c)
    case Some(t) => if Blank(t) then [] else [Frame(i, t)]
    case None => []
  }

  /** The frames of the chunks at indices `lo` up to `hi`, each numbered by
      its position in the whole list. */
  function Frames(chunks: seq<Value>, lo: nat, hi: nat): (r: seq<string>)
    requires lo <= hi <= |chunks|
    ensures |r| <= hi - lo
    decreases hi
  {
    if hi == lo then [] else Frames(chunks, lo, hi - 1) + Included(chunks[hi - 1], hi - 1)
  }

  /** The parts kept under budget `m`: whole parts while they fit, then the
      first part that does not fit cut to the room left (Python's slice
      `part[:room]`), then nothing. */
  function Cut(parts: seq<string>, m: int): seq<string> {
    if |parts| == 0 then []
    else if |parts[0]| > m then [PyPrefix(parts[0], m)]
    else [parts[0]] + Cut(parts[1..], m - |parts[0]|)
  }

  /** The scan got past all of `parts` without stopping. */
  predicate Reaches(parts: seq<string>, m: int) {
    parts == [] || SumLen(parts) <= m
  }

  /** The index of the first chunk at or after `i` without a usable text
      (the length of the list if there is none). */
  function TypedEnd(chunks: seq<Value>, i: nat): (n: nat)
    requires i <= |chunks|
    ensures i <= n <= |chunks|
    ensures TypedIn(chunks, i, n)
    ensures n < |chunks| ==> !Typed(chunks[n])
    decreases |chunks| - i
  {
    if i == |chunks| || !Typed(chunks[i]) then i else TypedEnd(chunks, i + 1)
  }

  /** How many chunks from the start have a usable text. */
  function TypedPrefix(chunks: seq<Value>): nat {
    TypedEnd(chunks, 0)
  }

  /** The frames of the usable chunks. */
  function UsableFrames(chunks: seq<Value>): seq<string> {
    Frames(chunks, 0, TypedPrefix(chunks))
  }

  /** `prepare_context(chunks, m)`, stated without the loop. */
  function Context(chunks: seq<Value>, m: int): Result<string, Error> {
    var fs := UsableFrames(chunks);
    if TypedPrefix(chunks) < |chunks| && Reaches(fs, m) then Err(TypeError)
    else Ok(Join("\n", Cut(fs, m)))
  }

  /** Where the scan stands after one chunk: it goes on with these parts,
      or it has its result. */
  datatype Scan = Next(parts: seq<string>, total: int) | Done(result: Result<string, Error>)

  /** The loop of `prepare_context`. */
  method PrepareContext(chunks: seq<Value>, maxChars: int) returns (r: Result<string, Error>)
    ensures r == Context(chunks, maxChars)
  {
    var parts: seq<string> := [];
    var total := 0;
    var i := 0;
    while i < |chunks|
      invariant 0 <= i <= |chunks|
      invariant TypedIn(chunks, 0, i)
      invariant parts == Frames(chunks, 0, i)
      invariant total == SumLen(parts)
      invariant Reaches(parts, maxChars)
    {
      var step := ScanChunk(chunks, i, parts, total, maxChars);
      if step.Done? {
        return step.result;
      }
      parts, total := step.parts, step.total;
      i := i + 1;
    }
    assert Context(chunks, maxChars) == Ok(Join("\n", parts)) by {
      EndResult(chunks, parts, maxChars);
    }
    return Ok(Join("\n", parts));
  }

  /** What one pass over the chunk at index `i` may leave: either the
      loop state for the next index, or the final result of the whole scan. */
  predicate Advanced(chunks: seq<Value>, i: nat, maxChars: int, step: Scan)
    requires i < |chunks|
  {
    match step
    case Next(ps, t) => TypedIn(chunks, 0, i + 1) && ps == Frames(chunks, 0, i + 1) && t == SumLen(ps) && Reaches(ps, maxChars)
    case Done(r) => r == Context(chunks, maxChars)
  }

  /** One pass of the loop body, on the chunk at index `i`. */
  method ScanChunk(chunks: seq<Value>, i: nat, parts: seq<string>, total: int, maxChars: int) returns (step: Scan)
    requires i < |chunks| && TypedIn(chunks, 0, i) && parts == Frames(chunks, 0, i)
    requires total == SumLen(parts) && Reaches(parts, maxChars)
    ensures Advanced(chunks, i, maxChars, step)
  {
    var text := ChunkText(chunks[i]);
    if text.None? {
      ErrorStep(chunks, i, maxChars);
      return Done(Err(TypeError));
    }
    var t := text.value;
    StripEmptyIffBlank(t);
    if Strip(t) == [] {
      SkipStep(chunks, i, parts, total, maxChars);
      return Next(parts, total);
    }
    var chunkText := Frame(i, t);
    if total + |chunkText| > maxChars {
      BreakStep(chunks, i, parts, total, maxChars, t);
      return Done(Ok(Join("\n", parts + [PyPrefix(chunkText, maxChars - total)])));
    }
    TakeStep(chunks, i, parts, total, maxChars, t);
    return Next(parts + [chunkText], total + |chunkText|);
  }

  /** A chunk whose text cannot be read ends the scan with the error. */
  lemma ErrorStep(chunks: seq<Value>, i: nat, m: int)
    requires i < |chunks| && TypedIn(chunks, 0, i) && ChunkText(chunks[i]).None?
    requires Reaches(Frames(chunks, 0, i), m)
    ensures Advanced(chunks, i, m, Done(Err(TypeError)))
  {
    ErrorResult(chunks, i, m);
  }

  /** A blank chunk: the scan moves past it with the parts unchanged. */
  lemma SkipStep(chunks: seq<Value>, i: nat, parts: seq<string>, total: int, m: int)
    requires i < |chunks| && TypedIn(chunks, 0, i) && parts == Frames(chunks, 0, i)
    requires total == SumLen(parts) && Reaches(parts, m)
    requires ChunkText(chunks[i]).Some? && Blank(ChunkText(chunks[i]).value)
    ensures Advanced(chunks, i, m, Next(parts, total))
  {
    AppendNothing(parts);
  }

  /** A chunk whose frame overflows ends the scan with the cut context. */
  lemma BreakStep(chunks: seq<Value>, i: nat, parts: seq<string>, total: int, m: int, t: string)
    requires i < |chunks| && TypedIn(chunks, 0, i) && parts == Frames(chunks, 0, i)
    requires total == SumLen(parts) && Reaches(parts, m)
    requires ChunkText(chunks[i]) == Some(t) && !Blank(t)
    requires total + |Frame(i, t)| > m
    ensures Advanced(chunks, i, m, Done(Ok(Join("\n", parts + [PyPrefix(Frame(i, t), m - total)]))))
  {
    var f := Frame(i, t);
    assert Context(chunks, m) == Ok(Join("\n", parts + [PyPrefix(f, m - total)])) by {
      TextFramed(chunks[i], i, t);
      BreakResult(chunks, i, parts, f, m);
    }
  }

  /** A chunk whose frame fits: the scan moves past it with the frame
      added and the budget still kept. */
  lemma TakeStep(chunks: seq<Value>, i: nat, parts: seq<string>, total: int, m: int, t: string)
    requires i < |chunks| && TypedIn(chunks, 0, i) && parts == Frames(chunks, 0, i)
    requires total == SumLen(parts)
    requires ChunkText(chunks[i]) == Some(t) && !Blank(t)
    requires total + |Frame(i, t)| <= m
    ensures Advanced(chunks, i, m, Next(parts + [Frame(i, t)], total + |Frame(i, t)|))
  {
    TextFramed(chunks[i], i, t);
    SumLenAppend(parts, [Frame(i, t)]);
    SingleLen(Frame(i, t));
  }

  // ---------------------------------------------------------------------
  // Frames

  lemma TextFramed(c: Value, i: nat, t: string)
    requires ChunkText(c) == Some(t) && !Blank(t)
    ensures Included(c, i) == [Frame(i, t)]
  {
  }

  /** Framing is positional: the frames of a range are those of its two
      halves, each chunk keeping the number of its index. */
  lemma {:induction false} FramesSplit(chunks: seq<Value>, lo: nat, mid: nat, hi: nat)
    requires lo <= mid <= hi <= |chunks|
    ensures Frames(chunks, lo, hi) == Frames(chunks, lo, mid) + Frames(chunks, mid, hi)
    decreases hi
  {
    if hi == mid {
      AppendNothing(Frames(chunks, lo, mid));
    } else {
      FramesSplit(chunks, lo, mid, hi - 1);
      var c := Included(chunks[hi - 1], hi - 1);
      AppendAssoc(Frames(chunks, lo, mid), Frames(chunks, mid, hi - 1), c);
    }
  }

  /** A chunk whose text is blank contributes no part, and the chunks after
      it keep the numbers of their positions. */
  lemma BlankChunkSkipped(chunks: seq<Value>, lo: nat, j: nat, hi: nat)
    requires lo <= j < hi <= |chunks|
    requires ChunkText(chunks[j]).Some? && Blank(ChunkText(chunks[j]).value)
    ensures Frames(chunks, lo, hi) == Frames(chunks, lo, j) + Frames(chunks, j + 1, hi)
  {
    FramesSplit(chunks, lo, j + 1, hi);
    AppendNothing(Frames(chunks, lo, j));
  }

  /** A chunk with non-blank text at index `j` is framed with the number
      `j + 1`, between the frames of the chunks before and after it. */
  lemma ChunkFramed(chunks: seq<Value>, lo: nat, j: nat, hi: nat, t: string)
    requires lo <= j < hi <= |chunks|
    requires ChunkText(chunks[j]) == Some(t) && !Blank(t)
    ensures Frames(chunks, lo, hi) == Frames(chunks, lo, j) + [Frame(j, t)] + Frames(chunks, j + 1, hi)
  {
    FramesSplit(chunks, lo, j + 1, hi);
    TextFramed(chunks[j], j, t);
  }

  /** The frames of the first chunks do not depend on what follows them. */
  lemma {:induction false} FramesPrefix(a: seq<Value>, b: seq<Value>, hi: nat)
    requires hi <= |a|
    ensures Frames(a + b, 0, hi) == Frames(a, 0, hi)
  {
    if hi > 0 {
      FramesPrefix(a, b, hi - 1);
      assert (a + b)[hi - 1] == a[hi - 1];
    }
  }

  // ---------------------------------------------------------------------
  // The budget

  lemma ReachesPrefix(a: seq<string>, b: seq<string>, m: int)
    requires Reaches(a + b, m)
    ensures Reaches(a, m)
  {
    SumLenAppend(a, b);
    if a != [] {
      assert |a + b| > 0;
    }
  }

  /** Parts that fit are kept whole, and the budget left is what they leave
      over. */
  lemma {:induction false} CutFits(a: seq<string>, b: seq<string>, m: int)
    requires Reaches(a, m)
    ensures Cut(a + b, m) == a + Cut(b, m - SumLen(a))
  {
    if |a| > 0 {
      var x, rest := a[0], a[1..];
      var k := m - |x|;
      assert |x| <= m && Reaches(rest, k) && k - SumLen(rest) == m - SumLen(a) by {
        SumLenCons(a);
      }
      assert Cut(a + b, m) == [x] + Cut(rest + b, k) by {
        ConsParts(a, b);
      }
      CutFits(rest, b, k);
      AppendAssoc([x], rest, Cut(b, m - SumLen(a)));
      ConsSplit(a);
    } else {
      AppendNothing(b);
    }
  }

  /** Once the budget is exceeded nothing after is looked at. */
  lemma {:induction false} CutOverflow(a: seq<string>, b: seq<string>, m: int)
    requires !Reaches(a, m)
    ensures Cut(a + b, m) == Cut(a, m)
  {
    SumLenCons(a);
    ConsParts(a, b);
    if |a[0]| <= m {
      CutOverflow(a[1..], b, m - |a[0]|);
    }
  }

  /** Every kept part but the last is whole, and the last is a prefix of its
      part. */
  lemma {:induction false} CutShape(parts: seq<string>, m: int)
    ensures var r := Cut(parts, m);
            && |r| <= |parts|
            && (|parts| > 0 ==> |r| > 0)
            && (forall i :: 0 <= i < |r| - 1 ==> r[i] == parts[i])
            && (|r| > 0 ==> |r[|r| - 1]| <= |parts[|r| - 1]| && r[|r| - 1] == parts[|r| - 1][..|r[|r| - 1]|])
  {
    if |parts| > 0 && |parts[0]| <= m {
      var rest := Cut(parts[1..], m - |parts[0]|);
      CutShape(parts[1..], m - |parts[0]|);
      assert forall i :: 1 <= i < |rest| + 1 ==> ([parts[0]] + rest)[i] == rest[i - 1];
    }
  }

  /** With a budget of `m >= 0`, the kept text is exactly the first `m`
      characters of all the frames (all of them if they are shorter). */
  lemma {:induction false} CutIsPrefix(parts: seq<string>, m: int)
    requires m >= 0
    ensures Concat(Cut(parts, m)) == Concat(parts)[..if SumLen(parts) < m then SumLen(parts) else m]
  {
    if |parts| > 0 {
      var p := parts[0];
      ConsSplit(parts);
      ConcatAppend([p], parts[1..]);
      SumLenAppend([p], parts[1..]);
      SingleLen(p);
      if |p| > m {
        SingleLen(p[..m]);
      } else {
        var rest := Cut(parts[1..], m - |p|);
        CutIsPrefix(parts[1..], m - |p|);
        ConcatAppend([p], rest);
      }
    }
  }

  /** The kept parts never exceed the budget, and fill it whenever the
      frames are longer. */
  lemma CutBudget(parts: seq<string>, m: int)
    requires m >= 0
    ensures SumLen(Cut(parts, m)) == if SumLen(parts) < m then SumLen(parts) else m
  {
    CutIsPrefix(parts, m);
  }

  // ---------------------------------------------------------------------
  // The loop computes `Context`

  /** The usable prefix is the one followed by an unusable chunk or by
      nothing. */
  lemma TypedPrefixIs(chunks: seq<Value>, i: nat)
    requires i <= |chunks| && TypedIn(chunks, 0, i)
    requires i < |chunks| ==> !Typed(chunks[i])
    ensures TypedPrefix(chunks) == i
  {
  }

  lemma ErrorResult(chunks: seq<Value>, i: nat, m: int)
    requires i < |chunks| && TypedIn(chunks, 0, i) && !Typed(chunks[i])
    requires Reaches(Frames(chunks, 0, i), m)
    ensures Context(chunks, m) == Err(TypeError)
  {
    TypedPrefixIs(chunks, i);
  }

  lemma EndResult(chunks: seq<Value>, parts: seq<string>, m: int)
    requires TypedIn(chunks, 0, |chunks|) && parts == Frames(chunks, 0, |chunks|) && Reaches(parts, m)
    ensures Context(chunks, m) == Ok(Join("\n", parts))
  {
    TypedPrefixIs(chunks, |chunks|);
    CutFits(parts, [], m);
    AppendNothing(parts);
  }

  lemma SumLenCons(a: seq<string>)
    requires |a| > 0
    ensures SumLen(a) == |a[0]| + SumLen(a[1..])
  {
    ConsSplit(a);
    SumLenAppend([a[0]], a[1..]);
    SingleLen(a[0]);
  }

  lemma SingleLen(f: string)
    ensures SumLen([f]) == |f| && Concat([f]) == f
  {
    assert [f][..0] == [];
  }

  lemma BreakResult(chunks: seq<Value>, i: nat, parts: seq<string>, f: string, m: int)
    requires i < |chunks| && TypedIn(chunks, 0, i) && Typed(chunks[i])
    requires parts == Frames(chunks, 0, i) && Reaches(parts, m)
    requires Included(chunks[i], i) == [f]
    requires SumLen(parts) + |f| > m
    ensures Context(chunks, m) == Ok(Join("\n", parts + [PyPrefix(f, m - SumLen(parts))]))
  {
    var n := TypedPrefix(chunks);
    assert i < n;
    FramesSplit(chunks, 0, i + 1, n);
    BreakCut(parts, f, Frames(chunks, i + 1, n), m);
  }

  /** The first part that overflows is cut and ends the parts. */
  lemma BreakCut(parts: seq<string>, f: string, tail: seq<string>, m: int)
    requires Reaches(parts, m) && SumLen(parts) + |f| > m
    ensures !Reaches(parts + [f] + tail, m)
    ensures Cut(parts + [f] + tail, m) == parts + [PyPrefix(f, m - SumLen(parts))]
  {
    var head := parts + [f];
    SumLenAppend(parts, [f]);
    SingleLen(f);
    if Reaches(head + tail, m) {
      ReachesPrefix(head, tail, m);
    }
    CutOverflow(head, tail, m);
    CutFits(parts, [f], m);
  }

  // ---------------------------------------------------------------------
  // What the context promises

  /** With a budget `m >= 0`: the parts hold at most `m` characters, they
      are the first characters of the frames, every part but the last is a
      whole frame, and the joined context is at most `m` plus one line
      break between each two parts. */
  lemma ContextBudget(chunks: seq<Value>, m: int, s: string)
    requires m >= 0 && Context(chunks, m) == Ok(s)
    ensures var fs := UsableFrames(chunks);
            var parts := Cut(fs, m);
            && s == Join("\n", parts)
            && SumLen(parts) <= m
            && Concat(parts) == Concat(fs)[..if SumLen(fs) < m then SumLen(fs) else m]
            && |parts| <= |fs|
            && (forall i :: 0 <= i < |parts| - 1 ==> parts[i] == fs[i])
            && (parts == [] ==> s == [])
            && (parts != [] ==> |s| <= m + |parts| - 1)
  {
    var fs := UsableFrames(chunks);
    CutIsPrefix(fs, m);
    CutBudget(fs, m);
    CutShape(fs, m);
    JoinLength("\n", Cut(fs, m));
  }

  /** The scan stops at the first frame that overflows: when a run of usable
      chunks already exceeds the budget, whatever follows them (even chunks
      that would raise) does not change the context. */
  lemma LaterChunksIgnored(a: seq<Value>, b: seq<Value>, m: int)
    requires TypedIn(a, 0, |a|) && !Reaches(Frames(a, 0, |a|), m)
    ensures Context(a + b, m) == Context(a, m)
  {
    var ab := a + b;
    assert TypedIn(ab, 0, |a|) by {
      assert forall j :: 0 <= j < |a| ==> ab[j] == a[j];
    }
    var n := TypedPrefix(ab);
    assert n >= |a|;
    FramesSplit(ab, 0, |a|, n);
    FramesPrefix(a, b, |a|);
    var fa := Frames(a, 0, |a|);
    var rest := Frames(ab, |a|, n);
    if Reaches(fa + rest, m) {
      ReachesPrefix(fa, rest, m);
    }
    CutOverflow(fa, rest, m);
    TypedPrefixIs(a, |a|);
  }
}

=== FILE: filenames.dfy ===
/** File-name primitives: `str.rfind` and `pathlib`'s `Path.suffix`, which
    both the document loader and the image picker use to recognise file
    types. */
module FileNames {
  import opened Base

  /** `s.rfind(c)`, as an index when found. */
  function LastIndex(s: string, c: char): (r: Option<nat>)
    ensures r.Some? ==> r.value < |s|
  {
    if |s| == 0 then None
    else if s[|s| - 1] == c then Some(|s| - 1)
    else LastIndex(s[..|s| - 1], c)
  }

  /** The index found holds `c` and nothing after it does; without one,
      `c` does not occur. */
  lemma {:induction false} LastIndexSpec(s: string, c: char)
    ensures LastIndex(s, c).None? ==> forall j :: 0 <= j < |s| ==> s[j] != c
    ensures LastIndex(s, c).Some? ==> (s[LastIndex(s, c).value] == c
              && forall j :: LastIndex(s, c).value < j < |s| ==> s[j] != c)
  {
    if |s| > 0 && s[|s| - 1] != c {
      LastIndexSpec(s[..|s| - 1], c);
    }
  }

  /** Without `c`, nothing is found. */
  lemma LastIndexNone(s: string, c: char)
    requires c !in s
    ensures LastIndex(s, c) == None
  {
    LastIndexSpec(s, c);
    assert forall j :: 0 <= j < |s| ==> s[j] != c;
  }

  /** A tail without `c` after a head ending in `c`: the last `c` is the
      head's last character. */
  lemma {:induction false} LastIndexAfter(head: string, tail: string, c: char)
    requires |head| > 0 && head[|head| - 1] == c && c !in tail
    ensures LastIndex(head + tail, c) == Some(|head| - 1)
    decreases |tail|
  {
    var s := head + tail;
    if |tail| == 0 {
      assert s == head;
    } else {
      var t := tail[..|tail| - 1];
      assert s[|s| - 1] == tail[|tail| - 1];
      assert tail[|tail| - 1] in tail;
      assert s[..|s| - 1] == head + t;
      assert forall x :: x in t ==> x in tail;
      LastIndexAfter(head, t, c);
    }
  }

  /** `Path(name).suffix`: from the last dot on, provided the dot is neither
      the first nor the last character; otherwise empty. */
  function Suffix(name: string): string {
    match LastIndex(name, '.')
    case None => []
    case Some(i) => if 0 < i < |name| - 1 then name[i..] else []
  }

  /** A non-empty suffix is a dot, at least one character without a dot,
      the end of the name, and something comes before it. */
  lemma SuffixShape(name: string)
    ensures var r := Suffix(name);
            r == [] || (
              2 <= |r| < |name| && r[0] == '.' && r == name[|name| - |r|..]
              && forall j :: 1 <= j < |r| ==> r[j] != '.')
  {
    LastIndexSpec(name, '.');
  }

  /** A stem and an extension without a dot: the suffix is the extension. */
  lemma SuffixOf(stem: string, ext: string)
    requires |stem| > 0 && |ext| > 0
    requires forall j :: 0 <= j < |ext| ==> ext[j] != '.'
    ensures Suffix(stem + "." + ext) == "." + ext
  {
    var name := stem + "." + ext;
    var i := |stem|;
    LastIndexSpec(name, '.');
    assert name[i] == '.';
    assert forall j :: i < j < |name| ==> name[j] == ext[j - i - 1];
    assert LastIndex(name, '.') == Some(i);
    assert name[i..] == "." + ext;
  }

  /** A name whose only dot is its first character (`.pdf`) or that has no
      dot has no suffix. */
  lemma NoSuffix(name: string)
    requires forall j :: 0 < j < |name| ==> name[j] != '.'
    ensures Suffix(name) == []
  {
    LastIndexSpec(name, '.');
  }
}

=== FILE: ingest.dfy ===
/** The ingestion agent: uploaded documents become a job folder holding
    `chunks.jsonl`.

    `load_documents` picks the files a loader exists for (by their suffix),
    loads them in listing order and tags every page with the file it came
    from. `run_ingest` names the job, loads, splits, saves the chunks and
    optionally embeds them. The directory listing, the document loaders,
    the text splitter, the key lookup and the embedding service are
    parameters; the run returns its effects in order together with the
    files after it. */
module Ingest {
  import opened Base
  import opened Text
  import opened Json
  import opened JsonCodec
  import opened Seqs
  import opened ChunkStore
  import opened JobIds
  import opened FileNames
  import PromptContext
  import Summarizer

  const DefaultOutputRoot: string := "./data/jobs"

  /** The two loaders `load_documents` knows. */
  datatype DocKind = Pdf | Docx

  /** A loader invocation: which loader, on which path. */
  datatype LoadCall = LoadCall(kind: DocKind, path: string)

  /** The outcome of loading and the loader calls made, in order. */
  datatype Loaded = Loaded(result: Result<seq<Doc>, Error>, calls: seq<LoadCall>)

  // ---------------------------------------------------------------------
  // File selection

  /** Which loader `load_documents` uses for a file name, if any. */
  function KindOf(name: string): Option<DocKind> {
    var ext := Lower(Suffix(name));
    if ext == ".pdf" then Some(Pdf)
    else if ext == ".docx" then Some(Docx)
    else None
  }

  /** The loader is chosen by the extension, in any letter case. */
  lemma KindOfExtension(stem: string, ext: string)
    requires |stem| > 0 && |ext| > 0
    requires forall j :: 0 <= j < |ext| ==> ext[j] != '.'
    ensures KindOf(stem + "." + ext) == Some(Pdf) <==> Lower("." + ext) == ".pdf"
    ensures KindOf(stem + "." + ext) == Some(Docx) <==> Lower("." + ext) == ".docx"
    ensures KindOf(stem + "." + ext).None? <==> Lower("." + ext) != ".pdf" && Lower("." + ext) != ".docx"
  {
    SuffixOf(stem, ext);
  }

  // ---------------------------------------------------------------------
  // Loading

  /** `d.metadata["source_file"] = file` on every loaded document. */
  function Tagged(ds: seq<Doc>, file: string): seq<Doc> {
    if |ds| == 0 then []
    else [Doc(ds[0].content, Set(ds[0].metadata, "source_file", Str(file)))] + Tagged(ds[1..], file)
  }

  /** One planned load: a listed name a loader exists for, and the call. */
  datatype Step = Step(name: string, call: LoadCall)

  /** The supported names of a listing, in listing order, each with the
      loader call `load_documents` makes for it. Choosing the loader looks
      at the name only, so the choice can be made up front. */
  function Plan(dir: string, names: seq<string>): (r: seq<Step>)
    ensures |r| <= |names|
  {
    if |names| == 0 then []
    else match KindOf(names[0])
      case None => Plan(dir, names[1..])
      case Some(k) => [Step(names[0], LoadCall(k, JoinPath(dir, names[0])))] + Plan(dir, names[1..])
  }

  /** The calls of a plan. */
  function Calls(plan: seq<Step>): (r: seq<LoadCall>)
    ensures |r| == |plan|
    ensures forall i :: 0 <= i < |plan| ==> r[i] == plan[i].call
  {
    if |plan| == 0 then [] else [plan[0].call] + Calls(plan[1..])
  }

  /** Running the planned loads in order. A loader that raises ends the
      loop: the exception leaves `run_ingest`. */
  function LoadPlan(plan: seq<Step>, loader: LoadCall -> Option<seq<Doc>>): (r: Loaded)
    ensures r.result.Err? ==> r.result.error.LoaderFailed?
  {
    if |plan| == 0 then Loaded(Ok([]), [])
    else
      var step := plan[0];
      match loader(step.call)
      case None => Loaded(Err(LoaderFailed(step.name)), [step.call])
      case Some(ds) =>
        var rest := LoadPlan(plan[1..], loader);
        var result := if rest.result.Ok? then Ok(Tagged(ds, step.name) + rest.result.value) else rest.result;
        Loaded(result, [step.call] + rest.calls)
  }

  /** The loop of `load_documents` over the listed names. */
  function LoadFiles(dir: string, names: seq<string>, loader: LoadCall -> Option<seq<Doc>>): Loaded {
    LoadPlan(Plan(dir, names), loader)
  }

  /** A step for a listed name a loader exists for, calling that loader on
      the joined path. */
  predicate Planned(dir: string, names: seq<string>, st: Step) {
    st.name in names && KindOf(st.name).Some? && st.call == LoadCall(KindOf(st.name).value, JoinPath(dir, st.name))
  }

  /** Every planned step is a listed name a loader exists for, with the
      call for the joined path. */
  lemma {:induction false} PlanSound(dir: string, names: seq<string>)
    ensures forall i :: 0 <= i < |Plan(dir, names)| ==> Planned(dir, names, Plan(dir, names)[i])
  {
    if |names| > 0 {
      var r, rest := Plan(dir, names), Plan(dir, names[1..]);
      assert forall i :: 0 <= i < |rest| ==> Planned(dir, names, rest[i]) by {
        PlanSound(dir, names[1..]);
        assert forall n :: n in names[1..] ==> n in names;
      }
      if KindOf(names[0]).Some? {
        var st := Step(names[0], LoadCall(KindOf(names[0]).value, JoinPath(dir, names[0])));
        assert r == [st] + rest;
        forall i | 0 <= i < |r|
          ensures Planned(dir, names, r[i])
        {
          if i > 0 {
            IndexInRight([st], rest, i - 1);
          }
        }
      } else {
        assert r == rest;
      }
    }
  }

  /** Every listed name a loader exists for is planned. */
  lemma {:induction false} PlanComplete(dir: string, names: seq<string>, n: string)
    requires n in names && KindOf(n).Some?
    ensures exists i :: 0 <= i < |Plan(dir, names)| && Plan(dir, names)[i].name == n
  {
    var r, rest := Plan(dir, names), Plan(dir, names[1..]);
    if n == names[0] {
      assert r[0].name == n;
    } else {
      assert n in names[1..];
      PlanComplete(dir, names[1..], n);
      var j :| 0 <= j < |rest| && rest[j].name == n;
      PlanStep(dir, names);
      if |r| == |rest| {
        assert r[j].name == n;
      } else {
        assert r[j + 1].name == n;
      }
    }
  }

  /** One step of `Plan`: the first name is either skipped or planned first. */
  lemma PlanStep(dir: string, names: seq<string>)
    requires |names| > 0
    ensures var r, rest := Plan(dir, names), Plan(dir, names[1..]);
            r == rest || (|r| == |rest| + 1 && r[0].name == names[0] && r[1..] == rest)
  {
  }

  lemma {:induction false} PlanAppend(dir: string, a: seq<string>, b: seq<string>)
    ensures Plan(dir, a + b) == Plan(dir, a) + Plan(dir, b)
  {
    if |a| > 0 {
      ConsParts(a, b);
      PlanAppend(dir, a[1..], b);
      if KindOf(a[0]).Some? {
        AppendAssoc([Step(a[0], LoadCall(KindOf(a[0]).value, JoinPath(dir, a[0])))], Plan(dir, a[1..]), Plan(dir, b));
      }
    } else {
      AppendNothing(b);
      AppendNothing(Plan(dir, b));
    }
  }

  /** A file no loader exists for is skipped without a call and without
      failing: the listing loads as if it were not there. */
  lemma UnsupportedSkipped(dir: string, a: seq<string>, name: string, b: seq<string>, loader: LoadCall -> Option<seq<Doc>>)
    requires KindOf(name).None?
    ensures LoadFiles(dir, a + [name] + b, loader) == LoadFiles(dir, a + b, loader)
  {
    PlanAppend(dir, a + [name], b);
    PlanAppend(dir, a, [name]);
    PlanAppend(dir, a, b);
    assert Plan(dir, [name]) == [] by {
      assert [name][1..] == [];
    }
    AppendNothing(Plan(dir, a));
  }

  /** The calls made are the planned calls up to the first failure, and
      all of them when none fails. */
  lemma {:induction false} LoadPlanCalls(plan: seq<Step>, loader: LoadCall -> Option<seq<Doc>>)
    ensures var r := LoadPlan(plan, loader);
            && r.calls <= Calls(plan)
            && (r.result.Ok? ==> r.calls == Calls(plan))
  {
    if |plan| > 0 {
      var call, r := plan[0].call, LoadPlan(plan, loader);
      assert Calls(plan) == [call] + Calls(plan[1..]);
      if loader(call).Some? {
        var rest := LoadPlan(plan[1..], loader);
        LoadPlanCalls(plan[1..], loader);
        assert r.calls == [call] + rest.calls;
        assert r.result.Ok? ==> rest.result.Ok?;
        PrefixOfCons(call, rest.calls, Calls(plan[1..]));
      } else {
        assert r.calls == [call];
      }
    }
  }

  /** Every call made before the last one loaded; the last one loaded too
      exactly when the whole load succeeded. */
  lemma {:induction false} LoadPlanOutcomes(plan: seq<Step>, loader: LoadCall -> Option<seq<Doc>>)
    ensures var r := LoadPlan(plan, loader);
            && (r.result.Ok? ==> forall i :: 0 <= i < |r.calls| ==> loader(r.calls[i]).Some?)
            && (r.result.Err? ==> |r.calls| > 0 && loader(r.calls[|r.calls| - 1]).None?
                                  && forall i :: 0 <= i < |r.calls| - 1 ==> loader(r.calls[i]).Some?)
  {
    if |plan| > 0 {
      var call, r := plan[0].call, LoadPlan(plan, loader);
      if loader(call).Some? {
        var rest := LoadPlan(plan[1..], loader);
        LoadPlanOutcomes(plan[1..], loader);
        assert r.calls == [call] + rest.calls;
        assert r.result.Ok? <==> rest.result.Ok?;
        forall i | 1 <= i < |r.calls|
          ensures r.calls[i] == rest.calls[i - 1]
        {
          IndexInRight([call], rest.calls, i - 1);
        }
      } else {
        assert r.calls == [call];
      }
    }
  }

  /** The loader is called on the planned files in order, and only until
      one fails: on success every planned file was loaded, on failure the
      last call is the failing one and all before it succeeded. */
  lemma LoadPlanTrace(plan: seq<Step>, loader: LoadCall -> Option<seq<Doc>>)
    ensures var r := LoadPlan(plan, loader);
            && r.calls <= Calls(plan)
            && (r.result.Ok? ==> r.calls == Calls(plan))
            && (r.result.Ok? ==> forall i :: 0 <= i < |r.calls| ==> loader(r.calls[i]).Some?)
            && (r.result.Err? ==> |r.calls| > 0 && loader(r.calls[|r.calls| - 1]).None?
                                  && forall i :: 0 <= i < |r.calls| - 1 ==> loader(r.calls[i]).Some?)
  {
    LoadPlanCalls(plan, loader);
    LoadPlanOutcomes(plan, loader);
  }

  /** Loading succeeds exactly when every planned file loads. */
  lemma LoadPlanOk(plan: seq<Step>, loader: LoadCall -> Option<seq<Doc>>)
    ensures LoadPlan(plan, loader).result.Ok? <==> forall i :: 0 <= i < |plan| ==> loader(plan[i].call).Some?
  {
    LoadPlanTrace(plan, loader);
    var r := LoadPlan(plan, loader);
    if r.result.Err? {
      var n := |r.calls| - 1;
      assert Calls(plan)[n] == r.calls[n];
    }
  }

  /** Files are loaded one after the other: when the first part of a plan
      loads, the whole plan gives its documents followed by those of the
      rest, and its calls followed by theirs. */
  lemma {:induction false} LoadPlanAppend(p: seq<Step>, q: seq<Step>, loader: LoadCall -> Option<seq<Doc>>)
    requires LoadPlan(p, loader).result.Ok?
    ensures var rp, rq := LoadPlan(p, loader), LoadPlan(q, loader);
            var r := LoadPlan(p + q, loader);
            && r.calls == rp.calls + rq.calls
            && (rq.result.Ok? ==> r.result == Ok(rp.result.value + rq.result.value))
            && (rq.result.Err? ==> r.result == rq.result)
  {
    if |p| == 0 {
      AppendNothing(q);
      AppendNothing(LoadPlan(q, loader).calls);
      if LoadPlan(q, loader).result.Ok? {
        AppendNothing(LoadPlan(q, loader).result.value);
      }
    } else {
      ConsParts(p, q);
      LoadPlanAppend(p[1..], q, loader);
      var step := p[0];
      var rest := LoadPlan(p[1..], loader);
      var rq := LoadPlan(q, loader);
      AppendAssoc([step.call], rest.calls, rq.calls);
      if rq.result.Ok? {
        AppendAssoc(Tagged(loader(step.call).value, step.name), rest.result.value, rq.result.value);
      }
    }
  }

  /** One supported file contributes its loader's documents, tagged with
      its name, or fails the load with its name. */
  lemma LoadOne(dir: string, name: string, loader: LoadCall -> Option<seq<Doc>>)
    requires KindOf(name).Some?
    ensures var call := LoadCall(KindOf(name).value, JoinPath(dir, name));
            var r := LoadFiles(dir, [name], loader);
            && r.calls == [call]
            && (loader(call).Some? ==> r.result == Ok(Tagged(loader(call).value, name)))
            && (loader(call).None? ==> r.result == Err(LoaderFailed(name)))
  {
    var call := LoadCall(KindOf(name).value, JoinPath(dir, name));
    assert [name][1..] == [];
    var plan := Plan(dir, [name]);
    assert plan == [Step(name, call)];
    assert plan[1..] == [];
    assert LoadPlan([], loader) == Loaded(Ok([]), []);
    if loader(call).Some? {
      AppendNothing(Tagged(loader(call).value, name));
    }
  }

  /** Loading a listing is loading its first part, then the rest. */
  lemma LoadFilesAppend(dir: string, a: seq<string>, b: seq<string>, loader: LoadCall -> Option<seq<Doc>>)
    requires LoadFiles(dir, a, loader).result.Ok?
    ensures var ra, rb := LoadFiles(dir, a, loader), LoadFiles(dir, b, loader);
            var r := LoadFiles(dir, a + b, loader);
            && r.calls == ra.calls + rb.calls
            && (rb.result.Ok? ==> r.result == Ok(ra.result.value + rb.result.value))
            && (rb.result.Err? ==> r.result == rb.result)
  {
    PlanAppend(dir, a, b);
    LoadPlanAppend(Plan(dir, a), Plan(dir, b), loader);
  }

  /** `load_documents(input_dir)`: a missing directory raises before any
      loader runs. */
  function LoadDocuments(dir: string, listing: Option<seq<string>>, loader: LoadCall -> Option<seq<Doc>>): (r: Loaded)
    ensures listing.None? ==> r == Loaded(Err(FileNotFound(dir)), [])
  {
    match listing
    case None => Loaded(Err(FileNotFound(dir)), [])
    case Some(names) => LoadFiles(dir, names, loader)
  }

  /** Tagging sets `source_file` to the bare file name, replacing any value
      the loader put there, and leaves the text and every other metadata
      key alone. */
  lemma {:induction false} TaggedSpec(ds: seq<Doc>, file: string)
    ensures |Tagged(ds, file)| == |ds|
    ensures forall i :: 0 <= i < |ds| ==> Tagged(ds, file)[i].content == ds[i].content
    ensures forall i :: 0 <= i < |ds| ==> Tagged(ds, file)[i].metadata == Set(ds[i].metadata, "source_file", Str(file))
  {
    if |ds| > 0 {
      TaggedSpec(ds[1..], file);
      var r := Tagged(ds, file);
      assert forall i :: 1 <= i < |ds| ==> r[i] == Tagged(ds[1..], file)[i - 1];
    }
  }

  /** What a tagged document's metadata holds. */
  lemma TaggedMetadata(ds: seq<Doc>, file: string, i: nat)
    requires i < |ds|
    ensures |Tagged(ds, file)| == |ds|
    ensures Get(Tagged(ds, file)[i].metadata, "source_file") == Some(Str(file))
    ensures forall k :: k != "source_file" ==> Get(Tagged(ds, file)[i].metadata, k) == Get(ds[i].metadata, k)
  {
    TaggedSpec(ds, file);
  }

  /** Tagging keeps a document valid. */
  lemma TaggedValid(ds: seq<Doc>, file: string)
    requires forall i :: 0 <= i < |ds| ==> ValidDoc(ds[i])
    ensures |Tagged(ds, file)| == |ds|
    ensures forall i :: 0 <= i < |ds| ==> ValidDoc(Tagged(ds, file)[i])
  {
    TaggedSpec(ds, file);
    forall i | 0 <= i < |ds|
      ensures ValidDoc(Tagged(ds, file)[i])
    {
      SetKeepsWellFormed(ds[i].metadata, "source_file", Str(file));
    }
  }

  // ---------------------------------------------------------------------
  // The run

  /** The effects of `run_ingest`, in the order they happen. */
  datatype Effect =
    | MakeDir(path: string)
    | Load(call: LoadCall)
    | WriteFile(path: string)
    | Embed(dir: string, count: nat)

  /** The dictionary `run_ingest` returns. */
  datatype JobRecord = JobRecord(jobId: string, jobDir: string, chunksPath: string, chromaDir: string, embeddingsCreated: bool)

  datatype Ingestion = Ingestion(result: Result<JobRecord, Error>, files: map<string, string>, effects: seq<Effect>)

  function LoadEffects(calls: seq<LoadCall>): (r: seq<Effect>)
    ensures |r| == |calls|
    ensures forall i :: 0 <= i < |calls| ==> r[i] == Load(calls[i])
  {
    if |calls| == 0 then [] else [Load(calls[0])] + LoadEffects(calls[1..])
  }

  /** The job's three paths, as `run_ingest` builds them. */
  function JobPaths(outputRoot: string, jobId: string, createEmbeddings: bool): JobRecord {
    var jobDir := JoinPath(outputRoot, jobId);
    JobRecord(jobId, jobDir, JoinPath(jobDir, "chunks.jsonl"), JoinPath(jobDir, "chroma_db"), createEmbeddings)
  }

  /** `run_ingest(input_dir, output_root, create_embeddings)`. `split` is the
      text splitter, `embed` the embedding service (false when it raises). */
  function RunIngest(inputDir: string, outputRoot: string, createEmbeddings: bool, now: Stamp, uuid: string,
                     listing: Option<seq<string>>, loader: LoadCall -> Option<seq<Doc>>,
                     split: seq<Doc> -> seq<Doc>, apiKey: Option<string>,
                     embed: (seq<Doc>, string) -> bool, files: map<string, string>): (run: Ingestion)
    requires ValidStamp(now)
    ensures |run.effects| >= 2 && run.effects[0] == MakeDir(outputRoot)
    ensures run.effects[1] == MakeDir(JobPaths(outputRoot, JobId(now, uuid), createEmbeddings).jobDir)
    ensures run.result.Ok? ==> run.result.value == JobPaths(outputRoot, JobId(now, uuid), createEmbeddings)
    ensures run.files != files ==> run.files.Keys == files.Keys + {JobPaths(outputRoot, JobId(now, uuid), createEmbeddings).chunksPath}
  {
    var record := JobPaths(outputRoot, JobId(now, uuid), createEmbeddings);
    var dirs := [MakeDir(outputRoot), MakeDir(record.jobDir)];
    var loaded := LoadDocuments(inputDir, listing, loader);
    var loads := dirs + LoadEffects(loaded.calls);
    match loaded.result
    case Err(e) => Ingestion(Err(e), files, loads)
    case Ok(docs) =>
      var chunks := split(docs);
      var written := files[record.chunksPath := SaveChunks(chunks)];
      var saved := loads + [WriteFile(record.chunksPath)];
      if !createEmbeddings then Ingestion(Ok(record), written, saved)
      else if apiKey.None? || apiKey.value == [] then Ingestion(Err(MissingApiKey), written, saved)
      else
        var embedded := saved + [Embed(record.chromaDir, |chunks|)];
        if embed(chunks, record.chromaDir) then Ingestion(Ok(record), written, embedded)
        else Ingestion(Err(ServiceFailed), written, embedded)
  }

  /** The returned paths hang together: the job folder is the job id under
      the output root, and the chunk file and the vector store directory
      are inside it; the store is reported whether or not embeddings were
      made, and `embeddings_created` is the flag passed in. */
  lemma JobPathsShape(outputRoot: string, jobId: string, createEmbeddings: bool)
    ensures var r := JobPaths(outputRoot, jobId, createEmbeddings);
            && r.jobDir == JoinPath(outputRoot, r.jobId)
            && r.chunksPath == JoinPath(r.jobDir, "chunks.jsonl")
            && r.chromaDir == JoinPath(r.jobDir, "chroma_db")
            && r.embeddingsCreated == createEmbeddings
            && r.jobDir[|r.jobDir| - |jobId|..] == jobId
            && r.chunksPath[|r.chunksPath| - |"chunks.jsonl"|..] == "chunks.jsonl"
  {
    var r := JobPaths(outputRoot, jobId, createEmbeddings);
    JoinPathEnds(outputRoot, jobId);
    JoinPathEnds(r.jobDir, "chunks.jsonl");
  }

  /** When loading succeeds the chunk file is written, before any credential
      check: with embeddings asked for and no key, the run fails with the
      chunks already saved. */
  lemma ChunksSurviveMissingKey(inputDir: string, outputRoot: string, now: Stamp, uuid: string,
                                listing: Option<seq<string>>, loader: LoadCall -> Option<seq<Doc>>,
                                split: seq<Doc> -> seq<Doc>, apiKey: Option<string>,
                                embed: (seq<Doc>, string) -> bool, files: map<string, string>)
    requires ValidStamp(now)
    requires LoadDocuments(inputDir, listing, loader).result.Ok?
    requires apiKey.None? || apiKey.value == []
    ensures var run := RunIngest(inputDir, outputRoot, true, now, uuid, listing, loader, split, apiKey, embed, files);
            var docs := LoadDocuments(inputDir, listing, loader).result.value;
            var path := JobPaths(outputRoot, JobId(now, uuid), true).chunksPath;
            && run.result == Err(MissingApiKey)
            && run.files == files[path := SaveChunks(split(docs))]
            && run.effects[|run.effects| - 1] == WriteFile(path)
            && forall i :: 0 <= i < |run.effects| ==> !run.effects[i].Embed?
  {
    var record := JobPaths(outputRoot, JobId(now, uuid), true);
    var loaded := LoadDocuments(inputDir, listing, loader);
    var head := [MakeDir(outputRoot), MakeDir(record.jobDir)];
    var loads := LoadEffects(loaded.calls);
    var saved := head + loads + [WriteFile(record.chunksPath)];
    assert RunIngest(inputDir, outputRoot, true, now, uuid, listing, loader, split, apiKey, embed, files).effects == saved;
    forall i | 0 <= i < |saved|
      ensures !saved[i].Embed?
    {
      if 2 <= i < 2 + |loads| {
        assert saved[i] == loads[i - 2];
      }
    }
  }

  /** A loader failure or a missing input folder ends the run before
      anything is written. */
  lemma LoadFailureWritesNothing(inputDir: string, outputRoot: string, createEmbeddings: bool, now: Stamp, uuid: string,
                                 listing: Option<seq<string>>, loader: LoadCall -> Option<seq<Doc>>,
                                 split: seq<Doc> -> seq<Doc>, apiKey: Option<string>,
                                 embed: (seq<Doc>, string) -> bool, files: map<string, string>)
    requires ValidStamp(now)
    requires LoadDocuments(inputDir, listing, loader).result.Err?
    ensures var run := RunIngest(inputDir, outputRoot, createEmbeddings, now, uuid, listing, loader, split, apiKey, embed, files);
            && run.result == Err(LoadDocuments(inputDir, listing, loader).result.error)
            && run.files == files
            && forall i :: 0 <= i < |run.effects| ==> !run.effects[i].WriteFile? && !run.effects[i].Embed?
  {
  }

  /** Without embeddings the key and the embedding service play no part. */
  lemma EmbeddingsSkipped(inputDir: string, outputRoot: string, now: Stamp, uuid: string,
                          listing: Option<seq<string>>, loader: LoadCall -> Option<seq<Doc>>,
                          split: seq<Doc> -> seq<Doc>, key1: Option<string>, key2: Option<string>,
                          embed1: (seq<Doc>, string) -> bool, embed2: (seq<Doc>, string) -> bool,
                          files: map<string, string>)
    requires ValidStamp(now)
    ensures RunIngest(inputDir, outputRoot, false, now, uuid, listing, loader, split, key1, embed1, files)
         == RunIngest(inputDir, outputRoot, false, now, uuid, listing, loader, split, key2, embed2, files)
  {
  }

  /** The job folder `run_ingest` returns is the one `run_summarizer` reads
      when both are given the same root (`./jobss` in both command-line
      entry points): its chunk file is where the summarizer looks. */
  lemma SameChunkFile(root: string, jobId: string, createEmbeddings: bool)
    ensures JobPaths(root, jobId, createEmbeddings).jobDir == Summarizer.JobDir(root, jobId)
    ensures JobPaths(root, jobId, createEmbeddings).chunksPath == Summarizer.ChunksPath(root, jobId)
  {
  }

  /** Ingesting and then summarizing the new job sends the model the
      context built from exactly the chunks the splitter produced. */
  lemma SummarizerReadsIngestedChunks(inputDir: string, root: string, createEmbeddings: bool, now: Stamp, uuid: string,
                                      listing: Option<seq<string>>, loader: LoadCall -> Option<seq<Doc>>,
                                      split: seq<Doc> -> seq<Doc>, apiKey: string,
                                      embed: (seq<Doc>, string) -> bool, files: map<string, string>,
                                      when: string, reply: Summarizer.Request -> Option<string>)
    requires ValidStamp(now) && |apiKey| > 0
    requires LoadDocuments(inputDir, listing, loader).result.Ok?
    requires var chunks := split(LoadDocuments(inputDir, listing, loader).result.value);
             |chunks| > 0 && forall i :: 0 <= i < |chunks| ==> ValidDoc(chunks[i])
    ensures var chunks := split(LoadDocuments(inputDir, listing, loader).result.value);
            var run := RunIngest(inputDir, root, createEmbeddings, now, uuid, listing, loader, split, Some(apiKey), embed, files);
            var context := PromptContext.Context(Records(chunks), PromptContext.DefaultMaxChars);
            && context.Ok?
            && Summarizer.RunSummarizer(root, JobId(now, uuid), Some(apiKey), run.files, when, reply).calls
               == [Summarizer.Request(Summarizer.DefaultModel, Summarizer.DefaultMaxTokens, context.value)]
  {
    var chunks := split(LoadDocuments(inputDir, listing, loader).result.value);
    var jobId := JobId(now, uuid);
    var run := RunIngest(inputDir, root, createEmbeddings, now, uuid, listing, loader, split, Some(apiKey), embed, files);
    assert run.files == files[Summarizer.ChunksPath(root, jobId) := SaveChunks(chunks)] by {
      IngestWritesChunks(inputDir, root, createEmbeddings, now, uuid, listing, loader, split, Some(apiKey), embed, files);
      SameChunkFile(root, jobId, createEmbeddings);
    }
    Summarizer.IngestedChunksReachModel(root, jobId, apiKey, chunks, files, when, reply);
  }

  /** Once loading succeeds the run writes the split chunks to the job's
      chunk file, whatever happens afterwards, and changes no other file. */
  lemma IngestWritesChunks(inputDir: string, outputRoot: string, createEmbeddings: bool, now: Stamp, uuid: string,
                           listing: Option<seq<string>>, loader: LoadCall -> Option<seq<Doc>>,
                           split: seq<Doc> -> seq<Doc>, apiKey: Option<string>,
                           embed: (seq<Doc>, string) -> bool, files: map<string, string>)
    requires ValidStamp(now)
    requires LoadDocuments(inputDir, listing, loader).result.Ok?
    ensures var run := RunIngest(inputDir, outputRoot, createEmbeddings, now, uuid, listing, loader, split, apiKey, embed, files);
            var docs := LoadDocuments(inputDir, listing, loader).result.value;
            && run.files == files[JobPaths(outputRoot, JobId(now, uuid), createEmbeddings).chunksPath := SaveChunks(split(docs))]
            && WriteFile(JobPaths(outputRoot, JobId(now, uuid), createEmbeddings).chunksPath) in run.effects
  {
    var record := JobPaths(outputRoot, JobId(now, uuid), createEmbeddings);
    var loaded := LoadDocuments(inputDir, listing, loader);
    var saved := [MakeDir(outputRoot), MakeDir(record.jobDir)] + LoadEffects(loaded.calls) + [WriteFile(record.chunksPath)];
    assert saved[|saved| - 1] == WriteFile(record.chunksPath);
    assert (saved + [Embed(record.chromaDir, |split(loaded.result.value)|)])[|saved| - 1] == WriteFile(record.chunksPath);
  }
}

=== FILE: jobs.dfy ===
/** Job identifiers and the job listing.

    `run_ingest` names a job `%Y%m%d_%H%M%S_` followed by the first eight
    characters of a random UUID; the app lists job folders by name, highest
    first. Because every field of the stamp has a fixed width (for years
    1000 to 9999), comparing names compares times, so the listing shows
    the newest job first. The clock reading and the UUID are parameters. */
module JobIds {
  import opened Text
  import opened Ordering

  /** The fields `datetime.now()` contributes to a job id. */
  datatype Stamp = Stamp(year: nat, month: nat, day: nat, hour: nat, minute: nat, second: nat)

  /** The ranges of a Python `datetime`. */
  predicate ValidStamp(t: Stamp) {
    1 <= t.year <= 9999 && 1 <= t.month <= 12 && 1 <= t.day <= 31
    && t.hour < 24 && t.minute < 60 && t.second < 60
  }

  /** Chronological order of two clock readings, to the second. */
  predicate Before(t: Stamp, u: Stamp) {
    if t.year != u.year then t.year < u.year
    else if t.month != u.month then t.month < u.month
    else if t.day != u.day then t.day < u.day
    else if t.hour != u.hour then t.hour < u.hour
    else if t.minute != u.minute then t.minute < u.minute
    else t.second < u.second
  }

  /** Strings glued front to back. */
  function Glue(fs: seq<string>): string {
    if |fs| == 0 then [] else fs[0] + Glue(fs[1..])
  }

  /** The pieces `strftime("%Y%m%d_%H%M%S_")` writes. `%Y` is the year
      without padding, as the C library writes it. */
  function StampFields(t: Stamp): seq<string> {
    [NatText(t.year), Fixed(t.month, 2), Fixed(t.day, 2), "_",
     Fixed(t.hour, 2), Fixed(t.minute, 2), Fixed(t.second, 2), "_"]
  }

  /** The job id of `run_ingest`: the stamp, then `str(uuid4())[:8]`. */
  function JobId(t: Stamp, uuid: string): string
    requires ValidStamp(t)
  {
    Glue(StampFields(t)) + PyPrefix(uuid, 8)
  }

  /** The names of the job folders, highest first: `sorted(..., reverse=True)`
      by name. Folder names are distinct, so the order among equal names
      does not arise. */
  function ListJobs(names: seq<string>): (r: seq<string>)
    ensures |r| == |names|
  {
    assert |multiset(Sort(names))| == |multiset(names)|;
    Reverse(Sort(names))
  }

  // ---------------------------------------------------------------------
  // Width

  lemma GlueEight(fs: seq<string>)
    requires |fs| == 8
    ensures Glue(fs) == fs[0] + (fs[1] + (fs[2] + (fs[3] + (fs[4] + (fs[5] + (fs[6] + fs[7]))))))
  {
    assert fs[7..][1..] == [];
    assert Glue(fs[7..]) == fs[7];
    assert Glue(fs[6..]) == fs[6] + fs[7] by { assert fs[6..][1..] == fs[7..]; }
    assert Glue(fs[5..]) == fs[5] + Glue(fs[6..]) by { assert fs[5..][1..] == fs[6..]; }
    assert Glue(fs[4..]) == fs[4] + Glue(fs[5..]) by { assert fs[4..][1..] == fs[5..]; }
    assert Glue(fs[3..]) == fs[3] + Glue(fs[4..]) by { assert fs[3..][1..] == fs[4..]; }
    assert Glue(fs[2..]) == fs[2] + Glue(fs[3..]) by { assert fs[2..][1..] == fs[3..]; }
    assert Glue(fs[1..]) == fs[1] + Glue(fs[2..]) by { assert fs[1..][1..] == fs[2..]; }
  }

  lemma FourDigitYear(y: nat)
    requires 1000 <= y <= 9999
    ensures NatText(y) == Fixed(y, 4)
  {
    assert Pow10(3) == 1000 && Pow10(4) == 10000;
    NatTextFixed(y, 4);
  }

  /** For years 1000 to 9999 a job id is 24 characters: 16 for the stamp and
      8 from the UUID (whose text has 36). */
  lemma JobIdWidth(t: Stamp, uuid: string)
    requires ValidStamp(t) && 1000 <= t.year && |uuid| >= 8
    ensures |Glue(StampFields(t))| == 16
    ensures |JobId(t, uuid)| == 24
  {
    GlueEight(StampFields(t));
    FourDigitYear(t.year);
  }

  // ---------------------------------------------------------------------
  // Order

  /** Padded numbers of the same width compare like the numbers. */
  lemma {:induction false} FixedLess(a: nat, b: nat, w: nat)
    requires a < b < Pow10(w)
    ensures Less(Fixed(a, w), Fixed(b, w))
  {
    var p, q := Fixed(a / 10, w - 1), Fixed(b / 10, w - 1);
    var x, y := [DigitChar(a % 10)], [DigitChar(b % 10)];
    assert Fixed(a, w) == p + x && Fixed(b, w) == q + y;
    if a / 10 < b / 10 {
      FixedLess(a / 10, b / 10, w - 1);
      LessExtends(p, q, x, y);
    } else {
      assert a % 10 < b % 10;
      LessCommonPrefix(p, x, y);
    }
  }

  /** Field lists of matching widths compare at their first difference. */
  lemma {:induction false} GlueLess(f: seq<string>, g: seq<string>, k: nat)
    requires |f| == |g| && k < |f|
    requires forall i :: 0 <= i < |f| ==> |f[i]| == |g[i]|
    requires forall i :: 0 <= i < k ==> f[i] == g[i]
    requires Less(f[k], g[k])
    ensures Less(Glue(f), Glue(g))
  {
    if k == 0 {
      LessExtends(f[0], g[0], Glue(f[1..]), Glue(g[1..]));
    } else {
      GlueLess(f[1..], g[1..], k - 1);
      LessCommonPrefix(f[0], Glue(f[1..]), Glue(g[1..]));
    }
  }

  /** The index of the first stamp field where two readings differ. */
  function FirstDifference(t: Stamp, u: Stamp): nat {
    if t.year != u.year then 0
    else if t.month != u.month then 1
    else if t.day != u.day then 2
    else if t.hour != u.hour then 4
    else if t.minute != u.minute then 5
    else 6
  }

  lemma StampFieldsLess(t: Stamp, u: Stamp)
    requires ValidStamp(t) && ValidStamp(u) && 1000 <= t.year && 1000 <= u.year
    requires Before(t, u)
    ensures Less(Glue(StampFields(t)), Glue(StampFields(u)))
  {
    var f, g := StampFields(t), StampFields(u);
    FourDigitYear(t.year);
    FourDigitYear(u.year);
    assert Pow10(2) == 100 && Pow10(4) == 10000;
    var k := FirstDifference(t, u);
    if k == 0 {
      FixedLess(t.year, u.year, 4);
    } else if k == 1 {
      FixedLess(t.month, u.month, 2);
    } else if k == 2 {
      FixedLess(t.day, u.day, 2);
    } else if k == 4 {
      FixedLess(t.hour, u.hour, 2);
    } else if k == 5 {
      FixedLess(t.minute, u.minute, 2);
    } else {
      FixedLess(t.second, u.second, 2);
    }
    GlueLess(f, g, k);
  }

  /** A job started in an earlier second has the smaller id, whatever the
      UUIDs: name order is time order. */
  lemma JobIdOrder(t: Stamp, u: Stamp, uuid1: string, uuid2: string)
    requires ValidStamp(t) && ValidStamp(u) && 1000 <= t.year && 1000 <= u.year
    requires Before(t, u)
    ensures Less(JobId(t, uuid1), JobId(u, uuid2))
  {
    StampFieldsLess(t, u);
    JobIdWidth(t, "00000000");
    JobIdWidth(u, "00000000");
    LessExtends(Glue(StampFields(t)), Glue(StampFields(u)), PyPrefix(uuid1, 8), PyPrefix(uuid2, 8));
  }

  // ---------------------------------------------------------------------
  // The listing

  /** The listing holds the same names, from the highest down. */
  lemma ListJobsOrder(names: seq<string>)
    ensures multiset(ListJobs(names)) == multiset(names)
    ensures forall i, j :: 0 <= i < j < |names| ==> LessEq(ListJobs(names)[j], ListJobs(names)[i])
  {
    var s := Sort(names);
    var r := ListJobs(names);
    assert multiset(r) == multiset(s) by {
      ReverseMultiset(s);
    }
  }

  lemma {:induction false} ReverseMultiset<T>(s: seq<T>)
    ensures multiset(Reverse(s)) == multiset(s)
  {
    if |s| > 0 {
      ReverseMultiset(s[1..]);
      assert s == [s[0]] + s[1..];
    }
  }

  /** Of two jobs in the listing, the one started later comes first. */
  lemma NewestFirst(names: seq<string>, t: Stamp, u: Stamp, uuid1: string, uuid2: string, p: nat, q: nat)
    requires ValidStamp(t) && ValidStamp(u) && 1000 <= t.year && 1000 <= u.year
    requires Before(t, u)
    requires p < |names| && q < |names|
    requires ListJobs(names)[p] == JobId(t, uuid1) && ListJobs(names)[q] == JobId(u, uuid2)
    ensures q < p
  {
    var r := ListJobs(names);
    assert Less(r[p], r[q]) by {
      JobIdOrder(t, u, uuid1, uuid2);
    }
    LessIrreflexive(r[p]);
    if p < q {
      assert LessEq(r[q], r[p]) by {
        ListJobsOrder(names);
      }
      LessAsymmetric(r[p], r[q]);
    }
  }
}

=== FILE: json.dfy ===
/** JSON values as Python's `json` module produces and consumes them.

    An object is the ordered list of its members, because a Python `dict`
    keeps insertion order and `json.dump` writes members in that order.
    `Get` is `d.get(k)` and `Set` is `d[k] = v`: assigning to a present key
    keeps its position, assigning to a new key appends it. */
module Json {
  import opened Base

  datatype Value =
    | Null
    | Bool(b: bool)
    | Int(i: int)
    | Str(s: string)
    | Arr(items: seq<Value>)
    | Obj(fields: seq<Field>)

  datatype Field = Field(key: string, val: Value)

  /** The keys of an object, as a set. */
  function KeySet(fs: seq<Field>): set<string> {
    if |fs| == 0 then {} else {fs[0].key} + KeySet(fs[1..])
  }

  /** No key occurs twice, as in every Python `dict`. */
  predicate Distinct(fs: seq<Field>) {
    |fs| == 0 || (fs[0].key !in KeySet(fs[1..]) && Distinct(fs[1..]))
  }

  /** `d.get(k)`: the value stored under `k`, if any. */
  function Get(fs: seq<Field>, k: string): Option<Value> {
    if |fs| == 0 then None
    else if fs[0].key == k then Some(fs[0].val)
    else Get(fs[1..], k)
  }

  /** A key has a value exactly when it is one of the object's keys. */
  lemma {:induction false} GetPresent(fs: seq<Field>, k: string)
    ensures Get(fs, k).Some? <==> k in KeySet(fs)
  {
    if |fs| > 0 && fs[0].key != k {
      GetPresent(fs[1..], k);
    }
  }

  /** `d[k] = v`. */
  function Set(fs: seq<Field>, k: string, v: Value): (r: seq<Field>)
    ensures Get(r, k) == Some(v)
    ensures forall k' :: k' != k ==> Get(r, k') == Get(fs, k')
    ensures KeySet(r) == KeySet(fs) + {k}
    ensures Distinct(fs) ==> Distinct(r)
    ensures k !in KeySet(fs) ==> r == fs + [Field(k, v)]
    ensures k in KeySet(fs) ==> |r| == |fs| && forall i :: 0 <= i < |fs| ==> r[i].key == fs[i].key
  {
    if |fs| == 0 then [Field(k, v)]
    else if fs[0].key == k then [Field(k, v)] + fs[1..]
    else
      var rest := Set(fs[1..], k, v);
      assert ([fs[0]] + rest)[1..] == rest;
      assert k !in KeySet(fs) ==> fs == [fs[0]] + fs[1..];
      [fs[0]] + rest
  }

  /** Every object inside the value has distinct keys: the value is one a
      Python program can hold. */
  predicate WellFormed(v: Value)
    decreases v
  {
    match v
    case Arr(items) => forall i :: 0 <= i < |items| ==> WellFormed(items[i])
    case Obj(fs) => Distinct(fs) && forall i :: 0 <= i < |fs| ==> WellFormed(fs[i].val)
    case _ => true
  }

  /** Type tests Python code performs implicitly (`isinstance(x, dict)`,
      `isinstance(x, str)`). */
  predicate IsObject(v: Value) {
    v.Obj?
  }
}

=== FILE: json_codec.dfy ===
/** The text form of JSON values: `json.dumps` (`Encode`) and `json.loads`
    (`Decode`).

    `Encode` writes Python's default layout, with ", " between elements and
    ": " after a key, and escapes exactly the characters Python escapes when
    non-ASCII output is allowed: quote, backslash and the control
    characters. `Decode` accepts JSON text with white space between tokens,
    rejects raw control characters inside strings (Python's strict mode) and
    builds objects with `Json.Set`, so a repeated key keeps its first
    position and its last value, as `dict` does. Numbers are integers only.

    The two facts the chunk file framing needs are proved here: an encoding
    is a single line that `str.strip` leaves alone, and decoding it gives
    the value back. */
module JsonCodec {
  import opened Base
  import opened Text
  import opened Json
  import opened Seqs

  /** The white space JSON allows between tokens. */
  predicate IsWs(c: char) {
    c == ' ' || c == '\t' || c == '\n' || c == '\r'
  }

  /** No line break of any kind: Python's universal-newline reader would
      split a line at `'\n'` or `'\r'`. */
  predicate OneLine(s: string) {
    forall i :: 0 <= i < |s| ==> s[i] != '\n' && s[i] != '\r'
  }

  // ---------------------------------------------------------------------
  // Encoding

  function HexDigit(d: nat): (c: char)
    requires d < 16
  {
    if d < 10 then DigitChar(d) else ('a' as int + d - 10) as char
  }

  /** The escape `json.dumps` writes for one character of a string. */
  function EscapeChar(c: char): (r: string)
    ensures |r| > 0 && r[0] != '"'
  {
    if c == '"' then ['\\', '"']
    else if c == '\\' then ['\\', '\\']
    else if c == '\n' then ['\\', 'n']
    else if c == '\r' then ['\\', 'r']
    else if c == '\t' then ['\\', 't']
    else if c == '\U{8}' then ['\\', 'b']
    else if c == '\U{c}' then ['\\', 'f']
    else if c < ' ' then ['\\', 'u', '0', '0', HexDigit(c as int / 16), HexDigit(c as int % 16)]
    else [c]
  }

  function Escape(s: string): string {
    if |s| == 0 then [] else EscapeChar(s[0]) + Escape(s[1..])
  }

  function Quote(s: string): (r: string)
    ensures |r| >= 2 && r[0] == '"' && r[|r| - 1] == '"'
  {
    "\"" + Escape(s) + "\""
  }

  /** `json.dumps(v)`: one line, starting and ending with a character that
      is neither JSON nor Python white space. */
  function Encode(v: Value): (r: string)
    ensures |r| > 0
    decreases v
  {
    match v
    case Null => "null"
    case Bool(b) => if b then "true" else "false"
    case Int(i) => IntText(i)
    case Str(s) => Quote(s)
    case Arr(items) => "[" + EncodeItems(items) + "]"
    case Obj(fs) => "{" + EncodeFields(fs) + "}"
  }

  /** An encoding starts with a character that is not white space and
      cannot continue an array or object, and ends with one that is not
      white space. */
  lemma EncodeEnds(v: Value)
    ensures !IsWs(Encode(v)[0]) && !IsSpace(Encode(v)[0]) && !IsSpace(Encode(v)[|Encode(v)| - 1])
    ensures Encode(v)[0] != ',' && Encode(v)[0] != ']' && Encode(v)[0] != '}'
  {
    match v
    case Null =>
    case Bool(b) =>
    case Int(i) =>
    case Str(str) =>
    case Arr(items) =>
    case Obj(fs) =>
  }

  function EncodeItems(items: seq<Value>): string
    decreases items
  {
    if |items| == 0 then []
    else if |items| == 1 then Encode(items[0])
    else Encode(items[0]) + ", " + EncodeItems(items[1..])
  }

  function EncodeField(f: Field): (r: string)
    ensures |r| > 0 && r[0] == '"'
    decreases f
  {
    Quote(f.key) + ": " + Encode(f.val)
  }

  function EncodeFields(fs: seq<Field>): string
    decreases fs
  {
    if |fs| == 0 then []
    else if |fs| == 1 then EncodeField(fs[0])
    else EncodeField(fs[0]) + ", " + EncodeFields(fs[1..])
  }

  lemma OneLineAppend(a: string, b: string)
    requires OneLine(a) && OneLine(b)
    ensures OneLine(a + b)
  {
    assert forall i :: 0 <= i < |a + b| ==> (a + b)[i] == if i < |a| then a[i] else b[i - |a|];
  }

  lemma {:induction false} EscapeOneLine(s: string)
    ensures OneLine(Escape(s))
  {
    if |s| > 0 {
      EscapeOneLine(s[1..]);
      OneLineAppend(EscapeChar(s[0]), Escape(s[1..]));
    }
  }

  lemma IntTextOneLine(i: int)
    ensures OneLine(IntText(i))
  {
    NatTextSpec(if i < 0 then -i else i);
  }

  /** An encoding never contains a line break: strings escape `'\n'` and
      `'\r'`, and the separators are spaces. */
  lemma {:induction false} EncodeOneLine(v: Value)
    ensures OneLine(Encode(v))
    decreases v, 1
  {
    match v
    case Null =>
    case Bool(_) =>
    case Int(i) => IntTextOneLine(i);
    case Str(s) =>
      EscapeOneLine(s);
      OneLineAppend("\"", Escape(s));
      OneLineAppend("\"" + Escape(s), "\"");
    case Arr(items) =>
      ItemsOneLine(items);
      OneLineAppend("[", EncodeItems(items));
      OneLineAppend("[" + EncodeItems(items), "]");
    case Obj(fs) =>
      FieldsOneLine(fs);
      OneLineAppend("{", EncodeFields(fs));
      OneLineAppend("{" + EncodeFields(fs), "}");
  }

  lemma {:induction false} ItemsOneLine(items: seq<Value>)
    ensures OneLine(EncodeItems(items))
    decreases items, 0
  {
    if |items| == 1 {
      EncodeOneLine(items[0]);
    } else if |items| > 1 {
      EncodeOneLine(items[0]);
      ItemsOneLine(items[1..]);
      OneLineAppend(Encode(items[0]), ", ");
      OneLineAppend(Encode(items[0]) + ", ", EncodeItems(items[1..]));
    }
  }

  lemma FieldOneLine(f: Field)
    ensures OneLine(EncodeField(f))
    decreases f, 1
  {
    EscapeOneLine(f.key);
    OneLineAppend("\"", Escape(f.key));
    OneLineAppend("\"" + Escape(f.key), "\"");
    EncodeOneLine(f.val);
    OneLineAppend(Quote(f.key), ": ");
    OneLineAppend(Quote(f.key) + ": ", Encode(f.val));
  }

  lemma {:induction false} FieldsOneLine(fs: seq<Field>)
    ensures OneLine(EncodeFields(fs))
    decreases fs, 0
  {
    if |fs| == 1 {
      FieldOneLine(fs[0]);
    } else if |fs| > 1 {
      FieldOneLine(fs[0]);
      FieldsOneLine(fs[1..]);
      OneLineAppend(EncodeField(fs[0]), ", ");
      OneLineAppend(EncodeField(fs[0]) + ", ", EncodeFields(fs[1..]));
    }
  }

  // ---------------------------------------------------------------------
  // Decoding

  function SkipWs(s: string): (r: string)
    ensures |r| <= |s| && r == s[|s| - |r|..]
    ensures |r| > 0 ==> !IsWs(r[0])
  {
    if |s| > 0 && IsWs(s[0]) then SkipWs(s[1..]) else s
  }

  predicate IsHex(c: char) {
    IsDigit(c) || ('a' <= c <= 'f') || ('A' <= c <= 'F')
  }

  function HexValue(c: char): (r: nat)
    requires IsHex(c)
    ensures r < 16
  {
    if IsDigit(c) then DigitValue(c)
    else if 'a' <= c <= 'f' then c as int - 'a' as int + 10
    else c as int - 'A' as int + 10
  }

  /** Four hexadecimal digits start at index `i`. */
  predicate HexAt(s: string, i: nat) {
    i + 4 <= |s| && IsHex(s[i]) && IsHex(s[i + 1]) && IsHex(s[i + 2]) && IsHex(s[i + 3])
  }

  /** The number the four hexadecimal digits at index `i` spell. */
  function HexCode(s: string, i: nat): (r: nat)
    requires HexAt(s, i)
    ensures r < 0x10000
  {
    4096 * HexValue(s[i]) + 256 * HexValue(s[i + 1]) + 16 * HexValue(s[i + 2]) + HexValue(s[i + 3])
  }

  /** The character a high and a low surrogate stand for together. */
  function PairChar(hi: nat, lo: nat): (c: char)
    requires 0xD800 <= hi < 0xDC00 <= lo < 0xE000
    ensures 0x10000 <= c as int < 0x110000
  {
    (0x10000 + (hi - 0xD800) * 0x400 + (lo - 0xDC00)) as char
  }

  /** A `\u` escape, after the `u`: four hexadecimal digits naming a
      character, or a high surrogate followed by a second escape naming a
      low one, the two standing for one character beyond the 16-bit range.
      A surrogate without its partner is refused. */
  function UnicodeEscape(s: string): (r: Option<(char, string)>)
    ensures r.Some? ==> |r.value.1| < |s|
  {
    if !HexAt(s, 0) then None
    else
      var code := HexCode(s, 0);
      if 0xD800 <= code < 0xDC00 then
        if |s| >= 10 && s[4] == '\\' && s[5] == 'u' && HexAt(s, 6) && 0xDC00 <= HexCode(s, 6) < 0xE000
        then Some((PairChar(code, HexCode(s, 6)), s[10..]))
        else None
      else if 0xDC00 <= code < 0xE000 then None
      else Some((code as char, s[4..]))
  }

  /** The character after a backslash in a string, and what follows it. */
  function Unescape(s: string): (r: Option<(char, string)>)
    ensures r.Some? ==> |r.value.1| < |s|
  {
    if |s| == 0 then None
    else if s[0] == '"' || s[0] == '\\' || s[0] == '/' then Some((s[0], s[1..]))
    else if s[0] == 'b' then Some(('\U{8}', s[1..]))
    else if s[0] == 'f' then Some(('\U{c}', s[1..]))
    else if s[0] == 'n' then Some(('\n', s[1..]))
    else if s[0] == 'r' then Some(('\r', s[1..]))
    else if s[0] == 't' then Some(('\t', s[1..]))
    else if s[0] == 'u' then UnicodeEscape(s[1..])
    else None
  }

  /** An escaped surrogate pair, as `json.dump` writes a character beyond
      the 16-bit range with its default `ensure_ascii`, decodes to that one
      character. */
  lemma SurrogatePairDecodes()
    ensures Decode("\"\\ud83d\\ude00\"") == Some(Str(['\U{1F600}']))
  {
    var esc := "ud83d\\ude00\"";
    assert "\"\\ud83d\\ude00\"" == ['"', '\\'] + esc;
    PairEscape();
    OneEscapedChar('\U{1F600}', esc);
  }

  /** A string literal holding one escape decodes to the escaped character. */
  lemma OneEscapedChar(c: char, esc: string)
    requires Unescape(esc) == Some((c, "\""))
    ensures Decode(['"', '\\'] + esc) == Some(Str([c]))
  {
    var text := ['"', '\\'] + esc;
    assert text[1..] == ['\\'] + esc && (['\\'] + esc)[1..] == esc;
    assert ParseString(text[1..]) == Some(([c], [])) by {
      assert ParseString("\"") == Some(([], []));
      assert [c] + [] == [c];
    }
    assert SkipWs(text) == text;
    assert SkipWs([]) == [];
  }

  /** The escape after the backslash in the example above. */
  lemma PairEscape()
    ensures Unescape("ud83d\\ude00\"") == Some(('\U{1F600}', "\""))
  {
    var esc := "d83d\\ude00\"";
    assert "ud83d\\ude00\""[1..] == esc;
    assert HexAt(esc, 0) && HexCode(esc, 0) == 0xD83D;
    assert HexAt(esc, 6) && HexCode(esc, 6) == 0xDE00;
    assert esc[10..] == "\"";
  }

  /** Puts `c` in front of the string a successful parse returned. */
  function Cons(c: char, r: Option<(string, string)>): Option<(string, string)> {
    match r
    case None => None
    case Some((body, after)) => Some(([c] + body, after))
  }

  /** The body of a string after its opening quote, and the text after the
      closing quote. */
  function ParseString(s: string): (r: Option<(string, string)>)
    ensures r.Some? ==> |r.value.1| < |s|
    decreases |s|
  {
    if |s| == 0 then None
    else if s[0] == '"' then Some(([], s[1..]))
    else if s[0] == '\\' then
      match Unescape(s[1..])
      case None => None
      case Some((c, rest)) => Cons(c, ParseString(rest))
    else if s[0] < ' ' then None
    else Cons(s[0], ParseString(s[1..]))
  }

  /** Length of the run of decimal digits that starts `s`. */
  function DigitSpan(s: string): (k: nat)
    ensures k <= |s|
    ensures forall i :: 0 <= i < k ==> IsDigit(s[i])
    ensures k < |s| ==> !IsDigit(s[k])
  {
    if |s| > 0 && IsDigit(s[0]) then 1 + DigitSpan(s[1..]) else 0
  }

  /** A numeral: `0`, or digits not starting with `0`. */
  function ParseNat(s: string): (r: Option<(nat, string)>)
    ensures r.Some? ==> |r.value.1| < |s|
  {
    if |s| == 0 || !IsDigit(s[0]) then None
    else
      var k := if s[0] == '0' then 1 else DigitSpan(s);
      Some((DigitsValue(s[..k]), s[k..]))
  }

  /** An integer: an optional minus sign, then a numeral. */
  function ParseNumber(s: string): (r: Option<(Value, string)>)
    ensures r.Some? ==> |r.value.1| < |s| && WellFormed(r.value.0)
  {
    if |s| > 0 && s[0] == '-' then
      match ParseNat(s[1..])
      case None => None
      case Some((n, rest)) => Some((Int(0 - n), rest))
    else
      match ParseNat(s)
      case None => None
      case Some((n, rest)) => Some((Int(n), rest))
  }

  /** One value, after optional white space, and the text after it. */
  function ParseValue(s: string): (r: Option<(Value, string)>)
    ensures r.Some? ==> |r.value.1| < |s| && WellFormed(r.value.0)
    decreases |s|, 0
  {
    var t := SkipWs(s);
    if |t| == 0 then None
    else if t[0] == 'n' then
      if |t| >= 4 && t[..4] == "null" then Some((Null, t[4..])) else None
    else if t[0] == 't' then
      if |t| >= 4 && t[..4] == "true" then Some((Bool(true), t[4..])) else None
    else if t[0] == 'f' then
      if |t| >= 5 && t[..5] == "false" then Some((Bool(false), t[5..])) else None
    else if t[0] == '"' then
      match ParseString(t[1..])
      case None => None
      case Some((body, after)) => Some((Str(body), after))
    else if t[0] == '[' then ParseArray(t[1..])
    else if t[0] == '{' then ParseObject(t[1..])
    else ParseNumber(t)
  }

  /** An array after its `[`. */
  function ParseArray(s: string): (r: Option<(Value, string)>)
    ensures r.Some? ==> |r.value.1| < |s| && WellFormed(r.value.0)
    decreases |s|, 2
  {
    var t := SkipWs(s);
    if |t| > 0 && t[0] == ']' then Some((Arr([]), t[1..]))
    else ParseElements(t, [])
  }

  /** The elements of an array from the first one on; `acc` holds those
      already read. */
  function ParseElements(s: string, acc: seq<Value>): (r: Option<(Value, string)>)
    requires forall i :: 0 <= i < |acc| ==> WellFormed(acc[i])
    ensures r.Some? ==> |r.value.1| < |s| && WellFormed(r.value.0)
    decreases |s|, 1
  {
    match ParseValue(s)
    case None => None
    case Some((v, rest)) =>
      var t := SkipWs(rest);
      var acc' := acc + [v];
      assert forall i :: 0 <= i < |acc'| ==> WellFormed(acc'[i]) by {
        AppendKeepsWellFormed(acc, v);
      }
      if |t| == 0 then None
      else if t[0] == ',' then ParseElements(t[1..], acc')
      else if t[0] == ']' then Some((Arr(acc'), t[1..]))
      else None
  }

  /** A well-formed value appended to well-formed values. */
  lemma AppendKeepsWellFormed(acc: seq<Value>, v: Value)
    requires WellFormed(v) && forall i :: 0 <= i < |acc| ==> WellFormed(acc[i])
    ensures forall i :: 0 <= i < |acc + [v]| ==> WellFormed((acc + [v])[i])
  {
  }

  /** A field with a well-formed value appended to such fields. */
  lemma AppendFieldKeepsWellFormed(acc: seq<Field>, f: Field)
    requires WellFormed(f.val) && forall i :: 0 <= i < |acc| ==> WellFormed(acc[i].val)
    ensures forall i :: 0 <= i < |acc + [f]| ==> WellFormed((acc + [f])[i].val)
  {
  }

  /** An object after its `{`. */
  function ParseObject(s: string): (r: Option<(Value, string)>)
    ensures r.Some? ==> |r.value.1| < |s| && WellFormed(r.value.0)
    decreases |s|, 2
  {
    var t := SkipWs(s);
    if |t| > 0 && t[0] == '}' then Some((Obj([]), t[1..]))
    else ParseMembers(t, [])
  }

  /** The members of an object from the first one on; `acc` holds those
      already read, merged as a `dict` merges them. */
  function ParseMembers(s: string, acc: seq<Field>): (r: Option<(Value, string)>)
    requires Distinct(acc) && forall i :: 0 <= i < |acc| ==> WellFormed(acc[i].val)
    ensures r.Some? ==> |r.value.1| < |s| && WellFormed(r.value.0)
    decreases |s|, 1
  {
    var t := SkipWs(s);
    if |t| == 0 || t[0] != '"' then None
    else
      match ParseString(t[1..])
      case None => None
      case Some((key, r1)) =>
        var u := SkipWs(r1);
        if |u| == 0 || u[0] != ':' then None
        else
          match ParseValue(u[1..])
          case None => None
          case Some((v, r2)) =>
            var w := SkipWs(r2);
            var acc' := Set(acc, key, v);
            assert forall i :: 0 <= i < |acc'| ==> WellFormed(acc'[i].val) by {
              SetKeepsWellFormed(acc, key, v);
            }
            if |w| == 0 then None
            else if w[0] == ',' then ParseMembers(w[1..], acc')
            else if w[0] == '}' then Some((Obj(acc'), w[1..]))
            else None
  }

  lemma {:induction false} SetKeepsWellFormed(fs: seq<Field>, k: string, v: Value)
    requires WellFormed(v) && forall i :: 0 <= i < |fs| ==> WellFormed(fs[i].val)
    ensures forall i :: 0 <= i < |Set(fs, k, v)| ==> WellFormed(Set(fs, k, v)[i].val)
  {
    if |fs| > 0 && fs[0].key != k {
      SetKeepsWellFormed(fs[1..], k, v);
    }
  }

  /** `json.loads(s)`: one value and nothing but white space after it. */
  function Decode(s: string): (r: Option<Value>)
    ensures r.Some? ==> WellFormed(r.value)
  {
    match ParseValue(s)
    case None => None
    case Some((v, rest)) => if |SkipWs(rest)| == 0 then Some(v) else None
  }

  // ---------------------------------------------------------------------
  // Round trip

  /** What may follow an encoded value without changing how it decodes: a
      number must not be followed by another digit. */
  predicate Boundary(rest: string) {
    |rest| == 0 || !IsDigit(rest[0])
  }

  lemma SkipWsNoop(s: string)
    requires |s| > 0 && !IsWs(s[0])
    ensures SkipWs(s) == s
  {
  }

  lemma {:induction false} SkipWsSpace(s: string)
    requires |s| > 0 && !IsWs(s[0])
    ensures SkipWs(" " + s) == s
  {
    assert (" " + s)[1..] == s;
  }

  lemma PlainCharStep(c: char, tail: string)
    requires c >= ' ' && c != '"' && c != '\\'
    ensures ParseString([c] + tail) == Cons(c, ParseString(tail))
  {
    assert ([c] + tail)[1..] == tail;
  }

  lemma ShortEscapeStep(c: char, x: char, tail: string)
    requires x in "\"\\bfnrt"
    requires Unescape([x] + tail) == Some((c, tail))
    ensures ParseString(['\\', x] + tail) == Cons(c, ParseString(tail))
  {
    assert (['\\', x] + tail)[1..] == [x] + tail;
  }

  lemma UnicodeEscapeStep(c: char, tail: string)
    requires c < ' '
    ensures ParseString(['\\', 'u', '0', '0', HexDigit(c as int / 16), HexDigit(c as int % 16)] + tail)
         == Cons(c, ParseString(tail))
  {
    var hi := c as int / 16;
    var lo := c as int % 16;
    var u := ['u', '0', '0', HexDigit(hi), HexDigit(lo)] + tail;
    assert (['\\', 'u', '0', '0', HexDigit(hi), HexDigit(lo)] + tail)[1..] == u;
    assert HexValue(HexDigit(hi)) == hi;
    assert HexValue(HexDigit(lo)) == lo;
    assert u[1..][4..] == tail;
    assert HexCode(u[1..], 0) == c as int;
    assert Unescape(u) == Some((c, tail));
  }

  /** Decoding the escape of one character gives that character back. */
  lemma EscapedCharStep(c: char, tail: string)
    ensures ParseString(EscapeChar(c) + tail) == Cons(c, ParseString(tail))
  {
    if c == '"' {
      ShortEscapeStep(c, '"', tail);
    } else if c == '\\' {
      ShortEscapeStep(c, '\\', tail);
    } else if c == '\n' {
      ShortEscapeStep(c, 'n', tail);
    } else if c == '\r' {
      ShortEscapeStep(c, 'r', tail);
    } else if c == '\t' {
      ShortEscapeStep(c, 't', tail);
    } else if c == '\U{8}' {
      ShortEscapeStep(c, 'b', tail);
    } else if c == '\U{c}' {
      ShortEscapeStep(c, 'f', tail);
    } else if c < ' ' {
      UnicodeEscapeStep(c, tail);
    } else {
      PlainCharStep(c, tail);
    }
  }

  lemma {:induction false} StringRoundTrip(s: string, rest: string)
    ensures ParseString(Escape(s) + "\"" + rest) == Some((s, rest))
  {
    if |s| == 0 {
      assert Escape(s) + "\"" + rest == "\"" + rest;
      assert ("\"" + rest)[1..] == rest;
    } else {
      var tail := Escape(s[1..]) + "\"" + rest;
      StringRoundTrip(s[1..], rest);
      RegroupFirst(EscapeChar(s[0]), Escape(s[1..]), "\"", rest);
      EscapedCharStep(s[0], tail);
      assert [s[0]] + s[1..] == s;
    }
  }

  lemma {:induction false} DigitSpanOfDigits(t: string, rest: string)
    requires forall i :: 0 <= i < |t| ==> IsDigit(t[i])
    requires Boundary(rest)
    ensures DigitSpan(t + rest) == |t|
  {
    if |t| > 0 {
      ConsParts(t, rest);
      DigitSpanOfDigits(t[1..], rest);
    } else {
      AppendNothing(rest);
    }
  }

  lemma NatRoundTrip(n: nat, rest: string)
    requires Boundary(rest)
    ensures ParseNat(NatText(n) + rest) == Some((n, rest))
  {
    var t := NatText(n);
    var u := t + rest;
    NatTextSpec(n);
    DigitSpanOfDigits(t, rest);
    ConsParts(t, rest);
    AppendPrefix(t, rest);
  }

  lemma NegativeRoundTrip(n: nat, rest: string)
    requires n > 0 && Boundary(rest)
    ensures ParseNumber("-" + NatText(n) + rest) == Some((Int(0 - n), rest))
  {
    var u := NatText(n) + rest;
    AppendAssoc("-", NatText(n), rest);
    ConsParts("-", u);
    AppendNothing(u);
    NatRoundTrip(n, rest);
  }

  lemma NonNegativeRoundTrip(n: nat, rest: string)
    requires Boundary(rest)
    ensures ParseNumber(NatText(n) + rest) == Some((Int(n), rest))
  {
    ConsParts(NatText(n), rest);
    NatRoundTrip(n, rest);
  }

  lemma NumberRoundTrip(i: int, rest: string)
    requires Boundary(rest)
    ensures ParseNumber(IntText(i) + rest) == Some((Int(i), rest))
  {
    if i < 0 {
      NegativeRoundTrip(-i, rest);
    } else {
      NonNegativeRoundTrip(i, rest);
    }
  }

  // One parsing step at a time: each lemma unfolds one parser function once.

  lemma LiteralRoundTrip(v: Value, rest: string)
    requires v.Null? || v.Bool?
    ensures ParseValue(Encode(v) + rest) == Some((v, rest))
  {
    var s := Encode(v) + rest;
    ConsParts(Encode(v), rest);
    SkipWsNoop(s);
    if v.Null? || v.b {
      assert s[..4] == Encode(v) && s[4..] == rest;
    } else {
      assert s[..5] == "false" && s[5..] == rest;
    }
  }

  lemma IntRoundTrip(i: int, rest: string)
    requires Boundary(rest)
    ensures ParseValue(Encode(Int(i)) + rest) == Some((Int(i), rest))
  {
    var s := IntText(i) + rest;
    ConsParts(IntText(i), rest);
    ValueNumber(s);
    NumberRoundTrip(i, rest);
  }

  lemma ValueNumber(s: string)
    requires |s| > 0 && (s[0] == '-' || IsDigit(s[0]))
    ensures ParseValue(s) == ParseNumber(s)
  {
    SkipWsNoop(s);
    var c := s[0];
    assert c != 'n' && c != 't' && c != 'f' && c != '"' && c != '[' && c != '{';
  }

  lemma StrRoundTrip(str: string, rest: string)
    ensures ParseValue(Encode(Str(str)) + rest) == Some((Str(str), rest))
  {
    var s := Quote(str) + rest;
    QuoteText(str, rest);
    SkipWsNoop(s);
  }

  lemma ValueOpenBracket(body: string)
    ensures ParseValue("[" + body) == ParseArray(body)
  {
    SkipWsNoop("[" + body);
    assert ("[" + body)[1..] == body;
  }

  lemma ValueOpenBrace(body: string)
    ensures ParseValue("{" + body) == ParseObject(body)
  {
    SkipWsNoop("{" + body);
    assert ("{" + body)[1..] == body;
  }

  lemma ArrayEmpty(rest: string)
    ensures ParseArray("]" + rest) == Some((Arr([]), rest))
  {
    SkipWsNoop("]" + rest);
    assert ("]" + rest)[1..] == rest;
  }

  lemma ArrayNonEmpty(body: string)
    requires |body| > 0 && !IsWs(body[0]) && body[0] != ']'
    ensures ParseArray(body) == ParseElements(body, [])
  {
    SkipWsNoop(body);
  }

  lemma ObjectEmpty(rest: string)
    ensures ParseObject("}" + rest) == Some((Obj([]), rest))
  {
    SkipWsNoop("}" + rest);
    assert ("}" + rest)[1..] == rest;
  }

  lemma ObjectNonEmpty(body: string)
    requires |body| > 0 && body[0] == '"'
    ensures ParseObject(body) == ParseMembers(body, [])
  {
    SkipWsNoop(body);
  }

  lemma ArrayText(items: seq<Value>, rest: string)
    ensures Encode(Arr(items)) + rest == "[" + (EncodeItems(items) + "]" + rest)
  {
    RegroupFirst("[", EncodeItems(items), "]", rest);
  }

  lemma ArrayBodyEmpty(rest: string)
    ensures ParseArray(EncodeItems([]) + "]" + rest) == Some((Arr([]), rest))
  {
    AppendNothing("]");
    ArrayEmpty(rest);
  }

  lemma ArrayBodyNonEmpty(items: seq<Value>, rest: string)
    requires |items| > 0 && |EncodeItems(items)| > 0 && !IsWs(EncodeItems(items)[0]) && EncodeItems(items)[0] != ']'
    ensures ParseArray(EncodeItems(items) + "]" + rest) == ParseElements(EncodeItems(items) + "]" + rest, [])
  {
    var body := EncodeItems(items) + "]" + rest;
    HeadOfAppend(EncodeItems(items), "]", rest);
    ArrayNonEmpty(body);
  }

  /** An array parses once its elements do. */
  lemma ArrayWrap(items: seq<Value>, rest: string)
    requires |items| > 0 ==> |EncodeItems(items)| > 0 && !IsWs(EncodeItems(items)[0]) && EncodeItems(items)[0] != ']'
    requires |items| > 0 ==> ParseElements(EncodeItems(items) + "]" + rest, []) == Some((Arr(items), rest))
    ensures ParseValue(Encode(Arr(items)) + rest) == Some((Arr(items), rest))
  {
    ArrayText(items, rest);
    ValueOpenBracket(EncodeItems(items) + "]" + rest);
    if |items| == 0 {
      ArrayBodyEmpty(rest);
    } else {
      ArrayBodyNonEmpty(items, rest);
    }
  }

  /** An object parses once its members do. */
  lemma ObjectWrap(fs: seq<Field>, rest: string)
    requires |fs| > 0 ==> |EncodeFields(fs)| > 0 && EncodeFields(fs)[0] == '"'
    requires |fs| > 0 ==> ParseMembers(EncodeFields(fs) + "}" + rest, []) == Some((Obj(fs), rest))
    ensures ParseValue(Encode(Obj(fs)) + rest) == Some((Obj(fs), rest))
  {
    var body := EncodeFields(fs) + "}" + rest;
    RegroupFirst("{", EncodeFields(fs), "}", rest);
    ValueOpenBrace(body);
    if |fs| == 0 {
      AppendNothing("}");
      ObjectEmpty(rest);
    } else {
      HeadOfAppend(EncodeFields(fs), "}", rest);
      ObjectNonEmpty(body);
    }
  }

  /** Decoding the encoding of a value, followed by anything a number may be
      followed by, gives the value and leaves the rest. */
  lemma {:induction false} ValueRoundTrip(v: Value, rest: string)
    requires WellFormed(v) && Boundary(rest)
    ensures ParseValue(Encode(v) + rest) == Some((v, rest))
    decreases v, 1
  {
    match v
    case Null => LiteralRoundTrip(v, rest);
    case Bool(_) => LiteralRoundTrip(v, rest);
    case Int(i) => IntRoundTrip(i, rest);
    case Str(str) => StrRoundTrip(str, rest);
    case Arr(items) =>
      if |items| > 0 {
        ItemsStart(items);
        ItemsRoundTrip(items, rest, []);
        assert [] + items == items;
      }
      ArrayWrap(items, rest);
    case Obj(fs) =>
      if |fs| > 0 {
        FieldsStart(fs);
        assert [] + fs == fs;
        FieldsRoundTrip(fs, rest, []);
      }
      ObjectWrap(fs, rest);
  }

  lemma ItemsStart(items: seq<Value>)
    requires |items| > 0
    ensures |EncodeItems(items)| > 0
    ensures EncodeItems(items)[0] == Encode(items[0])[0]
    ensures !IsWs(EncodeItems(items)[0]) && EncodeItems(items)[0] != ']'
  {
  }

  /** After one element, a comma continues the array. */
  lemma ElementsNext(s: string, acc: seq<Value>, v: Value, after: string)
    requires forall i :: 0 <= i < |acc| ==> WellFormed(acc[i])
    requires ParseValue(s) == Some((v, after))
    requires |after| > 0 && after[0] == ','
    ensures WellFormed(v)
    ensures ParseElements(s, acc) == ParseElements(after[1..], acc + [v])
  {
    SkipWsNoop(after);
  }

  /** After one element, a closing bracket ends the array. */
  lemma ElementsLast(s: string, acc: seq<Value>, v: Value, rest: string)
    requires forall i :: 0 <= i < |acc| ==> WellFormed(acc[i])
    requires ParseValue(s) == Some((v, "]" + rest))
    ensures ParseElements(s, acc) == Some((Arr(acc + [v]), rest))
  {
    SkipWsNoop("]" + rest);
    assert ("]" + rest)[1..] == rest;
  }

  /** What is left after the comma of a separator. */
  lemma CommaTail(more: string)
    ensures (", " + more)[1..] == " " + more
  {
  }

  /** What is left after the colon of a member. */
  lemma ColonTail(more: string)
    ensures (": " + more)[1..] == " " + more
  {
  }

  lemma ItemsTextOne(items: seq<Value>, rest: string)
    requires |items| == 1
    ensures EncodeItems(items) + "]" + rest == Encode(items[0]) + ("]" + rest)
  {
    AppendAssoc(Encode(items[0]), "]", rest);
  }

  lemma ItemsTextMore(items: seq<Value>, rest: string)
    requires |items| > 1
    ensures EncodeItems(items) + "]" + rest
         == Encode(items[0]) + (", " + (EncodeItems(items[1..]) + "]" + rest))
  {
    RegroupItems(Encode(items[0]), ", ", EncodeItems(items[1..]), "]", rest);
  }

  /** The elements after a comma may be preceded by one space. */
  lemma ElementsAfterComma(items: seq<Value>, rest: string, acc: seq<Value>)
    requires |items| > 0
    requires forall i :: 0 <= i < |acc| ==> WellFormed(acc[i])
    ensures (", " + (EncodeItems(items) + "]" + rest))[1..] == " " + (EncodeItems(items) + "]" + rest)
    ensures ParseElements(" " + (EncodeItems(items) + "]" + rest), acc)
         == ParseElements(EncodeItems(items) + "]" + rest, acc)
  {
    var more := EncodeItems(items) + "]" + rest;
    CommaTail(more);
    ItemsStart(items);
    HeadOfAppend(EncodeItems(items), "]", rest);
    ElementsSkipSpace(more, acc);
  }

  /** The last element, then the closing bracket. */
  lemma ItemsLastStep(items: seq<Value>, rest: string, acc: seq<Value>)
    requires |items| == 1 && WellFormed(items[0])
    requires forall i :: 0 <= i < |acc| ==> WellFormed(acc[i])
    requires ParseValue(Encode(items[0]) + ("]" + rest)) == Some((items[0], "]" + rest))
    ensures ParseElements(EncodeItems(items) + "]" + rest, acc) == Some((Arr(acc + items), rest))
  {
    ItemsTextOne(items, rest);
    ElementsLast(Encode(items[0]) + ("]" + rest), acc, items[0], rest);
    AppendFirst(acc, items);
  }

  /** An element that is not the last, then the comma and space. */
  lemma ItemsNextStep(items: seq<Value>, rest: string, acc: seq<Value>)
    requires |items| > 1 && WellFormed(items[0])
    requires forall i :: 0 <= i < |acc| ==> WellFormed(acc[i])
    requires ParseValue(Encode(items[0]) + (", " + (EncodeItems(items[1..]) + "]" + rest)))
          == Some((items[0], ", " + (EncodeItems(items[1..]) + "]" + rest)))
    ensures ParseElements(EncodeItems(items) + "]" + rest, acc)
         == ParseElements(EncodeItems(items[1..]) + "]" + rest, acc + [items[0]])
  {
    var more := EncodeItems(items[1..]) + "]" + rest;
    AppendKeepsWellFormed(acc, items[0]);
    ItemsTextMore(items, rest);
    ElementsNext(Encode(items[0]) + (", " + more), acc, items[0], ", " + more);
    ElementsAfterComma(items[1..], rest, acc + [items[0]]);
  }

  lemma {:induction false} ItemsRoundTrip(items: seq<Value>, rest: string, acc: seq<Value>)
    requires |items| > 0
    requires forall i :: 0 <= i < |items| ==> WellFormed(items[i])
    requires forall i :: 0 <= i < |acc| ==> WellFormed(acc[i])
    ensures ParseElements(EncodeItems(items) + "]" + rest, acc) == Some((Arr(acc + items), rest))
    decreases items, 0
  {
    if |items| == 1 {
      ValueRoundTrip(items[0], "]" + rest);
      ItemsLastStep(items, rest, acc);
    } else {
      ValueRoundTrip(items[0], ", " + (EncodeItems(items[1..]) + "]" + rest));
      ItemsNextStep(items, rest, acc);
      ItemsShift(items, acc);
      ItemsRoundTrip(items[1..], rest, acc + [items[0]]);
      AppendFirst(acc, items);
    }
  }

  /** Moving the first item onto the parsed ones keeps both lists well formed. */
  lemma ItemsShift(items: seq<Value>, acc: seq<Value>)
    requires |items| > 0
    requires forall i :: 0 <= i < |items| ==> WellFormed(items[i])
    requires forall i :: 0 <= i < |acc| ==> WellFormed(acc[i])
    ensures forall i :: 0 <= i < |items| - 1 ==> WellFormed(items[1..][i])
    ensures forall i :: 0 <= i < |acc| + 1 ==> WellFormed((acc + [items[0]])[i])
  {
  }

  /** A value may be preceded by one space. */
  lemma ValueSkipsSpace(s: string)
    requires |s| > 0 && !IsWs(s[0])
    ensures ParseValue(" " + s) == ParseValue(s)
  {
    SkipWsSpace(s);
    SkipWsNoop(s);
  }

  /** The elements of an array may be preceded by one space. */
  lemma ElementsSkipSpace(s: string, acc: seq<Value>)
    requires |s| > 0 && !IsWs(s[0])
    requires forall i :: 0 <= i < |acc| ==> WellFormed(acc[i])
    ensures ParseElements(" " + s, acc) == ParseElements(s, acc)
  {
    ValueSkipsSpace(s);
  }

  /** One member: a key, a colon and a value, then a comma or a closing
      brace. */
  lemma MemberStep(s: string, acc: seq<Field>, key: string, r1: string, v: Value, after: string)
    requires Distinct(acc) && forall i :: 0 <= i < |acc| ==> WellFormed(acc[i].val)
    requires Distinct(Set(acc, key, v)) && forall i :: 0 <= i < |Set(acc, key, v)| ==> WellFormed(Set(acc, key, v)[i].val)
    requires |s| > 0 && s[0] == '"'
    requires ParseString(s[1..]) == Some((key, r1))
    requires |r1| > 0 && r1[0] == ':'
    requires ParseValue(r1[1..]) == Some((v, after))
    requires |after| > 0 && (after[0] == ',' || after[0] == '}')
    ensures after[0] == ',' ==> ParseMembers(s, acc) == ParseMembers(after[1..], Set(acc, key, v))
    ensures after[0] == '}' ==> ParseMembers(s, acc) == Some((Obj(Set(acc, key, v)), after[1..]))
  {
    SkipWsNoop(s);
    SkipWsNoop(r1);
    SkipWsNoop(after);
  }


  /** The text after the opening quote of a quoted key is the escaped key,
      the closing quote and what follows. */
  lemma QuoteText(k: string, r1: string)
    ensures |Quote(k) + r1| > 0 && (Quote(k) + r1)[0] == '"'
    ensures ParseString((Quote(k) + r1)[1..]) == Some((k, r1))
  {
    assert (Quote(k) + r1)[1..] == Escape(k) + "\"" + r1;
    StringRoundTrip(k, r1);
  }

  /** One member whose key is new: it is appended to those read so far. */
  lemma FieldStep(f: Field, more: string, acc: seq<Field>)
    requires Distinct(acc) && forall i :: 0 <= i < |acc| ==> WellFormed(acc[i].val)
    requires f.key !in KeySet(acc) && WellFormed(f.val)
    requires Distinct(acc + [f]) && forall i :: 0 <= i < |acc + [f]| ==> WellFormed((acc + [f])[i].val)
    requires |more| > 0 && (more[0] == ',' || more[0] == '}')
    requires ParseValue(Encode(f.val) + more) == Some((f.val, more))
    ensures Set(acc, f.key, f.val) == acc + [f]
    ensures more[0] == ',' ==>
      ParseMembers(Quote(f.key) + (": " + (Encode(f.val) + more)), acc) == ParseMembers(more[1..], acc + [f])
    ensures more[0] == '}' ==>
      ParseMembers(Quote(f.key) + (": " + (Encode(f.val) + more)), acc) == Some((Obj(acc + [f]), more[1..]))
  {
    var body := Encode(f.val) + more;
    var r1 := ": " + body;
    QuoteText(f.key, r1);
    assert ParseValue(r1[1..]) == Some((f.val, more)) by {
      ColonTail(body);
      EncodeEnds(f.val);
      ConsParts(Encode(f.val), more);
      ValueSkipsSpace(body);
    }
    MemberStep(Quote(f.key) + r1, acc, f.key, r1, f.val, more);
  }

  lemma FieldsTextOne(fs: seq<Field>, rest: string)
    requires |fs| == 1
    ensures EncodeFields(fs) + "}" + rest == Quote(fs[0].key) + (": " + (Encode(fs[0].val) + ("}" + rest)))
  {
    Regroup(Quote(fs[0].key), ": ", Encode(fs[0].val), "}", rest);
  }

  lemma FieldsTextMore(fs: seq<Field>, rest: string)
    requires |fs| > 1
    ensures EncodeFields(fs) + "}" + rest
         == Quote(fs[0].key) + (": " + (Encode(fs[0].val) + (", " + (EncodeFields(fs[1..]) + "}" + rest))))
  {
    RegroupFields(Quote(fs[0].key), ": ", Encode(fs[0].val), ", ", EncodeFields(fs[1..]), "}", rest);
  }

  /** The members after a comma may be preceded by one space. */
  lemma MembersAfterComma(fs: seq<Field>, rest: string, acc: seq<Field>)
    requires |fs| > 0
    requires Distinct(acc) && forall i :: 0 <= i < |acc| ==> WellFormed(acc[i].val)
    ensures (", " + (EncodeFields(fs) + "}" + rest))[1..] == " " + (EncodeFields(fs) + "}" + rest)
    ensures ParseMembers(" " + (EncodeFields(fs) + "}" + rest), acc)
         == ParseMembers(EncodeFields(fs) + "}" + rest, acc)
  {
    var next := EncodeFields(fs) + "}" + rest;
    CommaTail(next);
    FieldsStart(fs);
    HeadOfAppend(EncodeFields(fs), "}", rest);
    MembersSkipSpace(next, acc);
  }

  lemma FieldsLastStep(fs: seq<Field>, rest: string, acc: seq<Field>)
    requires |fs| == 1 && WellFormed(fs[0].val)
    requires Distinct(acc) && fs[0].key !in KeySet(acc) && Distinct(acc + [fs[0]])
    requires forall i :: 0 <= i < |acc| ==> WellFormed(acc[i].val)
    requires ParseValue(Encode(fs[0].val) + ("}" + rest)) == Some((fs[0].val, "}" + rest))
    ensures ParseMembers(EncodeFields(fs) + "}" + rest, acc) == Some((Obj(acc + fs), rest))
  {
    AppendFieldKeepsWellFormed(acc, fs[0]);
    FieldsTextOne(fs, rest);
    FieldStep(fs[0], "}" + rest, acc);
    assert ("}" + rest)[1..] == rest;
    AppendFirst(acc, fs);
  }

  lemma FieldsNextStep(fs: seq<Field>, rest: string, acc: seq<Field>)
    requires |fs| > 1 && WellFormed(fs[0].val)
    requires Distinct(acc) && fs[0].key !in KeySet(acc)
    requires forall i :: 0 <= i < |acc| ==> WellFormed(acc[i].val)
    requires ParseValue(Encode(fs[0].val) + (", " + (EncodeFields(fs[1..]) + "}" + rest)))
          == Some((fs[0].val, ", " + (EncodeFields(fs[1..]) + "}" + rest)))
    requires Distinct(acc + [fs[0]])
    ensures ParseMembers(EncodeFields(fs) + "}" + rest, acc)
         == ParseMembers(EncodeFields(fs[1..]) + "}" + rest, acc + [fs[0]])
  {
    var more := ", " + (EncodeFields(fs[1..]) + "}" + rest);
    AppendFieldKeepsWellFormed(acc, fs[0]);
    FieldsTextMore(fs, rest);
    FieldStep(fs[0], more, acc);
    MembersAfterComma(fs[1..], rest, acc + [fs[0]]);
  }

  /** What the members after the first need: the first one moved into the
      accumulator keeps every key distinct and every value well formed. */
  lemma FieldsAdvance(fs: seq<Field>, acc: seq<Field>)
    requires |fs| > 0 && Distinct(acc + fs)
    requires forall i :: 0 <= i < |fs| ==> WellFormed(fs[i].val)
    requires forall i :: 0 <= i < |acc| ==> WellFormed(acc[i].val)
    ensures Distinct(acc) && fs[0].key !in KeySet(acc) && Distinct(acc + [fs[0]])
    ensures Distinct((acc + [fs[0]]) + fs[1..])
    ensures forall i :: 0 <= i < |fs[1..]| ==> WellFormed(fs[1..][i].val)
    ensures forall i :: 0 <= i < |acc + [fs[0]]| ==> WellFormed((acc + [fs[0]])[i].val)
  {
    DistinctSplit(acc, fs);
    AppendFirst(acc, fs);
  }

  lemma {:induction false} FieldsRoundTrip(fs: seq<Field>, rest: string, acc: seq<Field>)
    requires |fs| > 0
    requires Distinct(acc) && Distinct(acc + fs)
    requires forall i :: 0 <= i < |fs| ==> WellFormed(fs[i].val)
    requires forall i :: 0 <= i < |acc| ==> WellFormed(acc[i].val)
    ensures ParseMembers(EncodeFields(fs) + "}" + rest, acc) == Some((Obj(acc + fs), rest))
    decreases fs, 0
  {
    FieldsAdvance(fs, acc);
    if |fs| == 1 {
      ValueRoundTrip(fs[0].val, "}" + rest);
      FieldsLastStep(fs, rest, acc);
    } else {
      ValueRoundTrip(fs[0].val, ", " + (EncodeFields(fs[1..]) + "}" + rest));
      FieldsNextStep(fs, rest, acc);
      FieldsRoundTrip(fs[1..], rest, acc + [fs[0]]);
      AppendFirst(acc, fs);
    }
  }

  lemma AppendFirst<T>(acc: seq<T>, s: seq<T>)
    requires |s| > 0
    ensures (acc + [s[0]]) + s[1..] == acc + s
    ensures |s| == 1 ==> acc + [s[0]] == acc + s
  {
    assert [s[0]] + s[1..] == s;
  }

  lemma FieldsStart(fs: seq<Field>)
    requires |fs| > 0
    ensures |EncodeFields(fs)| > 0 && EncodeFields(fs)[0] == '"'
  {
  }

  /** The members of an object may be preceded by one space. */
  lemma MembersSkipSpace(s: string, acc: seq<Field>)
    requires |s| > 0 && !IsWs(s[0])
    requires Distinct(acc) && forall i :: 0 <= i < |acc| ==> WellFormed(acc[i].val)
    ensures ParseMembers(" " + s, acc) == ParseMembers(s, acc)
  {
    SkipWsSpace(s);
    SkipWsNoop(s);
  }

  lemma {:induction false} KeySetAppend(a: seq<Field>, b: seq<Field>)
    ensures KeySet(a + b) == KeySet(a) + KeySet(b)
  {
    if |a| == 0 {
      assert a + b == b;
    } else {
      assert (a + b)[1..] == a[1..] + b;
      KeySetAppend(a[1..], b);
    }
  }

  /** With distinct keys overall, the next key is new to what came before,
      and the keys read so far stay distinct. */
  lemma {:induction false} DistinctSplit(acc: seq<Field>, fs: seq<Field>)
    requires |fs| > 0 && Distinct(acc + fs)
    ensures fs[0].key !in KeySet(acc)
    ensures Distinct(acc)
    ensures Distinct(acc + [fs[0]])
  {
    if |acc| == 0 {
      assert acc + [fs[0]] == [fs[0]];
    } else {
      assert (acc + fs)[1..] == acc[1..] + fs;
      assert (acc + [fs[0]])[1..] == acc[1..] + [fs[0]];
      DistinctSplit(acc[1..], fs);
      KeySetAppend(acc[1..], fs);
      KeySetAppend(acc[1..], [fs[0]]);
      assert fs[0].key in KeySet(fs);
    }
  }

  /** `json.loads(json.dumps(v)) == v` for every value a Python program can
      hold. */
  lemma RoundTrip(v: Value)
    requires WellFormed(v)
    ensures Decode(Encode(v)) == Some(v)
  {
    var text := Encode(v);
    assert ParseValue(text) == Some((v, [])) by {
      ValueRoundTrip(v, []);
      AppendNothing(text);
    }
    assert SkipWs([]) == [];
  }

  /** The two facts the chunk file relies on: an encoded record is one line,
      and stripping that line (with or without its line break) and decoding
      it gives the record back. */
  lemma LineRoundTrip(v: Value, lineEnd: string)
    requires WellFormed(v)
    requires lineEnd == [] || lineEnd == "\n"
    ensures OneLine(Encode(v))
    ensures Decode(Strip(Encode(v) + lineEnd)) == Some(v)
  {
    EncodeOneLine(v);
    StripKeepsFramed(Encode(v), lineEnd);
    RoundTrip(v);
  }
}

=== FILE: layout.dfy ===
/** The PDF brochure builder: the rules that turn a brochure into the list
    of blocks ReportLab lays out.

    The brochure arrives as a typed record whose fields already carry the
    defaults `dict.get` supplies. The builder pads one-sentence
    descriptions, caps the number of features, cards and steps, lays the
    advantage cards out three to a row, falls back to three generic steps,
    pads short insights, picks images from a directory listing and names
    the output file. Drawing (fonts, colours, sizes) is ReportLab's and is
    not modelled: a block records what is shown, not how. Whether a file
    exists is a parameter. */
module Layout {
  import opened Base
  import opened Text
  import opened Seqs
  import opened FileNames
  import opened Ordering

  // ---------------------------------------------------------------------
  // Constants of the layout

  const CompanyName: string := "Transradial"
  const ImagesDir: string := "./data/images"
  const DefaultJobsRoot: string := "./jobs"

  const MaxFeatures: nat := 6
  const MaxCards: nat := 6
  const MaxSteps: nat := 5
  const RowWidth: nat := 3
  const MaxRowImages: nat := 3
  const InsightMinLength: nat := 120

  /** The sentence appended to a one-sentence feature description. */
  const FeatureNote: string := " This feature" + " helps improve" + " outcomes and deliver" + " practical benefits"
  const FeaturePlaceholder: string := "Details not fully specified in the provided documents."
  /** The sentence appended to a one-sentence advantage explanation. */
  const AdvantageNote: string := " This contributes" + " to improved" + " outcomes and" + " practical benefits"
  const AdvantagePlaceholder: string := "Details not fully described in provided documents."
  const StepPlaceholder: string := "Detailed procedure steps are not available in the provided documents."
  const InsightSuffix: string := ". For more detailed case studies and" + " performance data, please refer to" + " the full documentation or contact" + " our commercial team."

  const FooterLine1: string := "Contact: David P. Koch, Chief Commercial Officer  |  954-654-2997  |  dkoch@transradialtechnologies.com"
  const FooterLine2: string := "CAUTION - Investigational device. Limited by Federal (or United States) law to investigational use."

  // ---------------------------------------------------------------------
  // The brochure and the story

  datatype Feature = Feature(name: string, description: string)
  datatype Advantage = Advantage(name: string, explanation: string)

  /** The `step` value of a "how it works" step: missing or null, an
      integer, or any other value through the text `str()` gives for it. */
  datatype StepNo = Unnumbered | Number(n: int) | Label(text: string)

  /** The text the f-string `Step {step_num}` shows for a step value. */
  function StepNoText(no: StepNo): string {
    match no
    case Unnumbered => ""
    case Number(n) => IntText(n)
    case Label(t) => t
  }

  /** A "how it works" step. */
  datatype HowStep = HowStep(number: StepNo, title: string, description: string)

  /** The brochure as the builder reads it. `title` is `None` when the key
      is missing (the company name is used then); the other fields hold
      what `get(key, default) or default` yields. */
  datatype Brochure = Brochure(
    title: Option<string>,
    subtitle: string,
    intro: string,
    features: seq<Feature>,
    advantages: seq<Advantage>,
    steps: seq<HowStep>,
    insights: string)

  datatype Section = KeyFeatures | CompetitiveAdvantages | HowItWorks | AdditionalInsights

  /** A cell of the advantage grid: a card, or the spacer that fills a row. */
  datatype Cell = Card(title: string, body: string) | Pad

  /** One flowable of the story. */
  datatype Block =
    | Space(height: nat)
    | TitleBlock(title: string, subtitle: string)
    | Intro(text: string, image: Option<string>)
    | Rule
    | Header(section: Section)
    | Bullet(markup: string)
    | Body(text: string)
    | ImageRow(paths: seq<string>)
    | PageBreak
    | CardRow(cells: seq<Cell>)

  /** `s[:n]` on a list. */
  function Take<T>(s: seq<T>, n: nat): (r: seq<T>)
    ensures |r| == if |s| <= n then |s| else n
    ensures r == s[..|r|]
  {
    if |s| <= n then s else s[..n]
  }

  function Bold(s: string): string {
    "<b>" + s + "</b>"
  }

  // ---------------------------------------------------------------------
  // Sentences

  /** `len([s.strip() for s in text.split(".") if s.strip()])`. */
  function Sentences(text: string): nat {
    NonBlankCount(Split(text, '.'))
  }

  /** The description rule: an empty text becomes the placeholder, a text
      of two sentences or more stays, and any other text loses its
      trailing dots and gains `note` as one more sentence. */
  function Elaborate(text: string, note: string, placeholder: string): string {
    if text == [] then placeholder
    else if Sentences(text) >= 2 then text
    else RStripChar(text, '.') + "." + note + "."
  }

  function FeatureText(description: string): string {
    Elaborate(description, FeatureNote, FeaturePlaceholder)
  }

  function CardText(explanation: string): string {
    Elaborate(explanation, AdvantageNote, AdvantagePlaceholder)
  }

  /** A note fit to be appended as a sentence: no dot and not blank. */
  predicate Note(note: string) {
    '.' !in note && !Blank(note)
  }

  lemma EmptyPieceBlank()
    ensures NonBlankCount([[]]) == 0
  {
    var e: seq<string> := [[]];
    assert Blank(e[0]);
    assert e[1..] == [];
  }

  lemma SplitTrailing(t: string, c: char)
    ensures Split(t + [c], c) == Split(t, c) + [[]]
  {
    assert t + [c] + [] == t + [c];
    SplitAround(t, [], c);
  }

  /** Trailing dots only add empty pieces. */
  lemma {:induction false} RStripSentences(s: string)
    ensures Sentences(RStripChar(s, '.')) == Sentences(s)
  {
    if |s| > 0 && s[|s| - 1] == '.' {
      var u := s[..|s| - 1];
      assert s == u + ['.'];
      SplitTrailing(u, '.');
      NonBlankCountAppend(Split(u, '.'), [[]]);
      EmptyPieceBlank();
      RStripSentences(u);
    }
  }

  /** Appending `"." + note + "."` adds exactly one sentence. */
  lemma NoteSentences(t: string, note: string)
    requires Note(note)
    ensures Sentences(t + "." + note + ".") == Sentences(t) + 1
  {
    assert forall k :: 0 <= k < |note| ==> note[k] in note;
    SplitNoSeparator(note, '.');
    SplitTrailing(note, '.');
    assert note + "." == note + ['.'];
    assert t + "." + note + "." == t + ['.'] + (note + ['.']);
    SplitAround(t, note + ['.'], '.');
    var tail := [note, []];
    assert Split(note + ['.'], '.') == tail;
    NonBlankCountAppend(Split(t, '.'), tail);
    EmptyPieceBlank();
    assert tail[1..] == [[]];
  }

  /** What the description rule does to the sentence count: a text with at
      least one sentence ends up with at least two, a short text gains
      exactly one, and nothing of the text but trailing dots is lost. */
  lemma ElaborateSentences(text: string, note: string, placeholder: string)
    requires Note(note)
    ensures var r := Elaborate(text, note, placeholder);
            && (text == [] ==> r == placeholder)
            && (text != [] && Sentences(text) >= 2 ==> r == text)
            && (text != [] && Sentences(text) < 2 ==> Sentences(r) == Sentences(text) + 1)
            && (Sentences(text) >= 1 ==> Sentences(r) >= 2)
            && (text != [] ==> r[..|RStripChar(text, '.')|] == RStripChar(text, '.'))
  {
    if text != [] && Sentences(text) < 2 {
      var t := RStripChar(text, '.');
      RStripSentences(text);
      NoteSentences(t, note);
      assert (t + "." + note + ".")[..|t|] == t;
    }
  }

  /** Once a text has a sentence, the rule settles after one application:
      applying it again changes nothing. */
  lemma ElaborateSettles(text: string, note: string, placeholder: string)
    requires Note(note)
    requires Sentences(text) >= 1
    ensures Elaborate(Elaborate(text, note, placeholder), note, placeholder) == Elaborate(text, note, placeholder)
  {
    ElaborateSentences(text, note, placeholder);
    var r := Elaborate(text, note, placeholder);
    if r == [] {
      EmptyPieceBlank();
    }
  }

  /** Two pieces without a dot make a text without a dot. */
  lemma NoDotAppend(a: string, b: string)
    requires '.' !in a && '.' !in b
    ensures '.' !in a + b
  {
    assert forall i :: 0 <= i < |a + b| ==> (a + b)[i] == if i < |a| then a[i] else b[i - |a|];
  }

  /** A note written in four pieces, none with a dot, has no dot. */
  lemma NoDotPieces(a: string, b: string, c: string, d: string)
    requires '.' !in a && '.' !in b && '.' !in c && '.' !in d
    ensures '.' !in a + b + c + d
  {
    NoDotAppend(a, b);
    NoDotAppend(a + b, c);
    NoDotAppend(a + b + c, d);
  }

  lemma FeatureNoteFits()
    ensures Note(FeatureNote)
  {
    assert '.' !in FeatureNote by {
      NoDotPieces(" This feature", " helps improve", " outcomes and deliver", " practical benefits");
    }
    assert !Blank(FeatureNote) by {
      assert !IsSpace(FeatureNote[1]);
    }
  }

  lemma AdvantageNoteFits()
    ensures Note(AdvantageNote)
  {
    assert '.' !in AdvantageNote by {
      NoDotPieces(" This contributes", " to improved", " outcomes and", " practical benefits");
    }
    assert !Blank(AdvantageNote) by {
      assert !IsSpace(AdvantageNote[1]);
    }
  }

  lemma NotesFit()
    ensures Note(FeatureNote) && Note(AdvantageNote)
  {
    FeatureNoteFits();
    AdvantageNoteFits();
  }

  // ---------------------------------------------------------------------
  // Insights

  /** Short insights (under 120 characters once stripped) lose their
      trailing dots and gain a pointer to the full documentation. */
  function PadInsights(s: string): string {
    if |Strip(s)| < InsightMinLength then RStripChar(s, '.') + InsightSuffix else s
  }

  /** Stripping keeps a framed tail: a text ending in `tail`, whose first
      and last characters are not white space, strips to something that
      still ends in `tail`. */
  lemma StripKeepsTail(x: string, tail: string)
    requires |tail| > 0 && !IsSpace(tail[0]) && !IsSpace(tail[|tail| - 1])
    ensures |Strip(x + tail)| >= |tail|
  {
    var s := x + tail;
    LStripSpec(s);
    var l := LStrip(s);
    var m := |s| - |l|;
    assert s[|s| - |tail|] == tail[0];
    assert m <= |s| - |tail|;
    assert l[|l| - 1] == tail[|tail| - 1];
    assert RStrip(l) == l;
  }

  /** Padded insights are long enough never to be padded again. */
  lemma InsightsSettle(s: string)
    ensures |Strip(PadInsights(s))| >= InsightMinLength
    ensures PadInsights(PadInsights(s)) == PadInsights(s)
  {
    if |Strip(s)| < InsightMinLength {
      assert |InsightSuffix| == 125;
      StripKeepsTail(RStripChar(s, '.'), InsightSuffix);
    }
  }

  // ---------------------------------------------------------------------
  // Steps

  /** The steps shown when the brochure has none. */
  const FallbackSteps: seq<HowStep> := [
    HowStep(Number(1), "Preparation", "Prepare the clinical environment and confirm patient eligibility. Follow device handling and safety guidelines as described in the documentation."),
    HowStep(Number(2), "Procedure", "Perform the procedure using standard technique and the recommended accessories. Ensure monitoring and sterile technique throughout."),
    HowStep(Number(3), "Post-procedure Care", "Monitor patient recovery, follow recommended post-procedure protocols, and schedule follow-up as needed.")
  ]

  /** `"<b>Step {n}</b>"`, followed by `": " + title` when there is a title. */
  function StepHeading(st: HowStep): string {
    var head := Bold("Step " + StepNoText(st.number));
    if st.title != [] then head + ": " + st.title else head
  }

  function StepText(st: HowStep): string {
    if st.description == [] then StepPlaceholder else st.description
  }

  /** The heading names the step and, exactly when there is one, the title:
      it opens with `<b>Step `, the step text follows, the bold run closes,
      and `": " + title` ends it when the title is not empty. */
  lemma StepHeadingShape(st: HowStep)
    ensures var h, n := StepHeading(st), StepNoText(st.number);
            && |h| >= 12 + |n|
            && h[..8] == "<b>Step " && h[8..8 + |n|] == n && h[8 + |n|..12 + |n|] == "</b>"
            && (st.title == [] <==> |h| == 12 + |n|)
            && (st.title != [] ==> h[12 + |n|..] == ": " + st.title)
  {
    var n := StepNoText(st.number);
    var head := Bold("Step " + n);
    assert head == "<b>Step " + n + "</b>";
    assert |head| == 12 + |n|;
    assert head[..8] == "<b>Step ";
    assert head[8..8 + |n|] == n;
    assert head[8 + |n|..] == "</b>";
    var h := StepHeading(st);
    if st.title != [] {
      assert h == head + (": " + st.title);
      assert h[..|head|] == head;
      assert h[|head|..] == ": " + st.title;
    } else {
      assert h == head;
    }
  }

  // ---------------------------------------------------------------------
  // Features

  /** The bold name and the padded description of each feature. */
  function FeatureBlocks(fs: seq<Feature>): seq<Block> {
    if |fs| == 0 then []
    else [Bullet(Bold(fs[0].name)), Body(FeatureText(fs[0].description))] + FeatureBlocks(fs[1..])
  }

  /** Two blocks per feature, in the features' order. */
  lemma {:induction false} FeatureBlocksSpec(fs: seq<Feature>)
    ensures |FeatureBlocks(fs)| == 2 * |fs|
    ensures forall i :: 0 <= i < |fs| ==> FeatureBlocks(fs)[2 * i] == Bullet(Bold(fs[i].name))
                                          && FeatureBlocks(fs)[2 * i + 1] == Body(FeatureText(fs[i].description))
  {
    if |fs| > 0 {
      FeatureBlocksSpec(fs[1..]);
      var r, rest := FeatureBlocks(fs), FeatureBlocks(fs[1..]);
      assert forall j :: 2 <= j < |r| ==> r[j] == rest[j - 2];
      forall i | 1 <= i < |fs|
        ensures r[2 * i] == Bullet(Bold(fs[i].name)) && r[2 * i + 1] == Body(FeatureText(fs[i].description))
      {
        assert fs[1..][i - 1] == fs[i];
        assert r[2 * i] == rest[2 * (i - 1)];
        assert r[2 * i + 1] == rest[2 * (i - 1) + 1];
      }
    }
  }

  // ---------------------------------------------------------------------
  // Advantage cards

  function CardOf(a: Advantage): Cell {
    Card(a.name, CardText(a.explanation))
  }

  function Cards(advs: seq<Advantage>): (r: seq<Cell>)
    ensures |r| == |advs|
  {
    seq(|advs|, i requires 0 <= i < |advs| => CardOf(advs[i]))
  }

  function Pads(k: nat): (r: seq<Cell>)
    ensures |r| == k
  {
    seq(k, _ => Pad)
  }

  /** Spacers needed to complete the last row of `n` cards. */
  function PadCount(n: nat): nat {
    (RowWidth - n % RowWidth) % RowWidth
  }

  /** The cells in rows of three, the last row completed with spacers. */
  function Rows(cells: seq<Cell>): seq<seq<Cell>>
    decreases |cells|
  {
    if |cells| == 0 then []
    else if |cells| <= RowWidth then [cells + Pads(RowWidth - |cells|)]
    else [cells[..RowWidth]] + Rows(cells[RowWidth..])
  }

  /** The cells of a grid, row after row. */
  function Flatten(rows: seq<seq<Cell>>): seq<Cell> {
    if |rows| == 0 then [] else rows[0] + Flatten(rows[1..])
  }

  /** `advantages_grid`: `None` without advantages, otherwise one row block
      per row of the first six cards. */
  function AdvantagesGrid(advs: seq<Advantage>): Option<seq<Block>> {
    if advs == [] then None
    else
      var rows := Rows(Cards(Take(advs, MaxCards)));
      Some(seq(|rows|, i requires 0 <= i < |rows| => CardRow(rows[i])))
  }

  /** Every row is three cells wide, there are `ceil(n / 3)` of them, and
      reading them in order gives the cells followed by the spacers that
      complete the last row. */
  lemma {:induction false} RowsSpec(cells: seq<Cell>)
    ensures |Rows(cells)| == (|cells| + RowWidth - 1) / RowWidth
    ensures forall i :: 0 <= i < |Rows(cells)| ==> |Rows(cells)[i]| == RowWidth
    ensures Flatten(Rows(cells)) == cells + Pads(PadCount(|cells|))
  {
    var r := Rows(cells);
    if |cells| == 0 {
    } else if |cells| <= RowWidth {
      assert r[1..] == [];
      AppendNothing(r[0]);
    } else {
      var rest := cells[RowWidth..];
      RowsSpec(rest);
      assert r[1..] == Rows(rest);
      assert PadCount(|rest|) == PadCount(|cells|);
      AppendAssoc(cells[..RowWidth], rest, Pads(PadCount(|cells|)));
      TakeDrop(cells, RowWidth);
    }
  }

  /** The grid is absent exactly when there are no advantages; otherwise it
      holds one or two rows of three cells, and reading them in order gives
      the cards of the first six advantages, in order, then spacers. */
  lemma GridSpec(advs: seq<Advantage>)
    ensures AdvantagesGrid(advs).None? <==> advs == []
    ensures advs != [] ==>
              var blocks, cards := AdvantagesGrid(advs).value, Cards(Take(advs, MaxCards));
              && 1 <= |blocks| <= 2
              && |blocks| == (|cards| + RowWidth - 1) / RowWidth
              && (forall i :: 0 <= i < |blocks| ==> blocks[i].CardRow? && |blocks[i].cells| == RowWidth)
              && Flatten(seq(|blocks|, i requires 0 <= i < |blocks| => blocks[i].cells)) == cards + Pads(PadCount(|cards|))
  {
    if advs != [] {
      var cards := Cards(Take(advs, MaxCards));
      RowsSpec(cards);
      var rows := Rows(cards);
      var blocks := AdvantagesGrid(advs).value;
      assert seq(|blocks|, i requires 0 <= i < |blocks| => blocks[i].cells) == rows;
    }
  }

  /** Each card shows its advantage's name and the padded explanation. */
  lemma CardsSpec(advs: seq<Advantage>, i: nat)
    requires i < |advs| && i < MaxCards
    ensures Cards(Take(advs, MaxCards))[i] == Card(advs[i].name, CardText(advs[i].explanation))
  {
  }

  // ---------------------------------------------------------------------
  // Steps

  /** The steps shown: the brochure's, or the fallback when it has none;
      at most five. */
  function ShownSteps(steps: seq<HowStep>): seq<HowStep> {
    Take(if steps == [] then FallbackSteps else steps, MaxSteps)
  }

  function StepBlocks(steps: seq<HowStep>): seq<Block> {
    if |steps| == 0 then []
    else [Bullet(StepHeading(steps[0])), Body(StepText(steps[0]))] + StepBlocks(steps[1..])
  }

  /** Without steps the fallback's three steps, numbered 1 to 3 and all
      titled, are shown; otherwise the first five of the brochure's. */
  lemma ShownStepsSpec(steps: seq<HowStep>)
    ensures steps == [] ==> ShownSteps(steps) == FallbackSteps
                            && |FallbackSteps| == 3
                            && FallbackSteps[0].number == Number(1)
                            && FallbackSteps[1].number == Number(2)
                            && FallbackSteps[2].number == Number(3)
                            && forall i :: 0 <= i < 3 ==> FallbackSteps[i].title != [] && FallbackSteps[i].description != []
    ensures steps != [] ==> ShownSteps(steps) == steps[..if |steps| <= MaxSteps then |steps| else MaxSteps]
  {
  }

  lemma {:induction false} StepBlocksSpec(steps: seq<HowStep>)
    ensures |StepBlocks(steps)| == 2 * |steps|
    ensures forall i :: 0 <= i < |steps| ==> StepBlocks(steps)[2 * i] == Bullet(StepHeading(steps[i]))
                                             && StepBlocks(steps)[2 * i + 1] == Body(StepText(steps[i]))
  {
    if |steps| > 0 {
      StepBlocksSpec(steps[1..]);
      var r, rest := StepBlocks(steps), StepBlocks(steps[1..]);
      assert forall j :: 2 <= j < |r| ==> r[j] == rest[j - 2];
      forall i | 1 <= i < |steps|
        ensures r[2 * i] == Bullet(StepHeading(steps[i])) && r[2 * i + 1] == Body(StepText(steps[i]))
      {
        assert steps[1..][i - 1] == steps[i];
        assert r[2 * i] == rest[2 * (i - 1)];
        assert r[2 * i + 1] == rest[2 * (i - 1) + 1];
      }
    }
  }

  // ---------------------------------------------------------------------
  // Images

  /** A `.jpg`, `.jpeg` or `.png` file, in any letter case. */
  predicate IsImage(name: string) {
    var ext := Lower(Suffix(name));
    ext == ".jpg" || ext == ".jpeg" || ext == ".png"
  }

  function ImageNames(names: seq<string>): seq<string> {
    if |names| == 0 then []
    else (if IsImage(names[0]) then [names[0]] else []) + ImageNames(names[1..])
  }

  /** The image paths of the images folder, sorted by name. */
  function Candidates(listing: seq<string>): (r: seq<string>) {
    var names := ImageNames(Sort(listing));
    seq(|names|, i requires 0 <= i < |names| => JoinPath(ImagesDir, names[i]))
  }

  /** The image shown beside the intro: the first candidate, if it exists. */
  function IntroImage(paths: seq<string>, present: string -> bool): Option<string> {
    if |paths| >= 1 && paths[0] != [] && present(paths[0]) then Some(paths[0]) else None
  }

  /** The candidates offered to the image row: the second to the fourth. */
  function RowCandidates(paths: seq<string>): seq<string> {
    if |paths| >= 2 then paths[1..if |paths| <= 4 then |paths| else 4] else []
  }

  function Existing(paths: seq<string>, present: string -> bool): seq<string> {
    if |paths| == 0 then []
    else (if paths[0] != [] && present(paths[0]) then [paths[0]] else []) + Existing(paths[1..], present)
  }

  /** `horizontal_images`: the first three paths that are non-empty and
      exist, or a one-point spacer when none is left. */
  function HorizontalImages(paths: seq<string>, present: string -> bool): Block {
    var keep := Existing(Take(paths, MaxRowImages), present);
    if keep == [] then Space(1) else ImageRow(keep)
  }

  /** The names the filter keeps are exactly the image names, in order. */
  lemma {:induction false} ImageNamesSpec(names: seq<string>)
    ensures forall x :: x in ImageNames(names) <==> x in names && IsImage(x)
    ensures Sorted(names) ==> Sorted(ImageNames(names))
  {
    if |names| > 0 {
      ImageNamesSpec(names[1..]);
      var r, rest := ImageNames(names), ImageNames(names[1..]);
      assert forall x :: x in names <==> x == names[0] || x in names[1..];
      if Sorted(names) {
        assert Sorted(names[1..]);
        if IsImage(names[0]) {
          forall j | 0 <= j < |rest|
            ensures LessEq(names[0], rest[j])
          {
            assert rest[j] in rest;
            var k :| 0 <= k < |names[1..]| && names[1..][k] == rest[j];
            assert names[k + 1] == rest[j];
          }
        }
      }
    }
  }

  /** The kept paths are the existing ones among those offered, in order. */
  lemma {:induction false} ExistingSpec(paths: seq<string>, present: string -> bool)
    ensures |Existing(paths, present)| <= |paths|
    ensures forall x :: x in Existing(paths, present) <==> x in paths && x != [] && present(x)
  {
    if |paths| > 0 {
      ExistingSpec(paths[1..], present);
      assert forall x :: x in paths <==> x == paths[0] || x in paths[1..];
    }
  }

  /** The candidates are the listing's image files, sorted, under the
      images folder. */
  lemma CandidatesSpec(listing: seq<string>)
    ensures var names := ImageNames(Sort(listing));
            && Sorted(names)
            && (forall x :: x in names <==> x in listing && IsImage(x))
            && Candidates(listing) == seq(|names|, i requires 0 <= i < |names| => JoinPath(ImagesDir, names[i]))
  {
    var s := Sort(listing);
    ImageNamesSpec(s);
    assert forall x :: x in s <==> x in multiset(s);
    assert forall x :: x in listing <==> x in multiset(listing);
  }

  /** The row is offered the second to the fourth candidates. */
  lemma RowCandidatesSpec(paths: seq<string>)
    ensures |RowCandidates(paths)| <= MaxRowImages
    ensures forall k :: 1 <= k < |paths| && k <= 3 ==> paths[k] in RowCandidates(paths)
    ensures forall x :: x in RowCandidates(paths) ==> exists k :: 1 <= k < |paths| && k <= 3 && paths[k] == x
  {
    var r := RowCandidates(paths);
    forall x | x in r
      ensures exists k :: 1 <= k < |paths| && k <= 3 && paths[k] == x
    {
      var j :| 0 <= j < |r| && r[j] == x;
      assert paths[j + 1] == x;
    }
    forall k | 1 <= k < |paths| && k <= 3
      ensures paths[k] in r
    {
      assert r[k - 1] == paths[k];
    }
  }

  /** The intro image is the first candidate when it exists; the row shows
      at most three images, each an existing one among those offered, and
      is a spacer exactly when none of those offered exists. */
  lemma ImageSelection(paths: seq<string>, present: string -> bool)
    ensures IntroImage(paths, present).Some? <==> |paths| >= 1 && paths[0] != [] && present(paths[0])
    ensures IntroImage(paths, present).Some? ==> IntroImage(paths, present).value == paths[0]
    ensures var offered, b := RowCandidates(paths), HorizontalImages(RowCandidates(paths), present);
            && (b.Space? || b.ImageRow?)
            && (b.ImageRow? ==> 1 <= |b.paths| <= MaxRowImages
                                && forall x :: x in b.paths ==> x in offered && x != [] && present(x))
            && (b.Space? <==> forall x :: x in offered ==> x == [] || !present(x))
  {
    var offered := RowCandidates(paths);
    RowCandidatesSpec(paths);
    assert Take(offered, MaxRowImages) == offered;
    ExistingSpec(offered, present);
    var keep := Existing(offered, present);
    if keep != [] {
      assert keep[0] in keep;
    }
  }

  // ---------------------------------------------------------------------
  // The story

  function TitleOf(b: Brochure): string {
    if b.title.Some? then b.title.value else CompanyName
  }

  function Opening(b: Brochure): seq<Block> {
    [Space(18), TitleBlock(TitleOf(b), b.subtitle), Space(16)]
  }

  function IntroPart(b: Brochure, paths: seq<string>, present: string -> bool): seq<Block> {
    if b.intro == [] then [] else [Intro(b.intro, IntroImage(paths, present)), Space(6)]
  }

  function FeaturePart(b: Brochure): seq<Block> {
    if b.features == [] then []
    else [Header(KeyFeatures), Space(6)] + FeatureBlocks(Take(b.features, MaxFeatures)) + [Space(8), Rule]
  }

  function ImagePart(paths: seq<string>, present: string -> bool): seq<Block> {
    [HorizontalImages(RowCandidates(paths), present), Space(6), Rule]
  }

  function AdvantagePart(b: Brochure): seq<Block> {
    if b.advantages == [] then []
    else [PageBreak, Header(CompetitiveAdvantages), Space(6)] + AdvantagesGrid(b.advantages).value + [Space(8), Rule]
  }

  function HowPart(b: Brochure): seq<Block> {
    [Space(6), Header(HowItWorks), Space(6)] + StepBlocks(ShownSteps(b.steps)) + [Space(8), Rule]
  }

  function InsightPart(b: Brochure): seq<Block> {
    if b.insights == [] then []
    else [Header(AdditionalInsights), Space(6), Body(PadInsights(b.insights)), Space(8), Rule]
  }

  const Footer: seq<Block> := [Space(10), Body(FooterLine1), Space(6), Body(FooterLine2)]

  /** Everything after the rule that closes the intro. */
  function Sequel(b: Brochure, paths: seq<string>, present: string -> bool): seq<Block> {
    FeaturePart(b) + ImagePart(paths, present) + AdvantagePart(b) + HowPart(b) + InsightPart(b)
  }

  /** Everything between the title and the footer. */
  function Middle(b: Brochure, paths: seq<string>, present: string -> bool): seq<Block> {
    IntroPart(b, paths, present) + [Rule] + Sequel(b, paths, present)
  }

  /** `build_pdf_from_brochure`: the story handed to ReportLab, given the
      images folder's listing. */
  function Story(b: Brochure, listing: seq<string>, present: string -> bool): seq<Block> {
    Opening(b) + Middle(b, Candidates(listing), present) + Footer
  }

  /** The section headers of a story, in order. */
  function Sections(blocks: seq<Block>): seq<Section> {
    if |blocks| == 0 then []
    else (if blocks[0].Header? then [blocks[0].section] else []) + Sections(blocks[1..])
  }

  /** The number of page breaks in a story. */
  function PageBreaks(blocks: seq<Block>): nat {
    if |blocks| == 0 then 0
    else (if blocks[0].PageBreak? then 1 else 0) + PageBreaks(blocks[1..])
  }

  lemma {:induction false} SectionsAppend(a: seq<Block>, b: seq<Block>)
    ensures Sections(a + b) == Sections(a) + Sections(b)
    ensures PageBreaks(a + b) == PageBreaks(a) + PageBreaks(b)
  {
    if |a| == 0 {
      assert a + b == b;
    } else {
      ConsParts(a, b);
      SectionsAppend(a[1..], b);
      AppendAssoc(Sections([a[0]]), Sections(a[1..]), Sections(b));
    }
  }

  lemma SectionsOne(x: Block)
    ensures Sections([x]) == (if x.Header? then [x.section] else [])
    ensures PageBreaks([x]) == (if x.PageBreak? then 1 else 0)
  {
    assert [x][1..] == [];
  }

  /** Blocks with neither a header nor a page break. */
  predicate Plain(blocks: seq<Block>) {
    forall i :: 0 <= i < |blocks| ==> !blocks[i].Header? && !blocks[i].PageBreak?
  }

  lemma {:induction false} PlainSections(blocks: seq<Block>)
    requires Plain(blocks)
    ensures Sections(blocks) == [] && PageBreaks(blocks) == 0
  {
    if |blocks| > 0 {
      PlainSections(blocks[1..]);
    }
  }

  lemma {:induction false} FeatureBlocksPlain(fs: seq<Feature>)
    ensures Plain(FeatureBlocks(fs))
  {
    if |fs| > 0 {
      FeatureBlocksPlain(fs[1..]);
    }
  }

  lemma {:induction false} StepBlocksPlain(steps: seq<HowStep>)
    ensures Plain(StepBlocks(steps))
  {
    if |steps| > 0 {
      StepBlocksPlain(steps[1..]);
    }
  }

  /** A part made of a head, plain blocks and a plain tail has the head's
      sections and page breaks. */
  lemma Framed(head: seq<Block>, mid: seq<Block>, tail: seq<Block>)
    requires Plain(mid) && Plain(tail)
    ensures Sections(head + mid + tail) == Sections(head)
    ensures PageBreaks(head + mid + tail) == PageBreaks(head)
  {
    PlainSections(mid);
    PlainSections(tail);
    SectionsAppend(head + mid, tail);
    SectionsAppend(head, mid);
  }

  /** Plain blocks around a part leave its sections and page breaks. */
  lemma Wrapped(head: seq<Block>, mid: seq<Block>, tail: seq<Block>)
    requires Plain(head) && Plain(tail)
    ensures Sections(head + mid + tail) == Sections(mid)
    ensures PageBreaks(head + mid + tail) == PageBreaks(mid)
  {
    PlainSections(head);
    PlainSections(tail);
    SectionsAppend(head + mid, tail);
    SectionsAppend(head, mid);
  }

  lemma FeaturePartSections(b: Brochure)
    ensures Sections(FeaturePart(b)) == (if b.features == [] then [] else [KeyFeatures])
    ensures PageBreaks(FeaturePart(b)) == 0
  {
    if b.features != [] {
      FeatureBlocksPlain(Take(b.features, MaxFeatures));
      Framed([Header(KeyFeatures), Space(6)], FeatureBlocks(Take(b.features, MaxFeatures)), [Space(8), Rule]);
      assert [Header(KeyFeatures), Space(6)][1..] == [Space(6)];
      SectionsOne(Space(6));
    }
  }

  lemma AdvantagePartSections(b: Brochure)
    ensures Sections(AdvantagePart(b)) == (if b.advantages == [] then [] else [CompetitiveAdvantages])
    ensures PageBreaks(AdvantagePart(b)) == (if b.advantages == [] then 0 else 1)
  {
    if b.advantages != [] {
      var grid := AdvantagesGrid(b.advantages).value;
      GridSpec(b.advantages);
      var head := [PageBreak, Header(CompetitiveAdvantages), Space(6)];
      Framed(head, grid, [Space(8), Rule]);
      assert head[1..] == [Header(CompetitiveAdvantages), Space(6)];
      assert head[1..][1..] == [Space(6)];
      SectionsOne(Space(6));
    }
  }

  /** Every body under a step heading has text: the placeholder stands in
      for a missing description. */
  lemma {:induction false} StepBodiesFilled(steps: seq<HowStep>)
    ensures forall i :: 0 <= i < |StepBlocks(steps)| && StepBlocks(steps)[i].Body? ==> StepBlocks(steps)[i].text != []
  {
    if |steps| > 0 {
      StepBodiesFilled(steps[1..]);
      var r, rest := StepBlocks(steps), StepBlocks(steps[1..]);
      assert r == [Bullet(StepHeading(steps[0])), Body(StepText(steps[0]))] + rest;
      assert |StepPlaceholder| > 0;
      assert forall j :: 2 <= j < |r| ==> r[j] == rest[j - 2];
    }
  }

  /** The "How It Works" part shows three fallback steps when the brochure
      has none and otherwise its first five steps, in order; every body
      in it has text. */
  lemma HowPartShown(b: Brochure)
    ensures var n := if b.steps == [] then 3 else if |b.steps| <= MaxSteps then |b.steps| else MaxSteps;
            |HowPart(b)| == 5 + 2 * n
    ensures forall i :: 0 <= i < |b.steps| && i < MaxSteps ==>
              HowPart(b)[3 + 2 * i] == Bullet(StepHeading(b.steps[i]))
              && HowPart(b)[4 + 2 * i] == Body(StepText(b.steps[i]))
    ensures forall i :: 0 <= i < |HowPart(b)| && HowPart(b)[i].Body? ==> HowPart(b)[i].text != []
  {
    var shown := ShownSteps(b.steps);
    FramedStepsOrder(shown);
    FramedStepsFilled(shown);
    assert |shown| == if b.steps == [] then 3 else if |b.steps| <= MaxSteps then |b.steps| else MaxSteps;
    assert forall i :: 0 <= i < |b.steps| && i < MaxSteps ==> shown[i] == b.steps[i];
  }

  /** The steps between the part's header and its closing rule: heading
      and body of each step in turn. */
  lemma FramedStepsOrder(shown: seq<HowStep>)
    ensures var h := [Space(6), Header(HowItWorks), Space(6)] + StepBlocks(shown) + [Space(8), Rule];
            && |h| == 5 + 2 * |shown|
            && forall i :: 0 <= i < |shown| ==> h[3 + 2 * i] == Bullet(StepHeading(shown[i])) && h[4 + 2 * i] == Body(StepText(shown[i]))
  {
    var blocks := StepBlocks(shown);
    var head: seq<Block> := [Space(6), Header(HowItWorks), Space(6)];
    var h := head + blocks + [Space(8), Rule];
    StepBlocksSpec(shown);
    assert |h| == |blocks| + 5;
    forall i | 0 <= i < |shown|
      ensures h[3 + 2 * i] == Bullet(StepHeading(shown[i])) && h[4 + 2 * i] == Body(StepText(shown[i]))
    {
      assert 2 * i + 1 < |blocks|;
      assert (head + blocks)[3 + 2 * i] == blocks[2 * i];
      assert (head + blocks)[4 + 2 * i] == blocks[2 * i + 1];
    }
  }

  /** No body between the part's header and its closing rule is empty. */
  lemma FramedStepsFilled(shown: seq<HowStep>)
    ensures var h := [Space(6), Header(HowItWorks), Space(6)] + StepBlocks(shown) + [Space(8), Rule];
            forall i :: 0 <= i < |h| && h[i].Body? ==> h[i].text != []
  {
    var blocks := StepBlocks(shown);
    var head: seq<Block> := [Space(6), Header(HowItWorks), Space(6)];
    var tail: seq<Block> := [Space(8), Rule];
    var h := head + blocks + tail;
    StepBodiesFilled(shown);
    forall i | 0 <= i < |h| && h[i].Body?
      ensures h[i].text != []
    {
      if 3 <= i < 3 + |blocks| {
        assert h[i] == blocks[i - 3];
      }
    }
  }

  lemma HowPartSections(b: Brochure)
    ensures Sections(HowPart(b)) == [HowItWorks] && PageBreaks(HowPart(b)) == 0
  {
    StepBlocksPlain(ShownSteps(b.steps));
    var head := [Space(6), Header(HowItWorks), Space(6)];
    Framed(head, StepBlocks(ShownSteps(b.steps)), [Space(8), Rule]);
    assert head[1..] == [Header(HowItWorks), Space(6)];
    assert head[1..][1..] == [Space(6)];
    SectionsOne(Space(6));
  }

  lemma InsightPartSections(b: Brochure)
    ensures Sections(InsightPart(b)) == (if b.insights == [] then [] else [AdditionalInsights])
    ensures PageBreaks(InsightPart(b)) == 0
  {
    if b.insights != [] {
      var ins := InsightPart(b);
      assert ins[1..] == [Space(6), Body(PadInsights(b.insights)), Space(8), Rule];
      PlainSections(ins[1..]);
    }
  }

  lemma SequelSections(b: Brochure, paths: seq<string>, present: string -> bool)
    ensures Sections(Sequel(b, paths, present))
         == (if b.features == [] then [] else [KeyFeatures])
          + (if b.advantages == [] then [] else [CompetitiveAdvantages])
          + [HowItWorks]
          + (if b.insights == [] then [] else [AdditionalInsights])
    ensures PageBreaks(Sequel(b, paths, present)) == (if b.advantages == [] then 0 else 1)
  {
    var f, im := FeaturePart(b), ImagePart(paths, present);
    var a, h, ins := AdvantagePart(b), HowPart(b), InsightPart(b);
    var sf := if b.features == [] then [] else [KeyFeatures];
    var sa := if b.advantages == [] then [] else [CompetitiveAdvantages];
    var si := if b.insights == [] then [] else [AdditionalInsights];
    var pa := if b.advantages == [] then 0 else 1;
    var p2 := f + im;
    assert Sections(p2) == sf && PageBreaks(p2) == 0 by {
      assert Plain(im);
      PlainSections(im);
      FeaturePartSections(b);
      SectionsAppend(f, im);
    }
    var p3 := p2 + a;
    assert Sections(p3) == sf + sa && PageBreaks(p3) == pa by {
      AdvantagePartSections(b);
      SectionsAppend(p2, a);
    }
    var p4 := p3 + h;
    assert Sections(p4) == sf + sa + [HowItWorks] && PageBreaks(p4) == pa by {
      HowPartSections(b);
      SectionsAppend(p3, h);
    }
    assert Sections(p4 + ins) == sf + sa + [HowItWorks] + si && PageBreaks(p4 + ins) == pa by {
      InsightPartSections(b);
      SectionsAppend(p4, ins);
    }
  }

  lemma MiddleSections(b: Brochure, paths: seq<string>, present: string -> bool)
    ensures Sections(Middle(b, paths, present)) == Sections(Sequel(b, paths, present))
    ensures PageBreaks(Middle(b, paths, present)) == PageBreaks(Sequel(b, paths, present))
  {
    var head := IntroPart(b, paths, present) + [Rule];
    assert Plain(head);
    PlainSections(head);
    SectionsAppend(head, Sequel(b, paths, present));
  }

  /** The story's sections come in a fixed order: key features when there
      are any, competitive advantages when there are any, how it works
      always, additional insights when there are any. There is one page
      break, before the advantages, exactly when there are advantages. */
  lemma StorySections(b: Brochure, listing: seq<string>, present: string -> bool)
    ensures Sections(Story(b, listing, present))
         == (if b.features == [] then [] else [KeyFeatures])
          + (if b.advantages == [] then [] else [CompetitiveAdvantages])
          + [HowItWorks]
          + (if b.insights == [] then [] else [AdditionalInsights])
    ensures PageBreaks(Story(b, listing, present)) == (if b.advantages == [] then 0 else 1)
  {
    assert Plain(Opening(b)) && Plain(Footer);
    Wrapped(Opening(b), Middle(b, Candidates(listing), present), Footer);
    MiddleSections(b, Candidates(listing), present);
    SequelSections(b, Candidates(listing), present);
  }

  /** The blocks the story starts its middle with: the intro and its
      spacer when there is an intro, then the rule. */
  lemma MiddleStart(b: Brochure, paths: seq<string>, present: string -> bool)
    ensures var m := Middle(b, paths, present);
            && |m| >= 1
            && (b.intro == [] ==> m[0] == Rule)
            && (b.intro != [] ==> |m| >= 3 && m[0] == Intro(b.intro, IntroImage(paths, present))
                                  && m[1] == Space(6) && m[2] == Rule)
  {
    var head := IntroPart(b, paths, present) + [Rule];
    var rest := Sequel(b, paths, present);
    if b.intro == [] {
      assert head == [Rule];
    } else {
      assert head == [Intro(b.intro, IntroImage(paths, present)), Space(6), Rule];
      IndexInLeft(head, rest, 1);
      IndexInLeft(head, rest, 2);
    }
    IndexInLeft(head, rest, 0);
  }

  /** The story opens with the title block, whose title is the brochure's
      or else the company name, then the intro exactly when there is one,
      then a rule; it closes with the two footer lines. */
  lemma StoryFrame(b: Brochure, listing: seq<string>, present: string -> bool)
    ensures var s := Story(b, listing, present);
            && |s| >= 8
            && s[..3] == [Space(18), TitleBlock(TitleOf(b), b.subtitle), Space(16)]
            && (b.intro == [] ==> s[3] == Rule)
            && (b.intro != [] ==> s[3] == Intro(b.intro, IntroImage(Candidates(listing), present))
                                  && s[4] == Space(6) && s[5] == Rule)
            && s[|s| - 4..] == Footer
            && (b.title.None? ==> TitleOf(b) == CompanyName)
  {
    var paths := Candidates(listing);
    var o, m := Opening(b), Middle(b, paths, present);
    MiddleStart(b, paths, present);
    PrefixOfAppend(o, m, Footer);
    AppendPrefix(o + m, Footer);
    IndexInMiddle(o, m, Footer, 0);
    if b.intro != [] {
      IndexInMiddle(o, m, Footer, 1);
      IndexInMiddle(o, m, Footer, 2);
    }
  }

  /** The image row comes right after the features (or right after the
      intro's rule when there are none), whatever else the brochure holds. */
  lemma StoryImages(b: Brochure, listing: seq<string>, present: string -> bool)
    ensures var s, k := Story(b, listing, present), 4 + |IntroPart(b, Candidates(listing), present)| + |FeaturePart(b)|;
            && k < |s|
            && s[k] == HorizontalImages(RowCandidates(Candidates(listing)), present)
  {
    var paths := Candidates(listing);
    var o, m := Opening(b), Middle(b, paths, present);
    var f, im := FeaturePart(b), ImagePart(paths, present);
    var head := IntroPart(b, paths, present) + [Rule];
    var rest := Sequel(b, paths, present);
    var tail := AdvantagePart(b) + HowPart(b) + InsightPart(b);
    assert rest[|f|] == im[0] by {
      AppendAssoc(f + im, AdvantagePart(b) + HowPart(b), InsightPart(b));
      AppendAssoc(f + im, AdvantagePart(b), HowPart(b));
      IndexInLeft(f + im, tail, |f|);
      IndexInRight(f, im, 0);
    }
    IndexInRight(head, rest, |f|);
    IndexInMiddle(o, m, Footer, |head| + |f|);
  }

  // ---------------------------------------------------------------------
  // The output file

  /** `name.replace(":", "_").replace("/", "_")`. */
  function SafeId(name: string): (r: string)
    ensures |r| == |name|
  {
    seq(|name|, i requires 0 <= i < |name| => if name[i] == ':' || name[i] == '/' then '_' else name[i])
  }

  /** A safe id has no colon or slash, differs from the name only where the
      name had one, and is its own safe id. */
  lemma SafeIdSpec(name: string)
    ensures forall i :: 0 <= i < |name| ==> SafeId(name)[i] != ':' && SafeId(name)[i] != '/'
    ensures forall i :: 0 <= i < |name| && name[i] != ':' && name[i] != '/' ==> SafeId(name)[i] == name[i]
    ensures SafeId(SafeId(name)) == SafeId(name)
    ensures (forall i :: 0 <= i < |name| ==> name[i] != ':' && name[i] != '/') ==> SafeId(name) == name
  {
  }

  /** The PDF's path: `--out_name` when given, otherwise
      `brochure_<safe id>.pdf`, inside the job folder. */
  function OutputPath(jobDir: string, jobName: string, outName: Option<string>): string {
    if outName.Some? && outName.value != [] then JoinPath(jobDir, outName.value)
    else JoinPath(jobDir, "brochure_" + SafeId(jobName) + ".pdf")
  }

  /** The default file name is the safe id framed by `brochure_` and
      `.pdf`. */
  lemma OutputPathSpec(jobDir: string, jobName: string, outName: Option<string>)
    ensures outName.None? ==>
              var name := "brochure_" + SafeId(jobName) + ".pdf";
              && OutputPath(jobDir, jobName, outName) == JoinPath(jobDir, name)
              && |name| == |jobName| + 13
              && name[..9] == "brochure_" && name[|name| - 4..] == ".pdf"
              && name[9..|name| - 4] == SafeId(jobName)
  {
  }
}

=== FILE: ordering.dfy ===
/** Python's ordering of strings and `sorted` over a list of strings. */
module Ordering {

  /** Python's `a < b` on `str`: code points compared left to right, a
      proper prefix coming first. */
  predicate Less(a: string, b: string)
    decreases |a|
  {
    if |a| == 0 then |b| > 0
    else if |b| == 0 then false
    else if a[0] != b[0] then a[0] < b[0]
    else Less(a[1..], b[1..])
  }

  predicate LessEq(a: string, b: string) {
    a == b || Less(a, b)
  }

  lemma {:induction false} LessIrreflexive(a: string)
    ensures !Less(a, a)
  {
    if |a| > 0 {
      LessIrreflexive(a[1..]);
    }
  }

  lemma {:induction false} LessAsymmetric(a: string, b: string)
    requires Less(a, b)
    ensures !Less(b, a)
  {
    if |a| > 0 && |b| > 0 && a[0] == b[0] {
      LessAsymmetric(a[1..], b[1..]);
    }
  }

  lemma {:induction false} LessTransitive(a: string, b: string, c: string)
    requires Less(a, b) && Less(b, c)
    ensures Less(a, c)
  {
    if |a| > 0 && |b| > 0 && |c| > 0 && a[0] == b[0] && b[0] == c[0] {
      LessTransitive(a[1..], b[1..], c[1..]);
    }
  }

  lemma {:induction false} LessTotal(a: string, b: string)
    ensures a == b || Less(a, b) || Less(b, a)
  {
    if |a| > 0 && |b| > 0 && a[0] == b[0] {
      LessTotal(a[1..], b[1..]);
      if a[1..] == b[1..] {
        assert a == [a[0]] + a[1..] && b == [b[0]] + b[1..];
      }
    }
  }

  /** Two strings of the same width compare like anything that extends
      them: the order of fixed-width keys is decided inside the key. */
  lemma {:induction false} LessExtends(a: string, b: string, x: string, y: string)
    requires |a| == |b| && Less(a, b)
    ensures Less(a + x, b + y)
  {
    if a[0] == b[0] {
      assert (a + x)[1..] == a[1..] + x && (b + y)[1..] == b[1..] + y;
      LessExtends(a[1..], b[1..], x, y);
    }
  }

  /** A common prefix does not change the order. */
  lemma {:induction false} LessCommonPrefix(p: string, x: string, y: string)
    ensures Less(p + x, p + y) <==> Less(x, y)
  {
    if |p| > 0 {
      assert (p + x)[1..] == p[1..] + x && (p + y)[1..] == p[1..] + y;
      LessCommonPrefix(p[1..], x, y);
    } else {
      assert p + x == x && p + y == y;
    }
  }

  predicate Sorted(s: seq<string>) {
    forall i, j :: 0 <= i < j < |s| ==> LessEq(s[i], s[j])
  }

  /** Inserts `x` into a sorted list, after the elements not greater than it. */
  function Insert(x: string, s: seq<string>): (r: seq<string>)
    requires Sorted(s)
    ensures Sorted(r)
    ensures multiset(r) == multiset(s) + multiset{x}
  {
    if |s| == 0 then [x]
    else if LessEq(x, s[0]) then
      assert forall j :: 0 < j < |s| ==> LessEq(x, s[j]) by {
        forall j | 0 < j < |s|
          ensures LessEq(x, s[j])
        {
          if x != s[0] && s[0] != s[j] {
            LessTransitive(x, s[0], s[j]);
          }
        }
      }
      [x] + s
    else
      LessTotal(x, s[0]);
      var rest := Insert(x, s[1..]);
      assert forall j :: 0 <= j < |rest| ==> LessEq(s[0], rest[j]) by {
        forall j | 0 <= j < |rest|
          ensures LessEq(s[0], rest[j])
        {
          assert rest[j] in multiset(rest);
          assert rest[j] == x || rest[j] in multiset(s[1..]);
          if rest[j] != x {
            var k :| 0 <= k < |s[1..]| && s[1..][k] == rest[j];
            assert s[k + 1] == rest[j];
          }
        }
      }
      assert s == [s[0]] + s[1..];
      [s[0]] + rest
  }

  /** `sorted(s)`. */
  function Sort(s: seq<string>): (r: seq<string>)
    ensures Sorted(r)
    ensures multiset(r) == multiset(s)
  {
    if |s| == 0 then []
    else
      assert s == [s[0]] + s[1..];
      Insert(s[0], Sort(s[1..]))
  }

  function Reverse<T>(s: seq<T>): (r: seq<T>)
    ensures |r| == |s|
    ensures forall i :: 0 <= i < |s| ==> r[i] == s[|s| - 1 - i]
  {
    if |s| == 0 then [] else Reverse(s[1..]) + [s[0]]
  }
}

=== FILE: seqs.dfy ===
/** Identities about sequence slicing and concatenation, proved once so that
    proofs elsewhere can instantiate them instead of rediscovering them. */
module Seqs {

  lemma SplitAt<T>(s: seq<T>, j: nat)
    requires j < |s|
    ensures s == s[..j] + [s[j]] + s[j + 1..]
  {
  }

  lemma TakeNext<T>(s: seq<T>, i: nat)
    requires i < |s|
    ensures s[..i + 1] == s[..i] + [s[i]]
  {
  }

  lemma TakeDrop<T>(s: seq<T>, i: nat)
    requires i <= |s|
    ensures s[..i] + s[i..] == s
  {
  }

  lemma TakeAll<T>(s: seq<T>)
    ensures s[..|s|] == s
  {
  }

  lemma TakeThenRange<T>(s: seq<T>, i: nat, n: nat)
    requires i <= n <= |s|
    ensures s[..n] == s[..i] + s[i..n]
    ensures s[..n][..i] == s[..i]
  {
  }

  lemma ConsParts<T>(a: seq<T>, b: seq<T>)
    requires |a| > 0
    ensures (a + b)[0] == a[0] && (a + b)[1..] == a[1..] + b
  {
  }

  lemma AppendNothing<T>(a: seq<T>)
    ensures a + [] == a && [] + a == a
  {
  }

  lemma AppendAssoc<T>(a: seq<T>, b: seq<T>, c: seq<T>)
    ensures a + (b + c) == a + b + c
  {
  }

  lemma ConsSplit<T>(a: seq<T>)
    requires |a| > 0
    ensures [a[0]] + a[1..] == a
  {
  }

  lemma AppendPrefix<T>(a: seq<T>, b: seq<T>)
    ensures (a + b)[..|a|] == a && (a + b)[|a|..] == b
  {
  }

  /** Concatenation regrouped from the left to the right. */
  lemma Regroup<T>(a: seq<T>, b: seq<T>, c: seq<T>, d: seq<T>, e: seq<T>)
    ensures (((a + b) + c) + d) + e == a + (b + (c + (d + e)))
  {
  }

  /** Regroupings of left-nested concatenations into the right-nested
      form a parser that consumes its input from the front works on. */
  lemma RegroupFields<T>(q: seq<T>, colon: seq<T>, e: seq<T>, comma: seq<T>, t: seq<T>, close: seq<T>, rest: seq<T>)
    ensures ((((q + colon) + e) + comma) + t) + close + rest == q + (colon + (e + (comma + (t + close + rest))))
  {
  }

  lemma RegroupItems<T>(e: seq<T>, comma: seq<T>, t: seq<T>, close: seq<T>, rest: seq<T>)
    ensures (((e + comma) + t) + close) + rest == e + (comma + (t + close + rest))
  {
  }

  /** The first element of a concatenation whose first part is not empty. */
  lemma HeadOfAppend<T>(a: seq<T>, b: seq<T>, c: seq<T>)
    requires |a| > 0
    ensures |a + b + c| > 0 && (a + b + c)[0] == a[0]
  {
  }

  lemma RegroupFirst<T>(a: seq<T>, b: seq<T>, c: seq<T>, d: seq<T>)
    ensures ((a + b) + c) + d == a + ((b + c) + d)
  {
  }

  /** Putting the same element in front keeps a prefix a prefix. */
  lemma PrefixOfCons<T>(x: T, a: seq<T>, b: seq<T>)
    requires a <= b
    ensures [x] + a <= [x] + b
  {
    assert ([x] + b)[..|a| + 1] == [x] + a;
  }

  lemma IndexInLeft<T>(a: seq<T>, b: seq<T>, i: nat)
    requires i < |a|
    ensures (a + b)[i] == a[i]
  {
  }

  lemma IndexInRight<T>(a: seq<T>, b: seq<T>, i: nat)
    requires i < |b|
    ensures (a + b)[|a| + i] == b[i]
  {
  }

  lemma IndexInMiddle<T>(a: seq<T>, b: seq<T>, c: seq<T>, i: nat)
    requires i < |b|
    ensures (a + b + c)[|a| + i] == b[i]
  {
  }

  lemma PrefixOfAppend<T>(a: seq<T>, b: seq<T>, c: seq<T>)
    ensures (a + b + c)[..|a|] == a
  {
    assert forall i :: 0 <= i < |a| ==> (a + b + c)[i] == a[i];
  }
}

=== FILE: summarizer.dfy ===
/** The summarizer agent: a job's chunk file becomes `brochure.json`.

    `run_summarizer` checks for an API key, loads the chunks, asks the model
    for a brochure and saves it. The model is a parameter: a function from
    the request sent to the reply text, `None` when the call raises. The
    file system is a map from paths to contents; the run returns the files
    after it together with the requests it sent, so the order of its
    effects can be stated. */
module Summarizer {
  import opened Base
  import opened Text
  import opened Json
  import opened JsonCodec
  import opened ChunkStore
  import opened PromptContext

  const DefaultModel: string := "gpt-4o-mini"
  const DefaultMaxTokens: nat := 4000
  const DefaultJobsRoot: string := "./jobss"

  /** A configured `BrochureSummarizer`. */
  datatype Summarizer = Summarizer(model: string, maxTokens: nat)

  /** The chat request `generate_brochure` sends. The fixed instruction
      text wrapped around the context is not part of the model. */
  datatype Request = Request(model: string, maxTokens: nat, context: string)

  /** A generation: its outcome and the requests it sent, in order. */
  datatype Generation = Generation(result: Result<Value, Error>, calls: seq<Request>)

  /** A summarizer run: its outcome, the files after it, the requests sent. */
  datatype Run = Run(result: Result<Value, Error>, files: map<string, string>, calls: seq<Request>)

  /** `BrochureSummarizer(model, max_tokens)`: an unset or empty
      `OPENAI_API_KEY` fails before anything else happens. */
  function NewSummarizer(apiKey: Option<string>, model: string, maxTokens: nat): (r: Result<Summarizer, Error>)
    ensures r.Ok? <==> apiKey.Some? && |apiKey.value| > 0
    ensures r.Err? ==> r.error == MissingApiKey
    ensures r.Ok? ==> r.value.model == model && r.value.maxTokens == maxTokens
  {
    if apiKey.None? || apiKey.value == [] then Err(MissingApiKey)
    else Ok(Summarizer(model, maxTokens))
  }

  /** The `_metadata` object stamped onto every brochure. */
  function Metadata(generatedAt: string, model: string, count: nat): Value {
    Obj([Field("generated_at", Str(generatedAt)), Field("model", Str(model)), Field("chunks_processed", Int(count))])
  }

  /** What becomes of the reply: it must be JSON, and a JSON object, which
      then gets `_metadata`. */
  function Answer(content: Option<string>, now: string, model: string, count: nat): (r: Result<Value, Error>)
    ensures r.Ok? <==> content.Some? && Decode(content.value).Some? && Decode(content.value).value.Obj?
    ensures r.Ok? ==> r.value.Obj?
  {
    match content
    case None => Err(ServiceFailed)
    case Some(text) =>
      match Decode(text)
      case None => Err(DecodeError)
      case Some(v) =>
        if v.Obj? then Ok(Obj(Set(v.fields, "_metadata", Metadata(now, model, count))))
        else Err(TypeError)
  }

  /** `generate_brochure(chunks)`: no chunks is an error before any request;
      otherwise the context is prepared (which can itself fail) and sent in
      exactly one request. */
  function Generate(s: Summarizer, chunks: seq<Value>, now: string, reply: Request -> Option<string>): (g: Generation)
    ensures chunks == [] ==> g == Generation(Err(NoChunks), [])
    ensures |g.calls| <= 1
    ensures g.calls != [] <==> chunks != [] && Context(chunks, DefaultMaxChars).Ok?
    ensures g.calls != [] ==> g.calls[0] == Request(s.model, s.maxTokens, Context(chunks, DefaultMaxChars).value)
    ensures g.result.Ok? ==> g.calls != []
  {
    if |chunks| == 0 then Generation(Err(NoChunks), [])
    else
      match Context(chunks, DefaultMaxChars)
      case Err(e) => Generation(Err(e), [])
      case Ok(context) =>
        var req := Request(s.model, s.maxTokens, context);
        Generation(Answer(reply(req), now, s.model, |chunks|), [req])
  }

  /** `Path(jobs_root) / job_id`. */
  function JobDir(jobsRoot: string, jobId: string): string {
    JoinPath(jobsRoot, jobId)
  }

  function ChunksPath(jobsRoot: string, jobId: string): string {
    JoinPath(JobDir(jobsRoot, jobId), "chunks.jsonl")
  }

  function BrochurePath(jobsRoot: string, jobId: string): string {
    JoinPath(JobDir(jobsRoot, jobId), "brochure.json")
  }

  /** `save_brochure(brochure, path)`: the file at `path` now holds the
      encoded brochure; no other file changes. */
  function SaveBrochure(files: map<string, string>, path: string, brochure: Value): (r: map<string, string>)
    ensures r.Keys == files.Keys + {path}
    ensures forall p :: p in files && p != path ==> r[p] == files[p]
  {
    files[path := Encode(brochure)]
  }

  /** The saved file reads back as the brochure. */
  lemma BrochureFileRoundTrip(files: map<string, string>, path: string, brochure: Value)
    requires WellFormed(brochure)
    ensures Decode(SaveBrochure(files, path, brochure)[path]) == Some(brochure)
  {
    RoundTrip(brochure);
  }

  /** `len(x)` is defined for a missing key (read as `[]`), a string, a
      list and a dict; `None`, a boolean or a number raises `TypeError`. */
  predicate Countable(v: Option<Value>) {
    v.None? || v.value.Str? || v.value.Arr? || v.value.Obj?
  }

  /** The closing report of `run_summarizer` can take the length of the
      three lists it prints. */
  predicate Reportable(b: Value) {
    b.Obj?
    && Countable(Get(b.fields, "key_features"))
    && Countable(Get(b.fields, "competitive_advantages"))
    && Countable(Get(b.fields, "how_it_works"))
  }

  /** The steps of `run_summarizer` once the two paths are fixed: key
      check, load, generate, save, report. The report comes after the save:
      a brochure whose lists cannot be counted fails the run with the file
      already written. */
  function RunAt(chunksPath: string, brochurePath: string, apiKey: Option<string>, files: map<string, string>,
                 now: string, reply: Request -> Option<string>): (run: Run)
    ensures run.result.Err? ==> run.files == files
                                || (run.result == Err(TypeError) && run.files.Keys == files.Keys + {brochurePath}
                                    && forall p :: p in files && p != brochurePath ==> run.files[p] == files[p])
    ensures run.result.Ok? ==> run.files == SaveBrochure(files, brochurePath, run.result.value) && Reportable(run.result.value)
    ensures run.calls != [] ==> chunksPath in files
  {
    match NewSummarizer(apiKey, DefaultModel, DefaultMaxTokens)
    case Err(e) => Run(Err(e), files, [])
    case Ok(s) =>
      match LoadChunks(files, chunksPath)
      case Err(e) => Run(Err(e), files, [])
      case Ok(chunks) =>
        var g := Generate(s, chunks, now, reply);
        match g.result
        case Err(e) => Run(Err(e), files, g.calls)
        case Ok(brochure) =>
          var saved := SaveBrochure(files, brochurePath, brochure);
          if Reportable(brochure) then Run(Ok(brochure), saved, g.calls)
          else Run(Err(TypeError), saved, g.calls)
  }

  /** `run_summarizer(job_id, jobs_root)`: reads the job's chunk file and
      writes the brochure next to it. */
  function RunSummarizer(jobsRoot: string, jobId: string, apiKey: Option<string>, files: map<string, string>,
                         now: string, reply: Request -> Option<string>): (run: Run)
    ensures run.result.Err? ==> run.files == files
                                || (run.result == Err(TypeError) && run.files.Keys == files.Keys + {BrochurePath(jobsRoot, jobId)}
                                    && forall p :: p in files && p != BrochurePath(jobsRoot, jobId) ==> run.files[p] == files[p])
    ensures run.result.Ok? ==> run.files == SaveBrochure(files, BrochurePath(jobsRoot, jobId), run.result.value)
                               && Reportable(run.result.value)
    ensures run.calls != [] ==> ChunksPath(jobsRoot, jobId) in files
  {
    RunAt(ChunksPath(jobsRoot, jobId), BrochurePath(jobsRoot, jobId), apiKey, files, now, reply)
  }

  // ---------------------------------------------------------------------
  // What the stamp does to the reply

  lemma MetadataWellFormed(generatedAt: string, model: string, count: nat)
    ensures WellFormed(Metadata(generatedAt, model, count))
  {
    var fs := Metadata(generatedAt, model, count).fields;
    assert fs[1..][1..] == fs[2..] && fs[2..][1..] == [];
    assert KeySet(fs[2..]) == {"chunks_processed"};
    assert KeySet(fs[1..]) == {"model", "chunks_processed"};
    assert Distinct(fs[2..]) && Distinct(fs[1..]);
  }

  /** On success the brochure is the reply object with `_metadata` set to
      `{generated_at, model, chunks_processed}`: every other key keeps its
      value, the keys are the reply's plus `_metadata`, a `_metadata` the
      reply already had keeps its position, a new one comes last, and the
      brochure is a value Python can hold. */
  lemma StampedReply(content: string, now: string, model: string, count: nat)
    requires Answer(Some(content), now, model, count).Ok?
    ensures var fs := Decode(content).value.fields;
            var b := Answer(Some(content), now, model, count).value;
            && Get(b.fields, "_metadata") == Some(Metadata(now, model, count))
            && (forall k :: k != "_metadata" ==> Get(b.fields, k) == Get(fs, k))
            && KeySet(b.fields) == KeySet(fs) + {"_metadata"}
            && ("_metadata" !in KeySet(fs) ==> b.fields == fs + [Field("_metadata", Metadata(now, model, count))])
            && ("_metadata" in KeySet(fs) ==> |b.fields| == |fs|)
            && WellFormed(b)
  {
    var v := Decode(content).value;
    var meta := Metadata(now, model, count);
    MetadataWellFormed(now, model, count);
    SetKeepsWellFormed(v.fields, "_metadata", meta);
  }

  /** The answer fails exactly as `generate_brochure` does: a failed call
      re-raises, a reply that is not JSON raises `JSONDecodeError`, and a
      JSON value that is not an object cannot take a key. */
  lemma AnswerErrors(content: Option<string>, now: string, model: string, count: nat)
    ensures content.None? ==> Answer(content, now, model, count) == Err(ServiceFailed)
    ensures content.Some? && Decode(content.value).None? ==> Answer(content, now, model, count) == Err(DecodeError)
    ensures content.Some? && Decode(content.value).Some? && !Decode(content.value).value.Obj?
      ==> Answer(content, now, model, count) == Err(TypeError)
  {
  }

  /** `chunks_processed` counts every loaded chunk, also those the context
      left out because they were blank or past the budget. */
  lemma CountsAllChunks(s: Summarizer, chunks: seq<Value>, now: string, reply: Request -> Option<string>)
    requires Generate(s, chunks, now, reply).result.Ok?
    ensures var b := Generate(s, chunks, now, reply).result.value;
            b.Obj? && Get(b.fields, "_metadata") == Some(Metadata(now, s.model, |chunks|))
  {
    var req := Generate(s, chunks, now, reply).calls[0];
    StampedReply(reply(req).value, now, s.model, |chunks|);
  }

  /** The outcome depends on the model only through the one reply: two
      models that answer the request alike give the same generation. */
  lemma OnlyTheReplyMatters(s: Summarizer, chunks: seq<Value>, now: string, f: Request -> Option<string>, h: Request -> Option<string>)
    requires forall q :: q in Generate(s, chunks, now, f).calls ==> f(q) == h(q)
    ensures Generate(s, chunks, now, f) == Generate(s, chunks, now, h)
  {
    if chunks != [] && Context(chunks, DefaultMaxChars).Ok? {
      assert Generate(s, chunks, now, f).calls[0] in Generate(s, chunks, now, f).calls;
    }
  }

  // ---------------------------------------------------------------------
  // The run

  /** The key is checked first: without one nothing is read, sent or
      written, whatever the files hold. */
  lemma KeyCheckedFirst(jobsRoot: string, jobId: string, apiKey: Option<string>, files: map<string, string>,
                        now: string, reply: Request -> Option<string>)
    requires apiKey.None? || apiKey.value == []
    ensures RunSummarizer(jobsRoot, jobId, apiKey, files, now, reply) == Run(Err(MissingApiKey), files, [])
  {
  }

  /** A missing chunk file raises `FileNotFoundError` before any request. */
  lemma MissingChunkFile(jobsRoot: string, jobId: string, apiKey: Option<string>, files: map<string, string>,
                         now: string, reply: Request -> Option<string>)
    requires apiKey.Some? && apiKey.value != []
    requires ChunksPath(jobsRoot, jobId) !in files
    ensures RunSummarizer(jobsRoot, jobId, apiKey, files, now, reply)
         == Run(Err(FileNotFound(ChunksPath(jobsRoot, jobId))), files, [])
  {
  }

  /** A reply that is not JSON is sent back as an error and no brochure file
      is written. */
  lemma BadReplyWritesNothing(jobsRoot: string, jobId: string, apiKey: Option<string>, files: map<string, string>,
                              now: string, reply: Request -> Option<string>)
    requires var run := RunSummarizer(jobsRoot, jobId, apiKey, files, now, reply);
             |run.calls| == 1 && reply(run.calls[0]).Some? && Decode(reply(run.calls[0]).value).None?
    ensures var run := RunSummarizer(jobsRoot, jobId, apiKey, files, now, reply);
            run.result == Err(DecodeError) && run.files == files
  {
    var run := RunSummarizer(jobsRoot, jobId, apiKey, files, now, reply);
    AnswerErrors(reply(run.calls[0]), now, DefaultModel, |LoadChunks(files, ChunksPath(jobsRoot, jobId)).value|);
  }

  /** After a successful run, `brochure.json` reads back as the brochure. */
  lemma SavedBrochureReadsBack(jobsRoot: string, jobId: string, apiKey: Option<string>, files: map<string, string>,
                               now: string, reply: Request -> Option<string>)
    requires RunSummarizer(jobsRoot, jobId, apiKey, files, now, reply).result.Ok?
    ensures var run := RunSummarizer(jobsRoot, jobId, apiKey, files, now, reply);
            BrochurePath(jobsRoot, jobId) in run.files
            && Decode(run.files[BrochurePath(jobsRoot, jobId)]) == Some(run.result.value)
  {
    var run := RunSummarizer(jobsRoot, jobId, apiKey, files, now, reply);
    var chunks := LoadChunks(files, ChunksPath(jobsRoot, jobId)).value;
    var req := run.calls[0];
    StampedReply(reply(req).value, now, DefaultModel, |chunks|);
    BrochureFileRoundTrip(files, BrochurePath(jobsRoot, jobId), run.result.value);
  }

  /** Once a brochure is generated it is saved, and only then reported:
      the run succeeds exactly when the report can count the brochure's
      lists, and the file is written either way. */
  lemma ReportAfterSave(chunksPath: string, brochurePath: string, apiKey: Option<string>, files: map<string, string>,
                        now: string, reply: Request -> Option<string>)
    requires NewSummarizer(apiKey, DefaultModel, DefaultMaxTokens).Ok?
    requires LoadChunks(files, chunksPath).Ok?
    requires Generate(Summarizer(DefaultModel, DefaultMaxTokens), LoadChunks(files, chunksPath).value, now, reply).result.Ok?
    ensures var b := Generate(Summarizer(DefaultModel, DefaultMaxTokens), LoadChunks(files, chunksPath).value, now, reply).result.value;
            var run := RunAt(chunksPath, brochurePath, apiKey, files, now, reply);
            && run.files == SaveBrochure(files, brochurePath, b)
            && (Reportable(b) ==> run.result == Ok(b))
            && (!Reportable(b) ==> run.result == Err(TypeError))
  {
  }

  /** Stamping `_metadata` leaves the three counted lists alone. */
  lemma StampKeepsReportable(v: Value, meta: Value)
    requires Reportable(v)
    ensures Reportable(Obj(Set(v.fields, "_metadata", meta)))
  {
    var fs := Set(v.fields, "_metadata", meta);
    assert Get(fs, "key_features") == Get(v.fields, "key_features");
    assert Get(fs, "competitive_advantages") == Get(v.fields, "competitive_advantages");
    assert Get(fs, "how_it_works") == Get(v.fields, "how_it_works");
  }

  /** A reply that decodes to an object `v` is generated as `v` stamped. */
  lemma ObjectReplyGenerated(chunks: seq<Value>, now: string, reply: Request -> Option<string>, v: Value)
    requires |chunks| > 0 && Context(chunks, DefaultMaxChars).Ok?
    requires forall q :: reply(q).Some? && Decode(reply(q).value) == Some(v)
    requires v.Obj?
    ensures Generate(Summarizer(DefaultModel, DefaultMaxTokens), chunks, now, reply).result
            == Ok(Obj(Set(v.fields, "_metadata", Metadata(now, DefaultModel, |chunks|))))
  {
    var req := Request(DefaultModel, DefaultMaxTokens, Context(chunks, DefaultMaxChars).value);
    assert reply(req).Some? && Decode(reply(req).value) == Some(v);
  }

  /** A model whose reply always decodes to the same object `v` whose
      lists can be counted: the run succeeds with `v` stamped. */
  lemma ObjectReplyRun(chunksPath: string, brochurePath: string, apiKey: string, files: map<string, string>,
                       chunks: seq<Value>, now: string, reply: Request -> Option<string>, v: Value)
    requires |apiKey| > 0 && |chunks| > 0
    requires LoadChunks(files, chunksPath) == Ok(chunks)
    requires Context(chunks, DefaultMaxChars).Ok?
    requires forall q :: reply(q).Some? && Decode(reply(q).value) == Some(v)
    requires Reportable(v)
    ensures RunAt(chunksPath, brochurePath, Some(apiKey), files, now, reply).result
            == Ok(Obj(Set(v.fields, "_metadata", Metadata(now, DefaultModel, |chunks|))))
  {
    var meta := Metadata(now, DefaultModel, |chunks|);
    ObjectReplyGenerated(chunks, now, reply, v);
    StampKeepsReportable(v, meta);
    ReportAfterSave(chunksPath, brochurePath, Some(apiKey), files, now, reply);
  }

  /** A reply whose features list is `null`. */
  const NullFeatures: Value := Obj([Field("key_features", Null)])

  /** A model that always answers with that reply. */
  function NullFeaturesReply(q: Request): Option<string> {
    Some(Encode(NullFeatures))
  }

  /** The brochure generated from that reply. */
  function NullFeaturesBrochure(now: string, count: nat): Value {
    Obj([Field("key_features", Null), Field("_metadata", Metadata(now, DefaultModel, count))])
  }

  /** The reply `{"key_features": null}` reads back as itself. */
  lemma NullFeaturesDecodes()
    ensures Decode(Encode(NullFeatures)) == Some(NullFeatures)
  {
    assert WellFormed(NullFeatures);
    RoundTrip(NullFeatures);
  }

  /** It has no `_metadata`, so the stamp is appended. */
  lemma NullFeaturesStamped(now: string, count: nat)
    ensures Set(NullFeatures.fields, "_metadata", Metadata(now, DefaultModel, count)) == NullFeaturesBrochure(now, count).fields
  {
    assert "_metadata" !in KeySet(NullFeatures.fields);
  }

  /** The reply is an object, so it is stamped and becomes a brochure
      Python can hold. */
  lemma NullFeaturesAnswer(now: string, count: nat)
    ensures Answer(Some(Encode(NullFeatures)), now, DefaultModel, count) == Ok(NullFeaturesBrochure(now, count))
    ensures WellFormed(NullFeaturesBrochure(now, count))
  {
    NullFeaturesDecodes();
    NullFeaturesStamped(now, count);
    StampedReply(Encode(NullFeatures), now, DefaultModel, count);
  }

  /** Its features list cannot be counted. */
  lemma NullFeaturesUnreportable(now: string, count: nat)
    ensures !Reportable(NullFeaturesBrochure(now, count))
  {
    assert Get(NullFeaturesBrochure(now, count).fields, "key_features") == Some(Null);
  }

  /** A reply `{"key_features": null}` is accepted and saved, and the run
      then fails with `TypeError` when the report takes the list's length:
      `brochure.json` is on disk although the run raised. */
  lemma NullFeaturesFailAfterSave(chunksPath: string, brochurePath: string, apiKey: string,
                                  files: map<string, string>, chunks: seq<Value>, now: string)
    requires |apiKey| > 0 && |chunks| > 0
    requires LoadChunks(files, chunksPath) == Ok(chunks)
    requires Context(chunks, DefaultMaxChars).Ok?
    ensures var run := RunAt(chunksPath, brochurePath, Some(apiKey), files, now, NullFeaturesReply);
            var b := NullFeaturesBrochure(now, |chunks|);
            && run.result == Err(TypeError)
            && run.files == SaveBrochure(files, brochurePath, b)
            && Decode(run.files[brochurePath]) == Some(b)
  {
    var reply := NullFeaturesReply;
    var b := NullFeaturesBrochure(now, |chunks|);
    assert Generate(Summarizer(DefaultModel, DefaultMaxTokens), chunks, now, reply).result == Ok(b) by {
      NullFeaturesAnswer(now, |chunks|);
    }
    NullFeaturesUnreportable(now, |chunks|);
    ReportAfterSave(chunksPath, brochurePath, Some(apiKey), files, now, reply);
    assert WellFormed(b) by {
      NullFeaturesAnswer(now, |chunks|);
    }
    BrochureFileRoundTrip(files, brochurePath, b);
  }

  // ---------------------------------------------------------------------
  // Chunk files written by ingestion

  /** A saved record's text is its document's content. */
  lemma RecordText(d: Doc)
    ensures ChunkText(Record(d)) == Some(d.content)
  {
  }

  /** Records as `save_chunks` writes them always have a usable text, so the
      context of a saved chunk file never fails. */
  lemma RecordsContext(docs: seq<Doc>, m: int)
    ensures TypedPrefix(Records(docs)) == |docs|
    ensures Context(Records(docs), m) == Ok(Join("\n", Cut(Frames(Records(docs), 0, |docs|), m)))
  {
    var rs := Records(docs);
    forall i | 0 <= i < |rs|
      ensures Typed(rs[i])
    {
      RecordText(docs[i]);
    }
    TypedPrefixIs(rs, |rs|);
  }

  /** On a chunk file that ingestion wrote for at least one valid document,
      with a key set, the run sends exactly one request: the default model,
      the default token cap, and the context of the saved records. */
  lemma IngestedChunksReachModel(jobsRoot: string, jobId: string, apiKey: string, docs: seq<Doc>,
                                 files: map<string, string>, now: string, reply: Request -> Option<string>)
    requires |apiKey| > 0 && |docs| > 0
    requires forall i :: 0 <= i < |docs| ==> ValidDoc(docs[i])
    ensures var fs := files[ChunksPath(jobsRoot, jobId) := SaveChunks(docs)];
            var run := RunSummarizer(jobsRoot, jobId, Some(apiKey), fs, now, reply);
            && Context(Records(docs), DefaultMaxChars).Ok?
            && run.calls == [Request(DefaultModel, DefaultMaxTokens, Context(Records(docs), DefaultMaxChars).value)]
  {
    SavedChunksReachModel(ChunksPath(jobsRoot, jobId), BrochurePath(jobsRoot, jobId), apiKey, docs, files, now, reply);
  }

  lemma SavedChunksReachModel(path: string, brochurePath: string, apiKey: string, docs: seq<Doc>,
                              files: map<string, string>, now: string, reply: Request -> Option<string>)
    requires |apiKey| > 0 && |docs| > 0
    requires forall i :: 0 <= i < |docs| ==> ValidDoc(docs[i])
    ensures var run := RunAt(path, brochurePath, Some(apiKey), files[path := SaveChunks(docs)], now, reply);
            && Context(Records(docs), DefaultMaxChars).Ok?
            && run.calls == [Request(DefaultModel, DefaultMaxTokens, Context(Records(docs), DefaultMaxChars).value)]
  {
    var fs, rs := files[path := SaveChunks(docs)], Records(docs);
    assert LoadChunks(fs, path) == Ok(rs) by {
      ChunkFileRoundTrip(docs, files, path);
    }
    assert Context(rs, DefaultMaxChars).Ok? by {
      RecordsContext(docs, DefaultMaxChars);
    }
    LoadedChunksReachModel(path, brochurePath, apiKey, fs, rs, now, reply);
  }

  /** With a key set and a chunk file that loads to chunks with a context,
      the run asks the model once, about that context. */
  lemma LoadedChunksReachModel(path: string, brochurePath: string, apiKey: string, files: map<string, string>,
                               chunks: seq<Value>, now: string, reply: Request -> Option<string>)
    requires |apiKey| > 0 && |chunks| > 0
    requires LoadChunks(files, path) == Ok(chunks)
    requires Context(chunks, DefaultMaxChars).Ok?
    ensures RunAt(path, brochurePath, Some(apiKey), files, now, reply).calls
         == [Request(DefaultModel, DefaultMaxTokens, Context(chunks, DefaultMaxChars).value)]
  {
    var s := Summarizer(DefaultModel, DefaultMaxTokens);
    assert NewSummarizer(Some(apiKey), DefaultModel, DefaultMaxTokens) == Ok(s);
  }
}

=== FILE: text.dfy ===
/** Python string primitives the pipeline relies on: `str.strip`,
    `str.rstrip(".")`, `str.lower`, `str.split(".")`, `"\n".join`, slicing
    `s[:k]` and the decimal rendering of integers.

    Strings are sequences of Unicode code points, as in Python 3, so `|s|`
    is Python's `len(s)`. */
module Text {
  import Seqs

  /** The characters Python's argument-less `str.strip()` removes
      (`str.isspace`). */
  predicate IsSpace(c: char) {
    || c == ' '
    || ('\t' <= c <= '\r')
    || ('\U{1c}' <= c <= '\U{1f}')
    || c == '\U{85}' || c == '\U{a0}' || c == '\U{1680}'
    || ('\U{2000}' <= c <= '\U{200a}')
    || c == '\U{2028}' || c == '\U{2029}' || c == '\U{202f}'
    || c == '\U{205f}' || c == '\U{3000}'
  }

  /** True when `s.strip()` is empty, i.e. Python treats `s` as blank. */
  predicate Blank(s: string) {
    forall i :: 0 <= i < |s| ==> IsSpace(s[i])
  }

  /** `s.lstrip()`. */
  function LStrip(s: string): string {
    if |s| > 0 && IsSpace(s[0]) then LStrip(s[1..]) else s
  }

  /** `s.rstrip()`. */
  function RStrip(s: string): string {
    if |s| > 0 && IsSpace(s[|s| - 1]) then RStrip(s[..|s| - 1]) else s
  }

  /** `s.strip()`. */
  function Strip(s: string): string {
    RStrip(LStrip(s))
  }

  /** `s.lstrip()` is the longest suffix of `s` that does not start with
      white space. */
  lemma {:induction false} LStripSpec(s: string)
    ensures |LStrip(s)| <= |s| && LStrip(s) == s[|s| - |LStrip(s)|..]
    ensures Blank(s[..|s| - |LStrip(s)|])
    ensures |LStrip(s)| > 0 ==> !IsSpace(LStrip(s)[0])
  {
    if |s| > 0 && IsSpace(s[0]) {
      LStripSpec(s[1..]);
      var k := |s| - |LStrip(s)|;
      assert forall i :: 1 <= i < k ==> s[i] == s[1..][..k - 1][i - 1];
    }
  }

  /** `s.rstrip()` is the longest prefix of `s` that does not end with
      white space. */
  lemma {:induction false} RStripSpec(s: string)
    ensures |RStrip(s)| <= |s| && RStrip(s) == s[..|RStrip(s)|]
    ensures Blank(s[|RStrip(s)|..])
    ensures |RStrip(s)| > 0 ==> !IsSpace(RStrip(s)[|RStrip(s)| - 1])
  {
    if |s| > 0 && IsSpace(s[|s| - 1]) {
      RStripSpec(s[..|s| - 1]);
      var k := |RStrip(s)|;
      assert forall i :: k <= i < |s| - 1 ==> s[i] == s[..|s| - 1][k..][i - k];
    }
  }

  /** `s.strip()` is empty exactly when `s` is blank. */
  lemma StripEmptyIffBlank(s: string)
    ensures Strip(s) == [] <==> Blank(s)
  {
    LStripSpec(s);
    var l := LStrip(s);
    RStripSpec(l);
    if !Blank(s) {
      var i :| 0 <= i < |s| && !IsSpace(s[i]);
      assert s[..|s| - |l|] + l == s;
    }
  }

  /** Stripping leaves a string alone when it starts and ends with a
      non-space character, even after a blank tail is appended. */
  lemma StripKeepsFramed(s: string, tail: string)
    requires |s| > 0 && !IsSpace(s[0]) && !IsSpace(s[|s| - 1])
    requires Blank(tail)
    ensures Strip(s + tail) == s
  {
    var t := s + tail;
    assert t[0] == s[0];
    assert LStrip(t) == t;
    RStripSpec(t);
    var r := RStrip(t);
    assert t[|s| - 1] == s[|s| - 1];
    assert forall k :: |s| <= k < |t| ==> IsSpace(t[k]);
  }

  /** `s.rstrip(c)` for a single character `c`. */
  function RStripChar(s: string, c: char): (r: string)
    ensures |r| <= |s| && r == s[..|r|]
    ensures forall k :: |r| <= k < |s| ==> s[k] == c
    ensures |r| > 0 ==> r[|r| - 1] != c
  {
    if |s| > 0 && s[|s| - 1] == c then RStripChar(s[..|s| - 1], c) else s
  }

  /** `str.lower()` on the ASCII letters; other characters are kept. */
  function LowerChar(c: char): char {
    if 'A' <= c <= 'Z' then (c as int - 'A' as int + 'a' as int) as char else c
  }

  function Lower(s: string): (r: string)
    ensures |r| == |s|
    ensures forall i :: 0 <= i < |s| ==> r[i] == LowerChar(s[i])
  {
    if |s| == 0 then [] else [LowerChar(s[0])] + Lower(s[1..])
  }

  /** Python's prefix slice `s[:k]`, where a negative `k` counts from the
      end. */
  function PyPrefix(s: string, k: int): (r: string)
    ensures |r| <= |s| && r == s[..|r|]
    ensures 0 <= k ==> |r| == if k < |s| then k else |s|
    ensures k < 0 ==> |r| == if |s| + k > 0 then |s| + k else 0
  {
    if k >= 0 then (if k < |s| then s[..k] else s)
    else (if |s| + k > 0 then s[..|s| + k] else [])
  }

  // ---------------------------------------------------------------------
  // Decimal numbers

  predicate IsDigit(c: char) {
    '0' <= c <= '9'
  }

  function DigitChar(d: nat): (c: char)
    requires d < 10
    ensures IsDigit(c)
  {
    ('0' as int + d) as char
  }

  function DigitValue(c: char): nat
    requires IsDigit(c)
  {
    c as int - '0' as int
  }

  /** The number a string of decimal digits denotes. */
  function DigitsValue(s: string): nat
    requires forall i :: 0 <= i < |s| ==> IsDigit(s[i])
  {
    if |s| == 0 then 0 else 10 * DigitsValue(s[..|s| - 1]) + DigitValue(s[|s| - 1])
  }

  /** `str(n)` for a natural number. */
  function NatText(n: nat): (r: string)
    ensures |r| > 0 && IsDigit(r[0]) && IsDigit(r[|r| - 1])
  {
    if n < 10 then [DigitChar(n)] else NatText(n / 10) + [DigitChar(n % 10)]
  }

  /** `str(n)` is the shortest decimal numeral of `n`: digits only, denoting
      `n`, with no leading zero. */
  lemma {:induction false} NatTextSpec(n: nat)
    ensures forall i :: 0 <= i < |NatText(n)| ==> IsDigit(NatText(n)[i])
    ensures DigitsValue(NatText(n)) == n
    ensures NatText(n)[0] == '0' ==> n == 0 && |NatText(n)| == 1
  {
    if n >= 10 {
      NatTextSpec(n / 10);
      var r := NatText(n);
      assert r[..|r| - 1] == NatText(n / 10);
    }
  }

  /** `str(i)` for an integer. */
  function IntText(i: int): (r: string)
    ensures |r| > 0 && (r[0] == '-' || IsDigit(r[0]))
  {
    if i < 0 then "-" + NatText(-i) else NatText(i)
  }

  function Pow10(w: nat): (p: nat)
    ensures p >= 1
  {
    if w == 0 then 1 else 10 * Pow10(w - 1)
  }

  /** `n` written with exactly `w` digits, zero-padded on the left: `%02d`
      for `w == 2`, as in `%m%d%H%M%S`. Digits beyond `w` are dropped, which
      no caller relies on. */
  function Fixed(n: nat, w: nat): (r: string)
    ensures |r| == w
  {
    if w == 0 then [] else Fixed(n / 10, w - 1) + [DigitChar(n % 10)]
  }

  /** A number below `10^w` written in `w` places denotes itself. */
  lemma {:induction false} FixedValue(n: nat, w: nat)
    requires n < Pow10(w)
    ensures forall i :: 0 <= i < w ==> IsDigit(Fixed(n, w)[i])
    ensures DigitsValue(Fixed(n, w)) == n
  {
    if w > 0 {
      FixedValue(n / 10, w - 1);
      var r := Fixed(n, w);
      assert r[..w - 1] == Fixed(n / 10, w - 1);
    }
  }

  /** A number with exactly `w` digits is written the same by `str` and by
      `w`-place padding. */
  lemma {:induction false} NatTextFixed(n: nat, w: nat)
    requires w >= 1 && Pow10(w - 1) <= n < Pow10(w)
    ensures NatText(n) == Fixed(n, w)
  {
    if w == 1 {
      assert Fixed(n, 1) == Fixed(n / 10, 0) + [DigitChar(n % 10)];
    } else {
      assert n / 10 < Pow10(w - 1);
      assert Pow10(w - 2) <= n / 10;
      NatTextFixed(n / 10, w - 1);
    }
  }

  // ---------------------------------------------------------------------
  // Joining and splitting

  /** A path that starts at the root. */
  predicate Absolute(p: string) {
    p != [] && p[0] == '/'
  }

  /** `os.path.join(a, b)` and `Path(a) / b`: an absolute `b` replaces
      `a`; otherwise one separator between the two, none added after an
      empty or slash-terminated `a`. */
  function JoinPath(a: string, b: string): string {
    if Absolute(b) then b
    else if a == [] || a[|a| - 1] == '/' then a + b
    else a + "/" + b
  }

  /** An absolute second part is the whole joined path; otherwise the
      joined path starts with `a`, ends with `b`, and between the two there
      is exactly one slash unless `a` is empty: either `a` ended with one
      or one is added. */
  lemma JoinPathParts(a: string, b: string)
    ensures Absolute(b) ==> JoinPath(a, b) == b
    ensures var r := JoinPath(a, b);
            !Absolute(b) ==>
            && |r| >= |a| + |b| && r[..|a|] == a && r[|r| - |b|..] == b
            && (a == [] ==> r == b)
            && (a != [] ==> r[|r| - |b| - 1] == '/' && |r| - |b| - |a| <= 1
                            && (|r| - |b| - |a| == 1 <==> a[|a| - 1] != '/'))
  {
  }

  /** The joined path ends with its second part. */
  lemma JoinPathEnds(a: string, b: string)
    ensures |JoinPath(a, b)| >= |b|
    ensures JoinPath(a, b)[|JoinPath(a, b)| - |b|..] == b
  {
    JoinPathParts(a, b);
  }

  /** Joining is associative, as `(Path(a) / b) / c == Path(a) / (b / c)`
      is in `pathlib`: a path built one part at a time is the path built
      from the joined tail. */
  lemma JoinPathAssoc(a: string, b: string, c: string)
    ensures JoinPath(JoinPath(a, b), c) == JoinPath(a, JoinPath(b, c))
  {
    if Absolute(c) {
      assert JoinPath(b, c) == c;
    } else if Absolute(b) {
      JoinAbsoluteLeft(a, b, c);
    } else if b == [] {
      JoinEmptyMiddle(a, c);
    } else {
      JoinRelativeMiddle(a, b, c);
    }
  }

  lemma JoinAbsoluteLeft(a: string, b: string, c: string)
    requires Absolute(b) && !Absolute(c)
    ensures JoinPath(JoinPath(a, b), c) == JoinPath(a, JoinPath(b, c))
  {
    assert JoinPath(a, b) == b;
    var bc := JoinPath(b, c);
    assert bc[..|b|] == b;
    assert bc[0] == b[0];
  }

  lemma JoinEmptyMiddle(a: string, c: string)
    requires !Absolute(c)
    ensures JoinPath(JoinPath(a, []), c) == JoinPath(a, JoinPath([], c))
  {
    assert JoinPath([], c) == c;
    var ab := JoinPath(a, []);
    if a != [] {
      assert ab[|ab| - 1] == '/';
      assert JoinPath(ab, c) == ab + c;
    }
  }

  lemma JoinRelativeMiddle(a: string, b: string, c: string)
    requires b != [] && !Absolute(b) && !Absolute(c)
    ensures JoinPath(JoinPath(a, b), c) == JoinPath(a, JoinPath(b, c))
  {
    var sa: string := if a == [] || a[|a| - 1] == '/' then [] else "/";
    var sb: string := if b[|b| - 1] == '/' then [] else "/";
    JoinRelative(a, b, sa);
    JoinRelative(b, c, sb);
    var ab, bc := a + sa + b, b + sb + c;
    assert ab[|ab| - 1] == b[|b| - 1];
    assert bc[0] == b[0];
    JoinRelative(ab, c, sb);
    JoinRelative(a, bc, sa);
    Seqs.AppendAssoc(a + sa, b + sb, c);
    Seqs.AppendAssoc(a + sa, b, sb);
  }

  /** A relative second part follows the first after the separator `sep`
      that `JoinPath` puts between them. */
  lemma JoinRelative(a: string, b: string, sep: string)
    requires !Absolute(b)
    requires sep == if a == [] || a[|a| - 1] == '/' then [] else "/"
    ensures JoinPath(a, b) == a + sep + b
  {
  }

  /** Total length of a list of strings. */
  function SumLen(parts: seq<string>): nat {
    if |parts| == 0 then 0 else SumLen(parts[..|parts| - 1]) + |parts[|parts| - 1]|
  }

  /** `"".join(parts)`. */
  function Concat(parts: seq<string>): (r: string)
    ensures |r| == SumLen(parts)
  {
    if |parts| == 0 then [] else Concat(parts[..|parts| - 1]) + parts[|parts| - 1]
  }

  lemma {:induction false} SumLenAppend(a: seq<string>, b: seq<string>)
    ensures SumLen(a + b) == SumLen(a) + SumLen(b)
  {
    if |b| == 0 {
      assert a + b == a;
    } else {
      assert (a + b)[..|a + b| - 1] == a + b[..|b| - 1];
      SumLenAppend(a, b[..|b| - 1]);
    }
  }

  lemma {:induction false} ConcatAppend(a: seq<string>, b: seq<string>)
    ensures Concat(a + b) == Concat(a) + Concat(b)
  {
    if |b| == 0 {
      assert a + b == a;
    } else {
      var init, last := b[..|b| - 1], b[|b| - 1];
      assert (a + b)[..|a + b| - 1] == a + init;
      assert (a + b)[|a + b| - 1] == last;
      ConcatAppend(a, init);
      Seqs.AppendAssoc(Concat(a), Concat(init), last);
    }
  }

  /** `sep.join(parts)`. */
  function Join(sep: string, parts: seq<string>): string {
    if |parts| == 0 then []
    else if |parts| == 1 then parts[0]
    else Join(sep, parts[..|parts| - 1]) + sep + parts[|parts| - 1]
  }

  /** The joined text is the parts and one separator between each two. */
  lemma {:induction false} JoinLength(sep: string, parts: seq<string>)
    ensures |parts| > 0 ==> |Join(sep, parts)| == SumLen(parts) + (|parts| - 1) * |sep|
    ensures |parts| == 0 ==> Join(sep, parts) == []
  {
    if |parts| > 1 {
      var init := parts[..|parts| - 1];
      JoinLength(sep, init);
      assert init[..|init| - 1] == parts[..|parts| - 2];
    }
  }

  /** `s.split(c)`: the pieces between occurrences of `c`, always at least
      one. */
  function Split(s: string, c: char): (r: seq<string>)
    ensures |r| > 0
    ensures forall i, k :: 0 <= i < |r| && 0 <= k < |r[i]| ==> r[i][k] != c
  {
    if |s| == 0 then [[]]
    else
      var rest := Split(s[1..], c);
      if s[0] == c then [[]] + rest
      else [[s[0]] + rest[0]] + rest[1..]
  }

  /** Splitting a string with no separator in it gives the string itself. */
  lemma {:induction false} SplitNoSeparator(s: string, c: char)
    requires forall k :: 0 <= k < |s| ==> s[k] != c
    ensures Split(s, c) == [s]
  {
    if |s| > 0 {
      SplitNoSeparator(s[1..], c);
      assert [s[0]] + s[1..] == s;
    }
  }

  /** Splitting distributes over an occurrence of the separator. */
  lemma {:induction false} SplitAround(a: string, b: string, c: char)
    ensures Split(a + [c] + b, c) == Split(a, c) + Split(b, c)
  {
    if |a| == 0 {
      assert a + [c] + b == [c] + b;
      assert ([c] + b)[1..] == b;
    } else {
      assert (a + [c] + b)[1..] == a[1..] + [c] + b;
      SplitAround(a[1..], b, c);
    }
  }

  /** Number of pieces that are not blank: the length of
      `[s.strip() for s in pieces if s.strip()]`. */
  function NonBlankCount(pieces: seq<string>): (n: nat)
    ensures n <= |pieces|
  {
    if |pieces| == 0 then 0
    else (if Blank(pieces[0]) then 0 else 1) + NonBlankCount(pieces[1..])
  }

  lemma {:induction false} NonBlankCountAppend(a: seq<string>, b: seq<string>)
    ensures NonBlankCount(a + b) == NonBlankCount(a) + NonBlankCount(b)
  {
    if |a| == 0 {
      assert a + b == b;
    } else {
      assert (a + b)[1..] == a[1..] + b;
      NonBlankCountAppend(a[1..], b);
    }
  }
}
